=== FILE: README.md ===
# Tienda storefront — a Dafny model of its rules

Tienda is a small clothing storefront. It has three parts:

- a React/TypeScript frontend: a catalogue, a T-shirt designer and an admin area;
- a Go backend: a REST API over SQLite, with JWT-protected admin routes;
- an image upload directory.

This project models the storefront's logic as pure Dafny functions over immutable data and proves what each rule promises. Sets of rules, frontend first:

- **Designer.** These are the reducers of the design context: template, text elements and shirt colour. Next is the reconciliation of the canvas with the design. The canvas is a sequence of objects with an optional id tag and an editing flag. Then the modified-event commit, with the debounce as a single pending slot that each new event overwrites. Last are the canvas helpers: the drag clamp, creating, updating and deleting text objects, and clearing the canvas (`design_context.dfy`, `canvas_editor.dfy`, `canvas_helpers.dfy`).
- **Admin lists.** These cover the per-image upload records (`image_upload.dfy`) and the product form's image, colour and size lists with their cleaning on submit (`product_form.dfy`). They also cover the orphaned-image selection, bulk delete and size formatting (`orphaned_images.dfy`), the dashboard search and statistics (`admin_dashboard.dfy`), and the product-to-form mapping of the edit page (`edit_product.dfy`).
- **Validators.** These are client image validation (`upload_validation.dfy`) and the form rules, including the e-mail pattern as a string predicate (`validation.dfy`). The error-message precedence and retryability live in `error_handling.dfy`. JavaScript's rounding and percentages live in `js_numbers.dfy`.
- **Catalogue.** This covers carousel index arithmetic, grid "load more", the filter panel and the home page filter (`carousel.dfy`, `product_grid.dfy`, `filters.dfy`, `home.dfy`). It also covers the mock data set and its queries (`mock_data.dfy`), and the products service: record normalisation, client-side filters, query building and payload defaults (`products_service.dfy`, `catalog.dfy`). The authentication context is `auth_context.dfy`.
- **Backend products.** This is the product entity, its validation and the scan of a stored row (`product.dfy`). The SQLite repository is modelled over an abstract table (`repository.dfy`). This table is a sequence of rows in rowid order. A soft-deleted row stays in the table with its deletion time. Every query is a function of the table, and every write returns the new table. Above the repository sit the service's validation gates (`service.dfy`) and the HTTP handler with its page arithmetic and status mapping (`product_handler.dfy`). Last is the response envelope (`web_response.dfy`).
- **Backend platform.** These are the image handlers: the orphan listing and deletion with its traversal guard (`images_handler.dfy`). They also include the upload service's size and extension checks and stored-name shape (`upload_service.dfy`) and the bearer-token middleware (`auth_middleware.dfy`). Last come the migration runner (`migrations.dfy`), the environment configuration (`config.dfy`) and the login input check (`admin.dfy`).

`wrappers.dfy`, `seqs.dfy`, `sets.dfy` and `strings.dfy` hold the shared vocabulary:

- `Option` and `Result`;
- filter, map and subsequence on sequences;
- string search and splitting;
- trimming with the JavaScript whitespace set;
- ASCII lower-casing;
- decimal rendering, and parsing with Go's 64-bit range.

Prices are integer cents on the backend. Canvas coordinates and percentages are reals. Time, ids, UUIDs, the contents of the upload directory and the outcome of storage calls are parameters.

The source does not guarantee that element ids are unique, because they come from the clock. The canvas theorems therefore take distinct ids as a precondition rather than proving it. `ORDER BY` leaves the order of equal keys open. The model breaks such ties by ascending id. `LIKE` is read as an ASCII case-insensitive substring test.

## Model

| member | source | states |
|---|---|---|
| DesignContext.Merge | frontend/src/context/DesignContext.tsx:61 | each field of the result is the update's when the update carries it and the element's otherwise, so an update without an id keeps the id |
| DesignContext.SelectTemplate | frontend/src/context/DesignContext.tsx:32-38 | records the template's id and name; text, colour, createdAt and updatedAt are unchanged |
| DesignContext.TextId | frontend/src/context/DesignContext.tsx:42 | a new element's id is `text-` followed by the decimal clock reading |
| DesignContext.TextIdInjective | frontend/src/context/DesignContext.tsx:42 | two adds get the same id exactly when the clock reads the same |
| DesignContext.AddDefaultText | frontend/src/context/DesignContext.tsx:40-44 | without an argument the appended element holds "Nuevo texto" under the clock's id, after the unchanged existing ones, keeping the template and shirt colour and stamping updatedAt |
| DesignContext.AddText | frontend/src/context/DesignContext.tsx:40-55 | appends exactly one element after the unchanged existing ones, with the given content, position (100,100), size 40, colour #000000 and the default font; only updatedAt changes otherwise |
| DesignContext.UpdateText | frontend/src/context/DesignContext.tsx:57-65 | same length and order; each element with the id gets the merge and every other element is unchanged; an unknown id leaves the list identical |
| DesignContext.DeleteText | frontend/src/context/DesignContext.tsx:67-73 | no element with the id remains, and every element with another id is kept as often as it occurred, in order |
| DesignContext.ChangeShirtColor | frontend/src/context/DesignContext.tsx:75-81 | only the shirt colour and updatedAt change |
| DesignContext.ResetDesign | frontend/src/context/DesignContext.tsx:23-27 | whatever the design, the result has no template, no text, the white default shirt (Blanco, #FFFFFF, the white mockup) and no timestamps |
| DesignContext.RestoreDesign | frontend/src/context/DesignContext.tsx:87-92 | every field of the saved draft is taken over except updatedAt, which is the new time |
| DesignContext.DeleteUndoesAdd | frontend/src/context/DesignContext.tsx:40-73 | deleting the element just added under a fresh id gives back the previous text list |
| DesignContext.AddTextKeepsIdsDistinct | frontend/src/context/DesignContext.tsx:40-55 | adding under a fresh id keeps the ids distinct (the precondition the code does not enforce) |
| DesignContext.UpdateTextIdempotent | frontend/src/context/DesignContext.tsx:57-65 | an update that does not rename keeps the id list and applying it twice equals applying it once |
| DesignContext.DeleteTextIdempotent | frontend/src/context/DesignContext.tsx:67-73 | deleting an id twice equals deleting it once |
| DesignContext.SelectTemplateLastWins | frontend/src/context/DesignContext.tsx:32-38 | selecting two templates in turn is selecting the last one once |
| DesignContext.ChangeShirtColorLastWins | frontend/src/context/DesignContext.tsx:75-81 | choosing two colours in turn is choosing the last one once |
| DesignContext.ResetForgets | frontend/src/context/DesignContext.tsx:83-85 | any two designs reset to the same initial design, and a reset erases an added text |
| DesignContext.RestoreBringsBack | frontend/src/context/DesignContext.tsx:87-92 | the restored design is the saved one save for updatedAt, and is never the blank initial design |
| DesignContext.IdsAfterAdd | frontend/src/context/DesignContext.tsx:40-55 | an add extends the id list by exactly the new id, at the end |
| CanvasHelpers.FindObject | frontend/src/utils/canvasHelpers.ts:134-135 | the index of the first i-text object tagged with the id, or -1 exactly when no object carries it |
| CanvasHelpers.NewTextObject | frontend/src/utils/canvasHelpers.ts:55-75 | the new object carries the element's id, content, position, size, family and colour, is selectable, rotation-locked and not being edited |
| CanvasHelpers.AddTextToCanvas | frontend/src/utils/canvasHelpers.ts:51-84 | the canvas grows by exactly that object at the end, everything before it unchanged |
| CanvasHelpers.ClampAxis | frontend/src/utils/canvasHelpers.ts:102-116 | when the extent fits, the position ends in [0, limit − extent]; a position already inside is kept; an extent larger than the limit pins the position to limit − extent |
| CanvasHelpers.ClampMoving | frontend/src/utils/canvasHelpers.ts:93-117 | the moving handler changes only left and top |
| CanvasHelpers.ClampKeepsBoxInside | frontend/src/utils/canvasHelpers.ts:99-116 | an object whose scaled box fits ends with the whole box inside the canvas |
| CanvasHelpers.ClampKeepsInsidePosition | frontend/src/utils/canvasHelpers.ts:103-116 | an object already inside the canvas is left exactly as it is |
| CanvasHelpers.ClampOversizedWidth | frontend/src/utils/canvasHelpers.ts:103-108 | for an object wider than the canvas the right-edge rule runs last and wins, leaving left = W − w < 0 |
| CanvasHelpers.ClampIdempotent | frontend/src/utils/canvasHelpers.ts:93-117 | clamping a clamped object changes nothing, whatever its size |
| CanvasHelpers.ApplyUpdate | frontend/src/utils/canvasHelpers.ts:137-145 | exactly the fields present in the update are set (content to text, colour to fill, position to left and top); the box takes the library's new layout when the text, size or family is set and is kept otherwise; every other property is unchanged |
| CanvasHelpers.UpdateTextProperties | frontend/src/utils/canvasHelpers.ts:129-149 | only the first object tagged with the id takes the update, with the new layout; no match leaves the canvas identical |
| CanvasHelpers.DeleteTextFromCanvas | frontend/src/utils/canvasHelpers.ts:154-162 | removes exactly the first tagged object, keeping the order of the rest; no match leaves the canvas identical |
| CanvasHelpers.DeleteRemovesOnlyFirst | frontend/src/utils/canvasHelpers.ts:154-162 | when two objects carry the id, one carrying it is still there after the delete |
| CanvasHelpers.ClearAllText | frontend/src/utils/canvasHelpers.ts:167-171 | no i-text object remains, and every other object is kept as often as it occurred, in order |
| CanvasHelpers.AddTextFindsNew | frontend/src/utils/canvasHelpers.ts:51-162 | an element whose id the canvas lacks is found, after the add, at the new last object, which shows it; deleting that id gives back the canvas |
| CanvasHelpers.ClearLeavesNoText | frontend/src/utils/canvasHelpers.ts:167-171 | after clearing no id is found any more, and clearing twice is clearing once |
| CanvasHelpers.UpdateMirrorsDesign | frontend/src/utils/canvasHelpers.ts:129-149 | when the object carrying an element's id shows the element, after the same update it shows the element the design's merge produces |
| CanvasHelpers.CanvasDeleteKeepsOthers | frontend/src/utils/canvasHelpers.ts:154-162 | when the deleted id is carried once, the canvas afterwards finds exactly the other ids it found before |
| CanvasHelpers.DesignDeleteKeepsOthers | frontend/src/context/DesignContext.tsx:67-73 | after the design deletes an id it has exactly the other ids it had |
| CanvasHelpers.DeleteMirrorsDesign | frontend/src/utils/canvasHelpers.ts:154-162 | when canvas and design agree on whether an id is present and the deleted id is carried once, they still agree after both deletes |
| CanvasEditor.RemoveStale | frontend/src/components/designer/CanvasEditor.tsx:82-90 | no tagged i-text object whose id is missing from the design remains; every other object is kept, in order |
| CanvasEditor.RemoveStaleCounts | frontend/src/components/designer/CanvasEditor.tsx:85-90 | every stale object goes with all its copies, and every other object keeps its number of occurrences |
| CanvasEditor.Refresh | frontend/src/components/designer/CanvasEditor.tsx:98-116 | a non-editing matching object ends showing the element's text, size, family, colour and position; kind, tag, editing flag and scale are unchanged; the box takes the library's new layout exactly when the text, size or family changed; an object that already shows the element is untouched |
| CanvasEditor.SyncElements | frontend/src/components/designer/CanvasEditor.tsx:93-122 | walking the elements in order: objects being edited or not matching are left as they were, appended objects are fresh tagged i-texts, every element ends with a tagged object, and with distinct ids each element's object is being edited or shows it |
| CanvasEditor.Sync | frontend/src/components/designer/CanvasEditor.tsx:79-125 | after the sync no stale tagged object remains, untagged and non-text objects survive, objects being edited survive unchanged, every element has a tagged object, and with distinct ids every non-editing one shows its element |
| CanvasEditor.SyncTagsMatchDesign | frontend/src/components/designer/CanvasEditor.tsx:79-125 | after the sync a non-empty id has a tagged object exactly when the design has an element with that id |
| CanvasEditor.OnObjectModified | frontend/src/components/designer/CanvasEditor.tsx:40-50 | an event without a target or without a tag is ignored; otherwise its object replaces the pending commit |
| CanvasEditor.CommitPayload | frontend/src/components/designer/CanvasEditor.tsx:51-61 | the committed update carries the object's position and its text when defined, and nothing else |
| CanvasEditor.Fire | frontend/src/components/designer/CanvasEditor.tsx:50-65 | when the timer fires the slot empties and the design gets `updateText` of the object's id with its position and text as they are at expiry; an empty slot, or an object without an id, leaves the design alone |
| CanvasEditor.Unmount | frontend/src/components/designer/CanvasEditor.tsx:70-76 | the cleanup, which runs on unmount and after every design change because `updateText` is new on each render, cancels any pending commit |
| CanvasEditor.LastTagged | frontend/src/components/designer/CanvasEditor.tsx:43-48 | the index of the last event with a tagged target; no later event has one |
| CanvasEditor.OnEventsKeepsLast | frontend/src/components/designer/CanvasEditor.tsx:43-50 | after a burst of events only the last tagged one is pending, or the slot is as before when none was tagged |
| CanvasEditor.FireMovesElement | frontend/src/components/designer/CanvasEditor.tsx:50-65 | every element carrying the object's id ends where the object is at expiry, with its text at that moment when it has one, and keeps its id |
| CanvasEditor.DesignChangeCancelsCommit | frontend/src/components/designer/CanvasEditor.tsx:37-76 | a design change between an event and the timer's expiry cancels the commit, leaving the design as the change made it |
| ImageUpload.SelectFile | frontend/src/components/admin/ImageUploadField.tsx:20-50 | no file changes nothing; otherwise exactly one entry for the first file is appended after the existing ones, with url "" and progress 0; a file failing validation carries the validation error and starts no upload, a valid one is marked uploading and starts one |
| ImageUpload.MapFile | frontend/src/components/admin/ImageUploadField.tsx:61-65 | the entries holding that file are transformed and every other entry is unchanged |
| ImageUpload.Progress | frontend/src/components/admin/ImageUploadField.tsx:49-67 | over the list it is built on (the source's `newImages`, see OnEvent), a progress event is acted on exactly when its total is non-zero, and then only the entries of that file get the rounded percentage |
| ImageUpload.Complete | frontend/src/components/admin/ImageUploadField.tsx:49-76 | over the list it is built on (the source's `newImages`, see OnEvent), the file's entries get the URL, uploading false and progress 100; the others are unchanged |
| ImageUpload.FailureMessage | frontend/src/components/admin/ImageUploadField.tsx:83 | the error's message when it is non-empty, otherwise exactly the fixed fallback; never empty |
| ImageUpload.Fail | frontend/src/components/admin/ImageUploadField.tsx:49-88 | over the list it is built on (the source's `newImages`, see OnEvent), the file's entries get the failure message and uploading false; the others are unchanged |
| ImageUpload.ApplyEvent | frontend/src/components/admin/ImageUploadField.tsx:54-88 | an event of the upload changes nothing only for a progress event with a zero total; otherwise the list keeps its length and every entry of another file |
| ImageUpload.StartUpload | frontend/src/components/admin/ImageUploadField.tsx:20-54 | an upload starts exactly for a valid first file, and its callbacks are built on the list the selection handed to `onChange`, which ends with the new uploading entry |
| ImageUpload.OnEvent | frontend/src/components/admin/ImageUploadField.tsx:49-88 | as written: every event of an upload hands `onChange` a list as long as the selection-time list, with that list's entries of other files, whatever the form's list has become since |
| ImageUpload.StaleEventRestoresRemoved | frontend/src/components/admin/ImageUploadField.tsx:49-100 | an entry of another file removed during the upload comes back with the upload's next event, and the list grows back by one |
| ImageUpload.StaleEventDropsSelection | frontend/src/components/admin/ImageUploadField.tsx:20-88 | a file chosen during the upload is listed after its selection, and the upload's next event hands back a list without it |
| ImageUpload.OnEventFixed | frontend/src/components/admin/ImageUploadField.tsx:54-88 | corrected: each event updates the list as it is when the event arrives, keeping its length and every entry of another file |
| ImageUpload.OnEventFixedKeepsEdits | frontend/src/components/admin/ImageUploadField.tsx:49-100 | with the corrected events a removal during the upload stays done and a file chosen during it stays listed |
| ImageUpload.OnEventFixedAgrees | frontend/src/components/admin/ImageUploadField.tsx:49-88 | when the list did not change during the upload, the written and the corrected events hand `onChange` the same list |
| ImageUpload.SelectThenComplete | frontend/src/components/admin/ImageUploadField.tsx:42-76 | selecting a fresh valid file and completing its upload appends exactly {file, url, 100, no error, not uploading} |
| ImageUpload.SelectThenFail | frontend/src/components/admin/ImageUploadField.tsx:42-88 | selecting a fresh valid file whose upload fails appends exactly {file, "", 0, the message, not uploading} |
| ImageUpload.RemoveAt | frontend/src/components/admin/ImageUploadField.tsx:97-100 | removes exactly the entry at the index, keeping the others in order; an index out of range changes nothing |
| ImageUpload.RemoveUndoesSelect | frontend/src/components/admin/ImageUploadField.tsx:20-100 | removing the entry a selection just appended gives back the previous list |
| ImageUpload.Retry | frontend/src/components/admin/ImageUploadField.tsx:102-112 | an entry without a file is left alone; otherwise only that entry gets no error, uploading and progress 0, keeping its url and file |
| ImageUpload.RetryProgress | frontend/src/components/admin/ImageUploadField.tsx:115-126 | as written: the progress event of a retry rebuilds the list from before the retry, so the entry keeps its old error and uploading flag |
| ImageUpload.RetryProgressRestoresError | frontend/src/components/admin/ImageUploadField.tsx:102-126 | for a failed entry, the retry clears the error and marks it uploading, and the first progress event puts the old error back and clears the uploading flag |
| ImageUpload.RetryProgressFixed | frontend/src/components/admin/ImageUploadField.tsx:107-126 | corrected: a progress event during a retry keeps the entry error-free and uploading and sets the rounded percentage, nothing else changes |
| ImageUpload.RetrySucceed | frontend/src/components/admin/ImageUploadField.tsx:129-135 | only the retried entry gets the URL, progress 100, no error and uploading false, keeping its file |
| ImageUpload.RetryFail | frontend/src/components/admin/ImageUploadField.tsx:136-144 | only the retried entry gets the failure message and uploading false, keeping url and file |
| ImageUpload.CanAddMore | frontend/src/components/admin/ImageUploadField.tsx:16-151 | the picker is offered exactly while there are fewer entries than the limit, which defaults to 4 |
| ImageUpload.SelectWithinLimit | frontend/src/components/admin/ImageUploadField.tsx:20-151 | while the picker is offered, one more selection keeps the list within the limit |
| UploadValidation.ValidateImageFile | frontend/src/api/uploads.ts:37-59 | valid exactly when the size is at most 5 MiB and the MIME type is one of the five allowed, and then without error; an oversized file gets the size message, otherwise a bad type gets the type message (the function in frontend/src/api/uploads.js is the same rule) |
| UploadValidation.LimitIsInclusive | frontend/src/api/uploads.js:29-38 | exactly 5 MiB is accepted and one byte more is rejected with the size message |
| UploadValidation.SizeBeforeType | frontend/src/api/uploads.js:33-47 | an oversized file gets the same answer whatever its type, so the size check comes first |
| JsNumbers.Round | frontend/src/components/admin/ImageUploadField.tsx:56-58 | `Math.round`: the nearest integer, halves rounded up |
| JsNumbers.RoundMonotone | frontend/src/components/admin/ImageUploadField.tsx:56-58 | rounding preserves order |
| JsNumbers.Percent | frontend/src/components/admin/ImageUploadField.tsx:55-57 | the percentage is the integer nearest to loaded·100/total, halves rounding up |
| JsNumbers.PercentInRange | frontend/src/components/admin/ImageUploadField.tsx:55-58 | with 0 ≤ loaded ≤ total and total > 0 the percentage lies in [0,100], is 0 at the start and 100 at the end |
| ProductForm.DefaultValues | frontend/src/components/admin/ProductForm.tsx:55-67 | the initial data when there is some; otherwise the blank form with gender Hombre, category Casual, one empty colour and no sizes |
| ProductForm.InitialImages | frontend/src/components/admin/ProductForm.tsx:26-30 | each initial URL becomes an entry with progress 100, not uploading, no file and no error; no initial data gives no entries |
| ProductForm.AddColorField | frontend/src/components/admin/ProductForm.tsx:71-73 | appends exactly one empty colour after the unchanged list |
| ProductForm.RemoveColorField | frontend/src/components/admin/ProductForm.tsx:75-78 | drops the colour at the index, keeping the order of the rest; removing the only colour leaves one empty field, so the list is never empty |
| ProductForm.RemoveUndoesAddColor | frontend/src/components/admin/ProductForm.tsx:71-78 | removing the field just added gives back the previous list |
| ProductForm.ToggleSize | frontend/src/components/admin/ProductForm.tsx:232-236 | checking appends the size; unchecking removes every occurrence of it and keeps every other size as often as it occurred, in order |
| ProductForm.UncheckUndoesCheck | frontend/src/components/admin/ProductForm.tsx:232-236 | checking then unchecking a size not selected before gives back the previous list |
| ProductForm.ImageUrls | frontend/src/components/admin/ProductForm.tsx:84-86 | one non-empty URL per entry with a URL and no error, and every such entry's URL is among them |
| ProductForm.ImageUrlsSnoc | frontend/src/components/admin/ProductForm.tsx:84-86 | the URLs follow the order of the entries: one more entry at the end adds its URL at the end exactly when it is usable |
| ProductForm.CleanColors | frontend/src/components/admin/ProductForm.tsx:97 | no blank colour is submitted, and every non-blank one is, as often as it occurred and in order |
| ProductForm.Submit | frontend/src/components/admin/ProductForm.tsx:80-103 | aborted exactly when no entry is usable; otherwise the data goes out with the usable URLs as images and the non-blank colours, every other field unchanged |
| ProductForm.EditResubmit | frontend/src/components/admin/ProductForm.tsx:26-103 | saving an edited product unchanged submits it as it was, when it has images, none with an empty URL, and no blank colour |
| Validation.ValidateEmail | frontend/src/utils/validation.ts:2-5 | the e-mail rule as a scan: an accepted address has no white space and an `@` that is not its first character |
| Validation.ValidateEmailMatchesPattern | frontend/src/utils/validation.ts:3 | the scan accepts exactly the strings the pattern describes: no white space, exactly one `@`, a non-empty local part, and a domain with a dot that is neither its first nor its last character |
| Validation.ScanGivesSplit | frontend/src/utils/validation.ts:3 | an accepted address splits at its `@` and a later dot into the three non-empty parts of the pattern |
| Validation.SplitGivesScan | frontend/src/utils/validation.ts:3 | conversely, any string splitting into the pattern's parts is accepted |
| Validation.AdminEmailValid | frontend/src/utils/validation.ts:2-5 | the administrator's address admin@tienda.com is accepted |
| Validation.LengthRule | frontend/src/utils/validation.ts:19-40 | a required length-bounded field passes exactly when non-empty and within bounds, its length counted in UTF-16 units as JavaScript counts it; empty reports the required message, too long the maximum message, too short the minimum message |
| Validation.ValidateName | frontend/src/utils/validation.ts:19-29 | a name passes exactly when it has 3 to 100 UTF-16 units; an empty one reports the required message |
| Validation.ValidateDescription | frontend/src/utils/validation.ts:30-40 | a description passes exactly when it has 10 to 500 UTF-16 units; an empty one reports the required message |
| Validation.AstralCharCountsTwice | frontend/src/utils/validation.ts:19-29 | a two-character name with a character outside the Basic Multilingual Plane is long enough, since it counts three units, while "ab" is not |
| Validation.ValidatePrice | frontend/src/utils/validation.ts:41-47 | a price passes exactly when present and at least 0.01; a missing one reports the required message |
| Validation.IntegerPriceRule | frontend/src/utils/validation.ts:41-47 | for whole prices the rule is price > 0 |
| Validation.ValidateImages | frontend/src/utils/validation.ts:48-56 | the list passes exactly when it has 1 to 4 entries and every one parses as a URL; the rules report in order: no entry, more than four, an unparsable URL |
| Validation.ValidateSizes | frontend/src/utils/validation.ts:58-61 | the sizes pass exactly when at least one is selected |
| Validation.ValidateColors | frontend/src/utils/validation.ts:62-65 | the colours pass exactly when there is at least one |
| Validation.Required | frontend/src/utils/validation.ts:66-71 | a required field passes exactly when non-empty, else reports its message |
| Validation.ProductErrors | frontend/src/utils/validation.ts:18-72 | the rules table applied to every field finds no error exactly when each field's rule holds, the URL rule included |
| Validation.Messages | frontend/src/utils/validation.ts:18-72 | no messages exactly when every field passed |
| Validation.FormErrors | frontend/src/components/admin/ProductForm.tsx:117-222 | the form's own checks (name, description, price, category, gender and sizes) find no error exactly when those fields' rules hold |
| Validation.FormChecksLessThanTable | frontend/src/components/admin/ProductForm.tsx:117-264 | data the whole table accepts passes the form, and the form also passes data without images that the table rejects |
| Validation.ValidateLoginEmail | frontend/src/utils/validation.ts:76-79 | the login e-mail passes exactly when it satisfies the e-mail rule; empty reports the required message |
| Validation.ValidateLoginPassword | frontend/src/utils/validation.ts:80-86 | the password passes exactly when it has at least 6 UTF-16 units; empty and too short report their own messages |
| Validation.AdminPasswordValid | frontend/src/utils/validation.ts:80-86 | the seeded password admin123 passes and the five-letter admin fails with the minimum-length message |
| ErrorHandling.StatusMessage | frontend/src/utils/errorHandling.ts:8-17 | a message exists exactly for 400, 401, 403, 404, 409, 422, 500, 502 and 503, and is never empty |
| ErrorHandling.KeyMessage | frontend/src/utils/errorHandling.ts:3-30 | the table's own entries looked up by key: every entry found is non-empty and GENERIC is present; a key that is not one of the table's own entries finds nothing |
| ErrorHandling.StatusKeysAgree | frontend/src/utils/errorHandling.ts:8-61 | a context key that is a status's decimal text finds the same message as the status itself |
| ErrorHandling.GetErrorMessage | frontend/src/utils/errorHandling.ts:35-65 | the result is never empty; a network error gives NETWORK_ERROR before anything else; then ECONNABORTED gives TIMEOUT; then a known status its message; then a non-empty backend message; then the message of a context that is one of the table's own keys, else GENERIC |
| ErrorHandling.StatusBeatsBackendMessage | frontend/src/utils/errorHandling.ts:46-56 | a known status wins over the server's own message |
| ErrorHandling.ContextFallback | frontend/src/utils/errorHandling.ts:52-64 | with an unknown status and no usable backend message the operation's message is used, and without a context GENERIC |
| ErrorHandling.IsRetryable | frontend/src/utils/errorHandling.ts:70-94 | retryable exactly for network errors, statuses 500 to 599, 408 and 429 |
| ErrorHandling.ClientErrorsNotRetried | frontend/src/utils/errorHandling.ts:8-94 | the client-error statuses of the table are never retried |
| Carousel.Renders | frontend/src/components/catalog/ProductCarousel.tsx:12-15 | the carousel renders exactly when there is at least one product |
| Carousel.Next | frontend/src/components/catalog/ProductCarousel.tsx:17-21 | from a valid index, the next index is (i + 1) mod n and stays in range |
| Carousel.Prev | frontend/src/components/catalog/ProductCarousel.tsx:23-27 | from a valid index, the previous index is (i − 1 + n) mod n and stays in range |
| Carousel.GoToSlide | frontend/src/components/catalog/ProductCarousel.tsx:29-31 | a dot shows its own slide whatever was on show, and a dot's index, which is below the number of products, is a valid slide |
| Carousel.PrevUndoesNext | frontend/src/components/catalog/ProductCarousel.tsx:17-27 | previous undoes next and next undoes previous |
| Carousel.Advance | frontend/src/components/catalog/ProductCarousel.tsx:33-40 | the auto-advance timer keeps a valid index valid |
| Carousel.AdvanceIsModular | frontend/src/components/catalog/ProductCarousel.tsx:17-40 | after k ticks the carousel shows slide (i + k) mod n |
| Carousel.FullCycle | frontend/src/components/catalog/ProductCarousel.tsx:33-40 | n ticks bring back the starting slide |
| Carousel.DotThenTicks | frontend/src/components/catalog/ProductCarousel.tsx:29-40 | after a dot is clicked the timer goes on from its slide: k ticks later slide (index + k) mod n is shown, whichever slide was on show before |
| ProductGrid.SliceEnd | frontend/src/components/catalog/ProductGrid.tsx:30 | the end index slicing uses: within range it is the count, past the end it is the length, negative counts from the back and is clamped at 0 |
| ProductGrid.Render | frontend/src/components/catalog/ProductGrid.tsx:18-52 | the empty state exactly for no products; otherwise the first min(displayCount, len) products, a "remaining" count exactly when displayCount < len, and then it is len − displayCount |
| ProductGrid.LoadMore | frontend/src/components/catalog/ProductGrid.tsx:33-35 | the new count is prev + perPage or the length, whichever is smaller, so it never exceeds the length |
| ProductGrid.LoadMoreExtends | frontend/src/components/catalog/ProductGrid.tsx:31-35 | while more remain, loading more strictly increases the count and the new page extends the old one |
| ProductGrid.AfterClicks | frontend/src/components/catalog/ProductGrid.tsx:14-35 | starting from perPage (12 by default), after at least one press the count is within the length |
| ProductGrid.AfterClicksPages | frontend/src/components/catalog/ProductGrid.tsx:14-35 | after k presses the grid shows min((k + 1) · perPage, len) products |
| ProductGrid.AllShownAfter | frontend/src/components/catalog/ProductGrid.tsx:30-35 | once (k + 1) pages cover the list every product is shown and the button disappears |
| Filters.GenderClick | frontend/src/components/catalog/Filters.tsx:21-26 | clicking the selected gender clears it, any other gender selects it, oversize untouched |
| Filters.OversizeToggle | frontend/src/components/catalog/Filters.tsx:30-35 | the toggle flips whether oversize is on, setting true or null, and leaves the gender untouched |
| Filters.Clear | frontend/src/components/catalog/Filters.tsx:37-44 | after clearing no filter is active |
| Filters.GenderClickTwice | frontend/src/components/catalog/Filters.tsx:21-26 | clicking a gender twice restores a state that had none or that gender, and otherwise ends with none |
| Filters.OversizeToggleTwice | frontend/src/components/catalog/Filters.tsx:30-35 | two toggles restore whether oversize is on, and restore null or true exactly |
| Filters.ChoosingActivates | frontend/src/components/catalog/Filters.tsx:21-44 | selecting a new gender, or switching oversize on, makes a filter active |
| Home.InitialFilters | frontend/src/pages/Home.tsx:20-26 | oversize starts null; the gender is the URL parameter when it is non-empty, and otherwise no filter is active |
| Home.Filtered | frontend/src/pages/Home.tsx:50-64 | the two sequential steps equal one filter by both tests: an order-preserving subsequence of the products holding exactly those that pass the gender test (when a gender is set) and the oversize test (only when oversize is true) |
| Home.FilterSteps | frontend/src/pages/Home.tsx:53-61 | the gender step followed by the oversize step is one filter by both tests |
| Home.InactiveShowsAll | frontend/src/pages/Home.tsx:50-64 | with no gender and oversize null or false every product is shown, in order |
| MockData.Mock | frontend/src/data/mock.ts:4-337 | a catalogue entry as the mock list writes it, with its gender, category and flags set |
| MockData.MockIdsDistinct | frontend/src/data/mock.ts:4-337 | the ids of the mock products are pairwise distinct |
| MockData.MockIdsListed | frontend/src/data/mock.ts:4-337 | the mock list has one product per listed id, in order |
| MockData.MockInvariants | frontend/src/data/mock.ts:4-337 | 22 products, distinct ids, and every product has at least one image |
| MockData.Featured | frontend/src/data/mock.ts:340-342 | exactly the featured products, as an order-preserving subsequence |
| MockData.MockFeaturedAreFirstFour | frontend/src/data/mock.ts:4-342 | the featured mock products are exactly the first four |
| MockData.Filtered | frontend/src/data/mock.ts:350-370 | the three sequential steps equal one filter by the conjunction of the filters that are set: an order-preserving subsequence holding exactly the products that pass |
| MockData.FilterSteps | frontend/src/data/mock.ts:355-369 | gender, category and oversize applied one after another is one filter by all three tests |
| MockData.NoFiltersReturnsAll | frontend/src/data/mock.ts:350-370 | no filters return every product, in order |
| MockData.OversizeFalseFilters | frontend/src/data/mock.ts:365-367 | a defined oversize of false keeps exactly the products that are not oversize |
| MockData.ProductById | frontend/src/data/mock.ts:373-375 | a product carrying the id, or nothing exactly when no product carries it |
| MockData.ProductByIdFirst | frontend/src/data/mock.ts:373-375 | the product found is the first one carrying the id |
| MockData.ProductByOwnId | frontend/src/data/mock.ts:373-375 | with distinct ids every product is found by its own id |
| Catalog.OrElse | frontend/src/services/products.ts:9-16 | a present non-empty string is kept, anything falsy gives the fallback |
| ProductsService.Transform | frontend/src/services/products.ts:5-22 | the id becomes its decimal text; name, price and timestamps pass through; description and category default to "", the lists to [], gender to unisex and both flags to false |
| ProductsService.TransformKeepsCompleteRecord | frontend/src/services/products.ts:5-22 | a record with every field present and non-empty loses nothing: its id text parses back to the number and every other field is kept |
| ProductsService.TransformAll | frontend/src/services/products.ts:33-77 | every record of a non-null answer is transformed, in order |
| ProductsService.ListAll | frontend/src/services/products.ts:29-48 | as written: a null product list makes the call reject, and otherwise every record is transformed, in order |
| ProductsService.Featured | frontend/src/services/products.ts:40-48 | only featured products, as an order-preserving subsequence of the transformed list |
| ProductsService.FeaturedAreFlaggedRecords | frontend/src/services/products.ts:45-47 | the featured products are exactly the transforms of the records whose flag is true, in order |
| ProductsService.TruthyNumber | frontend/src/services/products.ts:69-74 | a number is sent exactly when present and non-zero |
| ProductsService.TruthyString | frontend/src/services/products.ts:63-68 | a string is sent exactly when present and non-empty |
| ProductsService.Params | frontend/src/services/products.ts:61-74 | the query holds category, search, page and limit each exactly when truthy, with the given value; gender and oversize are never sent |
| ProductsService.Filtered | frontend/src/services/products.ts:76-92 | as written: no result exactly when the product list is null; otherwise the answer is narrowed client-side to an order-preserving subsequence holding exactly the transformed products that pass the gender test (when set) and the oversize test (when defined), and total and pages come from the pagination exactly when it is present |
| ProductsService.Narrow | frontend/src/services/products.ts:77-92 | the records are narrowed to an order-preserving subsequence holding exactly the transformed products that pass both client-side tests, with the pagination numbers when present |
| ProductsService.FilteredFixed | frontend/src/services/products.ts:76-92 | corrected: a null list reads as no products with the pagination kept, and on an array the result is the as-written one |
| ProductsService.NullListingRejected | frontend/src/services/products.ts:76-77 | for an empty page, sent with products null, every listing call rejects as written, while the corrected reading gives no products and the pagination |
| ProductsService.ClientSteps | frontend/src/services/products.ts:80-86 | the gender step followed by the oversize step is one filter by both tests |
| ProductsService.MissingGenderOnlyMatchesUnisex | frontend/src/services/products.ts:16-83 | a record without a gender passes a gender filter only when that filter is unisex |
| ProductsService.ById | frontend/src/services/products.ts:98-108 | a fetched record is transformed, a 404 is "no product", and any other failure is passed on with its status |
| ProductsService.ByIdOutcomes | frontend/src/services/products.ts:98-108 | a product comes back exactly when the fetch succeeded, and among failures only a 404 turns into "no product" |
| ProductsService.GenderOrDefault | frontend/src/services/products.ts:123-145 | the gender sent is never empty: the given one, or unisex |
| ProductsService.CreatePayload | frontend/src/services/products.ts:113-130 | the create body copies the form, with tags defaulted to [] and gender to unisex |
| ProductsService.UpdatePayload | frontend/src/services/products.ts:135-152 | the update body copies the form, passing tags through without a default and gender defaulted to unisex |
| ProductsService.PayloadsDifferOnlyInTags | frontend/src/services/products.ts:113-152 | the two bodies differ only in tags, and agree exactly when the form has tags |
| AdminDashboard.Search | frontend/src/pages/AdminDashboard.tsx:23-33 | a blank query shows every product; otherwise an order-preserving subsequence holding exactly the products whose lower-cased name contains the lower-cased untrimmed query |
| AdminDashboard.SearchFindsFullName | frontend/src/pages/AdminDashboard.tsx:25-31 | searching for a product's own name finds it |
| AdminDashboard.FeaturedCount | frontend/src/pages/AdminDashboard.tsx:72 | the number of featured products |
| AdminDashboard.FeaturedCountSnoc | frontend/src/pages/AdminDashboard.tsx:72 | one more product raises the count by one exactly when it is featured |
| AdminDashboard.AvgPrice | frontend/src/pages/AdminDashboard.tsx:73-78 | 0 for no products, otherwise the mean price rounded to the nearest integer |
| AdminDashboard.AvgPriceBounds | frontend/src/pages/AdminDashboard.tsx:73-78 | the average lies between the rounded lowest and highest price |
| AdminDashboard.AvgOfEqualPrices | frontend/src/pages/AdminDashboard.tsx:73-78 | products that all cost c average to c |
| EditProduct.ToFormData | frontend/src/pages/EditProduct.tsx:34-46 | name, description, price and images are copied; sizes and colours default to [], gender to Hombre, category to Casual and the flags to false; no tags |
| EditProduct.FormHasGenderAndCategory | frontend/src/pages/EditProduct.tsx:42-43 | the form always has a gender and a category |
| EditProduct.CompleteProductKeepsFields | frontend/src/pages/EditProduct.tsx:34-46 | a product with every optional field present and non-empty keeps its sizes, colours and gender |
| AuthContext.IsAuthenticated | frontend/src/context/AuthContext.tsx:49 | authenticated exactly when a token is present and non-empty |
| AuthContext.Fresh | frontend/src/context/AuthContext.tsx:16-17 | a fresh provider holds no token and no user, whatever is stored |
| AuthContext.Mount | frontend/src/context/AuthContext.tsx:20-31 | a stored non-empty token is taken over with the placeholder admin user; otherwise nothing changes |
| AuthContext.Login | frontend/src/context/AuthContext.tsx:33-36 | the token and user are set, storage is untouched, and the session is authenticated exactly when the token is non-empty |
| AuthContext.Logout | frontend/src/context/AuthContext.tsx:38-42 | token, user and the stored token are all cleared, so the session is not authenticated |
| AuthContext.LogoutSurvivesReload | frontend/src/context/AuthContext.tsx:20-42 | after a logout a reload does not bring the session back |
| AuthContext.ReloadAfterLogin | frontend/src/context/AuthContext.tsx:20-36 | after a login with a stored token a reload keeps the session with the same token but the placeholder user |
| AuthContext.MountIdempotent | frontend/src/context/AuthContext.tsx:20-31 | mounting twice is mounting once |
| OrphanedImages.Names | frontend/src/components/admin/OrphanedImagesList.tsx:32 | the set of the listed file names: every listed name, and nothing else |
| OrphanedImages.NamesCount | frontend/src/components/admin/OrphanedImagesList.tsx:29-32 | with distinct names the set has one member per listed image |
| OrphanedImages.SelectAll | frontend/src/components/admin/OrphanedImagesList.tsx:28-34 | as written: when the selection's size equals the list's length the selection is cleared, otherwise every listed name is selected; nothing else changes |
| OrphanedImages.SelectAllTwice | frontend/src/components/admin/OrphanedImagesList.tsx:28-34 | with distinct names, pressing select-all twice from a partial selection clears it, and from a full one selects everything again |
| OrphanedImages.StaleSelectionClears | frontend/src/components/admin/OrphanedImagesList.tsx:28-34 | a selection still holding a name no longer listed can have the list's size without covering it, and select-all then clears it instead of selecting the missing image |
| OrphanedImages.SelectAllFixed | frontend/src/components/admin/OrphanedImagesList.tsx:28-34 | corrected: the selection is cleared exactly when it already covers every listed name, otherwise every listed name is selected |
| OrphanedImages.SelectAllFixedAgrees | frontend/src/components/admin/OrphanedImagesList.tsx:28-34 | for distinct names and a selection within the list, the corrected and the written rule agree |
| OrphanedImages.Select | frontend/src/components/admin/OrphanedImagesList.tsx:36-44 | toggles exactly the one name in the selection; nothing else changes |
| OrphanedImages.SelectTwice | frontend/src/components/admin/OrphanedImagesList.tsx:36-44 | toggling a name twice restores the state |
| OrphanedImages.DeleteClick | frontend/src/components/admin/OrphanedImagesList.tsx:46-48 | the name awaits confirmation; nothing else changes |
| OrphanedImages.CancelDelete | frontend/src/components/admin/OrphanedImagesList.tsx:67-69 | nothing awaits confirmation; nothing else changes |
| OrphanedImages.ConfirmDelete | frontend/src/components/admin/OrphanedImagesList.tsx:50-65 | without a pending name nothing happens; otherwise exactly that name is requested for deletion and the confirmation is cleared |
| OrphanedImages.ClickThenConfirmDeletes | frontend/src/components/admin/OrphanedImagesList.tsx:46-65 | confirming after clicking delete requests exactly that file and keeps the selection |
| OrphanedImages.BulkDeleteClick | frontend/src/components/admin/OrphanedImagesList.tsx:71-74 | an empty selection is ignored; otherwise the bulk confirmation opens |
| OrphanedImages.CancelBulkDelete | frontend/src/components/admin/OrphanedImagesList.tsx:90-92 | the bulk confirmation closes; nothing else changes |
| OrphanedImages.ConfirmBulkDelete | frontend/src/components/admin/OrphanedImagesList.tsx:76-88 | the whole selection is requested; on success the selection is cleared and on failure kept; the confirmation closes |
| OrphanedImages.BulkRequestNonEmpty | frontend/src/components/admin/OrphanedImagesList.tsx:71-88 | a bulk deletion reached through the button never requests an empty set |
| OrphanedImages.FormatSize | frontend/src/components/admin/OrphanedImagesList.tsx:94-98 | bytes below 1024, KB below 1 MiB with an amount in [1,1024), MB from there on, each amount being the size in that unit |
| OrphanedImages.FormatSizeMonotone | frontend/src/components/admin/OrphanedImagesList.tsx:94-98 | a larger file never gets a smaller unit, nor a smaller number in the same unit |
| OrphanedImages.FormatSizeInjective | frontend/src/components/admin/OrphanedImagesList.tsx:94-98 | before rounding, two sizes with the same label are the same size |
| ProductEntity.ErrorText | backend/internal/product/errors.go:8-16 | an invalid-input error reads "invalid input: " followed by its reason, and the missing-product error reads "product not found" |
| ProductEntity.Validate | backend/internal/product/product.go:58-67 | a create input passes exactly when its name is non-empty and its price is positive; an empty name is reported first, and a non-positive price is reported only for a named product |
| ProductEntity.DecodeList | backend/internal/product/product.go:98-110 | a list column holding a JSON list yields that list; NULL or empty text yields the empty list |
| ProductEntity.DecodeFlag | backend/internal/product/product.go:116-121 | a flag column reads as true exactly when it holds 1; NULL and every other integer read as false |
| ProductEntity.EncodeFlag | backend/internal/product/sqlite_repository.go:148-155 | the integer stored for a flag reads back as the same flag |
| ProductEntity.Scan | backend/internal/product/product.go:69-142 | a scanned product carries the row's id, name, description, price, category, both timestamps and deletion mark, its lists decoded from the JSON columns, its gender from the nullable column (empty when NULL) and its flags decoded from the integer columns |
| ProductEntity.NewRow | backend/internal/product/sqlite_repository.go:135-172 | the inserted row has the assigned id, no deletion mark, and creation and update times both equal to the insertion time |
| ProductEntity.ScanNewRow | backend/internal/product/sqlite_repository.go:135-184 | reading back the row written for a create input gives a product with exactly the input's fields, the assigned id, both timestamps equal to the insertion time and no deletion mark |
| ProductEntity.ScanLegacyRow | backend/internal/product/product.go:112-139 | a row whose list, gender and flag columns are all NULL scans to empty lists and an empty gender |
| ProductService.CreateProduct | backend/internal/product/service.go:25-33 | an input that fails validation is rejected with that error and the table is left untouched; a valid input goes to the repository's create; the table stays well formed |
| ProductService.UpdateProduct | backend/internal/product/service.go:35-43 | an update carrying a non-positive price is rejected with the price error and nothing changes; any other update goes to the repository; the table stays well formed |
| ProductService.DeleteProduct | backend/internal/product/service.go:45-48 | deletion is the repository's soft delete, and the table stays well formed |
| ProductService.CreateGate | backend/internal/product/service.go:25-33 | a create succeeds exactly when the name is non-empty and the price positive; a rejected create leaves the table unchanged with an invalid-input error; a successful one adds one row whose product has a name and a positive price |
| ProductService.ServiceKeepsPricesPositive | backend/internal/product/service.go:25-48 | if every stored price is positive, it stays so after any create, update or delete through the service |
| ProductService.UpdateWithoutPriceIsUnchecked | backend/internal/product/service.go:35-43 | an update without a price is not validated at all: it is exactly the repository's update, and succeeds for any live product (even one that clears the name) |
| ProductRepository.FindVisible | backend/internal/product/sqlite_repository.go:116-120 | the position found holds a live row with the requested id; -1 means no live row has that id |
| ProductRepository.GetByID | backend/internal/product/sqlite_repository.go:115-132 | a lookup succeeds exactly when some row with the id is not soft-deleted, returning a live product with that id; otherwise it fails with not-found |
| ProductRepository.NextId | backend/internal/product/sqlite_repository.go:177-180 | the id a new row receives is positive and larger than every id already stored |
| ProductRepository.Create | backend/internal/product/sqlite_repository.go:135-184 | create appends exactly one row and keeps the others; the product returned carries the input's fields under the new id and is what a lookup of that id now returns |
| ProductRepository.ApplyUpdate | backend/internal/product/sqlite_repository.go:194-257 | an update never changes a row's id, creation time or deletion mark |
| ProductRepository.Update | backend/internal/product/sqlite_repository.go:187-275 | updating an id with no live row fails with not-found and changes nothing; otherwise only that row is rewritten and the product returned is what a lookup now gives |
| ProductRepository.UpdateThenGet | backend/internal/product/sqlite_repository.go:194-274 | after an update, every field the request carried has the requested value, every field it left out keeps its old value, the creation time is kept and the update time is the time of the update |
| ProductRepository.SoftDelete | backend/internal/product/sqlite_repository.go:278-291 | deleting an id with no live row fails with not-found and changes nothing; otherwise only that row gains a deletion time and no row is removed |
| ProductRepository.SoftDeleteHides | backend/internal/product/sqlite_repository.go:278-291 | once deleted, a product is not found by lookup, update or a second delete, and those calls change nothing |
| ProductRepository.DeletedIdNotReused | backend/internal/product/sqlite_repository.go:177-180 | a product created after a soft delete never receives the deleted product's id |
| ProductRepository.WritesAreLocal | backend/internal/product/sqlite_repository.go:260-291 | an update or delete of one id leaves the lookup of every other id unchanged |
| ProductRepository.SortKeyOf | backend/internal/product/sqlite_repository.go:56-63 | the sort column is name or price when asked for, and the creation time for any other value |
| ProductRepository.Ascending | backend/internal/product/sqlite_repository.go:65-68 | the order is ascending exactly when "asc" is asked for, descending otherwise |
| ProductRepository.NormalizeLimit | backend/internal/product/sqlite_repository.go:70-74 | the page size is always between 1 and 100; a requested size in that range is kept and any other becomes 20 |
| ProductRepository.Offset | backend/internal/product/sqlite_repository.go:76-79 | the first page and any page number below it start at 0; page p above 1 starts (p - 1) page sizes in |
| ProductRepository.StrLessTransitive | backend/internal/product/sqlite_repository.go:86 | the name ordering used for sorting is transitive |
| ProductRepository.StrLessTotal | backend/internal/product/sqlite_repository.go:86 | any two different names are ordered one way or the other |
| ProductRepository.PrecedesTransitive | backend/internal/product/sqlite_repository.go:86 | the listing order (sort column in the chosen direction, ties by id) is transitive |
| ProductRepository.PrecedesTotal | backend/internal/product/sqlite_repository.go:86 | any two rows with different ids are ordered one way or the other |
| ProductRepository.Insert | backend/internal/product/sqlite_repository.go:86 | inserting a row into a sorted list keeps it sorted and adds exactly that row |
| ProductRepository.Sort | backend/internal/product/sqlite_repository.go:86 | the sorted listing is ordered and is a permutation of its input |
| ProductRepository.Matching | backend/internal/product/sqlite_repository.go:24-47 | the rows selected are exactly the stored rows that are not deleted, match the search in name or description when one is given, and have the category when one is given |
| ProductRepository.Ordered | backend/internal/product/sqlite_repository.go:82-89 | the selected rows in the requested order: sorted and a permutation of the selection |
| ProductRepository.PageOf | backend/internal/product/sqlite_repository.go:87 | a page holds at most the page size, is empty past the end, is full when enough rows remain and is otherwise the remainder, each entry taken in order from the offset |
| ProductRepository.GetAll | backend/internal/product/sqlite_repository.go:23-112 | the total counts every matching row regardless of paging; the page is empty past the end, full when enough rows remain and otherwise holds the remainder |
| ProductRepository.GetAllListsMatches | backend/internal/product/sqlite_repository.go:24-47 | every listed product is a stored row that matches the filters |
| ProductRepository.GetAllIsOrdered | backend/internal/product/sqlite_repository.go:56-89 | within a page, an earlier product precedes a later one in the requested order |
| ProductRepository.GetAllElement | backend/internal/product/sqlite_repository.go:76-91 | the i-th listed product is the row at the offset plus i in the ordered selection |
| ProductRepository.PagesAreConsecutive | backend/internal/product/sqlite_repository.go:76-79 | the next page continues exactly where the current one ends in the same ordering |
| ProductRepository.DeletedNeverListed | backend/internal/product/sqlite_repository.go:29 | after a soft delete, the deleted product appears in no listing |
| ProductHandler.ParsePage | backend/cmd/app/handler/product_handler.go:29-32 | the page is the parsed number when that is at least 1, and 1 otherwise (also for text that does not parse) |
| ProductHandler.ParseLimit | backend/cmd/app/handler/product_handler.go:34-40 | the page size is always between 1 and 100: a missing, unparsable or non-positive value gives 20, and a value above 100 is capped at 100 |
| ProductHandler.Pages | backend/cmd/app/handler/product_handler.go:58 | the page count is the least number of pages of the given size that hold every product, 0 when there are none |
| ProductHandler.ListFilters | backend/cmd/app/handler/product_handler.go:42-49 | the repository filters carry a page of at least 1, a size in range, and the query's search, category, sort and order unchanged |
| ProductHandler.GetProducts | backend/cmd/app/handler/product_handler.go:25-71 | a listing always answers 200 with the repository's page of products, sent as null when the page is empty, the total number of matches, the page number and size as parsed, and the number of pages of that size the matches fill |
| ProductHandler.ListPagesAgree | backend/cmd/app/handler/product_handler.go:29-66 | the size reported is the one the repository pages by, and the requested page lies within the reported page count exactly when it starts before the end of the matches |
| ProductHandler.EmptyPageIsNull | backend/internal/product/sqlite_repository.go:98-111 | the product list of a listing answer is null exactly when the page starts at or past the last match |
| ProductHandler.PageExists | backend/cmd/app/handler/product_handler.go:58 | a page number is within the page count exactly when its offset is below the total |
| ProductHandler.ParseId | backend/cmd/app/handler/product_handler.go:76-80 | an id parses exactly when the text is a decimal 64-bit integer, and then it is that integer |
| ProductHandler.ErrorReply | backend/cmd/app/handler/product_handler.go:82-158 | a missing product answers 404 except on create; create and update report other errors as 400 with the error's text; get and delete report other errors as 500 with a fixed message |
| ProductHandler.GetProduct | backend/cmd/app/handler/product_handler.go:74-93 | an id that does not parse answers 400; a found product answers 200 with it; otherwise the lookup error decides the reply |
| ProductHandler.CreateProduct | backend/cmd/app/handler/product_handler.go:96-111 | an undecodable body answers 400 and changes nothing; otherwise the service's result decides: 201 with the product, or the error reply for create |
| ProductHandler.UpdateProduct | backend/cmd/app/handler/product_handler.go:114-140 | a bad id or an undecodable body answers 400 and changes nothing; otherwise the service's result decides: 200 with the product, or the error reply for update |
| ProductHandler.DeleteProduct | backend/cmd/app/handler/product_handler.go:143-161 | a bad id answers 400 and changes nothing; otherwise the service's delete decides: 204 with no body, or the error reply for delete |
| ProductHandler.StatusTable | backend/cmd/app/handler/product_handler.go:74-161 | a bad id is 400 for get, update and delete; an id without a live product is 404 for get and delete; a decoded create answers 201 exactly when it validates, and otherwise 400 with the table unchanged |
| ProductHandler.CreateThenGet | backend/cmd/app/handler/product_handler.go:96-111 | a valid create answers 201 with a product carrying the input, and fetching that product by its id answers 200 with the same product |
| ProductHandler.DeleteThenGone | backend/cmd/app/handler/product_handler.go:143-161 | after a 204 delete, fetching the same id answers 404, and so does updating it unless the update already fails price validation with 400 |
| WebResponse.Respond | backend/internal/platform/web/response.go:21-32 | the reply has the given status and data and no error, and is marked successful exactly for statuses from 200 to 299 |
| WebResponse.NilWhenEmpty | backend/internal/product/sqlite_repository.go:98-104 | a slice grown from nil is encoded as null exactly when nothing was appended, and as the elements otherwise |
| WebResponse.RespondError | backend/internal/platform/web/response.go:34-48 | an error reply has the given status, is never marked successful, carries no data and carries the given code and message |
| WebResponse.RespondOK | backend/internal/platform/web/response.go:50-53 | a 200 reply with the data, marked successful |
| WebResponse.RespondCreated | backend/internal/platform/web/response.go:55-58 | a 201 reply with the data, marked successful |
| WebResponse.RespondNoContent | backend/internal/platform/web/response.go:60-63 | a 204 reply with no body at all |
| WebResponse.RespondBadRequest | backend/internal/platform/web/response.go:65-68 | a 400 error reply with code "bad_request" |
| WebResponse.RespondUnauthorized | backend/internal/platform/web/response.go:70-73 | a 401 error reply with code "unauthorized" |
| WebResponse.RespondNotFound | backend/internal/platform/web/response.go:75-78 | a 404 error reply with code "not_found" |
| WebResponse.RespondInternalError | backend/internal/platform/web/response.go:80-83 | a 500 error reply with code "internal_error" |
| WebResponse.HelpersAreConsistent | backend/internal/platform/web/response.go:21-83 | every reply the helpers build is marked successful exactly when its status is 2xx, and carries an error exactly when it is not successful |
| WebResponse.ErrorCodesMatchStatus | backend/internal/platform/web/response.go:65-83 | each error helper's code is the one that names its status |
| ImagesHandler.TrimTrailingSlashes | backend/cmd/app/handler/images_handler.go:58 | trailing slashes are removed and nothing else: the result is a prefix of the path, only slashes were dropped, and it does not end in a slash |
| ImagesHandler.Base | backend/cmd/app/handler/images_handler.go:58 | the base name is never empty: "." for an empty path, "/" for a path of slashes, and otherwise a slash-free final piece of the path with trailing slashes ignored |
| ImagesHandler.BaseOfUploadUrl | backend/cmd/app/handler/images_handler.go:58-86 | the base name of an upload URL built from a plain file name is that file name |
| ImagesHandler.UsedNames | backend/cmd/app/handler/images_handler.go:53-61 | the used names are exactly the base names of the image URLs of the products considered |
| ImagesHandler.OrphansOf | backend/cmd/app/handler/images_handler.go:63-90 | every entry listed comes from a file that is not a directory, is not used and could be inspected, and every such file is listed |
| ImagesHandler.Considered | backend/cmd/app/handler/images_handler.go:47 | the products consulted are those of a listing with empty filters, so at most 20 of them |
| ImagesHandler.GetOrphanedImages | backend/cmd/app/handler/images_handler.go:38-93 | an unreadable upload directory answers 500; otherwise the reply is 200 with the orphans of the directory with respect to the consulted products, sent as null exactly when no file is an orphan |
| ImagesHandler.OrphanUrlNamesFile | backend/cmd/app/handler/images_handler.go:84-89 | each orphan's URL has the orphan's file name as its base name, and that name is not among the names in use (for the handler, the base names of the consulted products' images) |
| ImagesHandler.Remove | backend/cmd/app/handler/images_handler.go:123-131 | removal fails exactly when no entry has the name, and otherwise removes exactly one entry |
| ImagesHandler.SafeFilename | backend/cmd/app/handler/images_handler.go:100-104 | a name passes the traversal guard exactly when it has no "/", no "\\" and no two dots in a row |
| ImagesHandler.DeleteChecked | backend/cmd/app/handler/images_handler.go:96-136 | a name containing "..", "/" or "\\" answers 400; a name that ends some image URL of the products answers 400; a missing file answers 404; otherwise the file is removed and the reply is 200; a 200 only ever follows both checks |
| ImagesHandler.DeleteImage | backend/cmd/app/handler/images_handler.go:96-136 | a deletion that succeeds had a safe name that no consulted product's image URL ends with |
| ImagesHandler.AllVisible | backend/internal/product/sqlite_repository.go:29 | the products of every row that is not soft-deleted, and nothing else |
| ImagesHandler.DeleteImageFixed | backend/cmd/app/handler/images_handler.go:106-120 | with every live product consulted, a deletion that succeeds had a safe name no live product's image URL ends with |
| ImagesHandler.DeleteImageFixedSpares | backend/cmd/app/handler/images_handler.go:113-119 | a file named at the end of some live product's image URL is never deleted and never answers 200 |
| ImagesHandler.SomeProductUnconsidered | backend/internal/product/sqlite_repository.go:70-79 | with more than 20 live products, some live product is left out of the products the image handlers consult |
| ImagesHandler.DeletesImageInUse | backend/cmd/app/handler/images_handler.go:106-133 | a file used only by a product outside the first page is deleted with 200 although a live product still refers to it |
| ImagesHandler.DeleteImageFixedAgrees | backend/cmd/app/handler/images_handler.go:106-120 | with at most 20 live products, the corrected deletion and the handler as written behave identically |
| ImagesHandler.SameProducts | backend/cmd/app/handler/images_handler.go:47 | with at most 20 live products, the products consulted are exactly the live products |
| ImagesHandler.BaseImpliesSuffix | backend/cmd/app/handler/images_handler.go:58-115 | an image URL whose base name is a file name also ends with that name, so a name the listing counts as used is also blocked from deletion |
| ImagesHandler.SuffixIsNotBase | backend/cmd/app/handler/images_handler.go:58-115 | the converse fails: "a.jpg" is blocked from deletion by "/uploads/ba.jpg" although it is not that URL's base name |
| UploadService.Ext | backend/internal/upload/service.go:57 | the extension is empty or a dot followed by no dot and no slash, and it ends the name; a name without a dot has no extension |
| UploadService.ExtOfPlainPrefix | backend/internal/upload/service.go:57 | putting a name without dots or slashes in front of an extension leaves the extension unchanged |
| UploadService.MaxSize | backend/internal/upload/service.go:41 | the size limit is the configured number of mebibytes in bytes |
| UploadService.SaveFile | backend/internal/upload/service.go:39-81 | a file over the limit is refused with the size message, else a file without an allowed extension with the type message, else a storage failure with its text; success is exactly the remaining case and gives the stored name, the absolute URL under /uploads/ and the original size |
| UploadService.SizeBoundary | backend/internal/upload/service.go:41-44 | a file of exactly the limit passes the size check and one byte more is refused, whatever its type |
| UploadService.WebpAccepted | backend/internal/upload/service.go:84-95 | a ".webp" name is accepted in lower and upper case, although the type error names only jpg, jpeg, png and gif |
| UploadService.NoExtensionRejected | backend/internal/upload/service.go:84-95 | a name without an extension is never an accepted image |
| UploadService.IsValidImageType | backend/internal/upload/service.go:84-95 | an accepted name has an extension of a dot and three or four more characters |
| UploadService.StoredName | backend/internal/upload/service.go:56-58 | the stored name starts with the decimal Unix time and "_", and ends with the UUID followed by the original extension |
| UploadService.StoredNamesDistinct | backend/internal/upload/service.go:56-58 | two uploads in the same second get different names when their UUIDs differ |
| UploadService.StoredNameKeepsExtension | backend/internal/upload/service.go:57-74 | the stored name keeps the uploaded file's extension, and the base name of its URL is the stored name |
| UploadService.StoredNameIsSafe | backend/internal/upload/service.go:57-58 | every name a successful upload is stored under passes the image deletion handler's traversal guard |
| Migrations.ListIsIncreasing | backend/internal/platform/database/migrations.go:16-74 | the migration list is in strictly increasing version order |
| Migrations.CurrentVersion | backend/internal/platform/database/migrations.go:89-94 | the current version is 0 when nothing is recorded, and otherwise the largest recorded version |
| Migrations.Pending | backend/internal/platform/database/migrations.go:97-100 | the migrations still to run are at most all of them |
| Migrations.PendingNone | backend/internal/platform/database/migrations.go:98-100 | when every version is at or below the current one, nothing is pending |
| Migrations.PendingAll | backend/internal/platform/database/migrations.go:98-100 | when every version is above the current one, every migration is pending |
| Migrations.PendingAppend | backend/internal/platform/database/migrations.go:97-100 | the pending migrations of two lists joined are the pending migrations of each, joined |
| Migrations.Migrate | backend/internal/platform/database/migrations.go:77-129 | a failure creating the version table or reading the current version applies nothing and is reported; otherwise the pending versions are applied in order up to the first failing step, the run fails exactly when it stopped short, names that version and step, and the recorded versions grow by exactly what was applied |
| Migrations.ApplyPending | backend/internal/platform/database/migrations.go:97-126 | the loop applies the longest failure-free prefix of the pending versions and fails exactly when it stopped short, naming the version and step that stopped it |
| Migrations.StopsAt | backend/internal/platform/database/migrations.go:97-100 | a migration above the current version is pending, and it comes right after the pending ones before it |
| Migrations.PendingIsSuffix | backend/internal/platform/database/migrations.go:97-100 | for a list split into versions at or below the current one and versions above it, the pending migrations are exactly the second part |
| Migrations.CurrentAfterApplied | backend/internal/platform/database/migrations.go:89-94 | after recording increasing versions above the current one, the current version is the last of them |
| Migrations.ResumeWhereStopped | backend/internal/platform/database/migrations.go:89-126 | after a run that applied the first n pending migrations and stopped, the next run's pending migrations are exactly the ones not yet applied |
| Migrations.SuffixAfter | backend/internal/platform/database/migrations.go:97-100 | with a migration's version as the current one, exactly the migrations after it are pending |
| Migrations.FirstAbove | backend/internal/platform/database/migrations.go:97-100 | the position of the first migration above the current version: everything before it is at or below, everything from it on is above |
| Migrations.SecondRunAppliesNothing | backend/internal/platform/database/migrations.go:89-126 | once a run has applied every pending migration, a second run has nothing to apply |
| Migrations.FreshDatabase | backend/internal/platform/database/migrations.go:16-126 | on an empty database all four migrations are pending, in order 1, 2, 3, 4 |
| Config.GetEnv | backend/internal/platform/config/config.go:57-62 | a set, non-empty variable gives its value; unset or empty gives the default |
| Config.GetEnvAsInt | backend/internal/platform/config/config.go:65-77 | a variable that parses as a 64-bit decimal integer gives that integer; unset, empty or unparsable gives the default |
| Config.Read | backend/internal/platform/config/config.go:31-42 | the secret read is the JWT_SECRET variable with an empty default |
| Config.Load | backend/internal/platform/config/config.go:27-54 | loading succeeds exactly when JWT_SECRET holds at least 32 characters, and then gives every setting as read; a missing or empty secret and a short one fail with their own messages |
| Config.Defaults | backend/internal/platform/config/config.go:31-42 | with only a valid secret set, every other setting takes its documented default |
| Config.SecretChecks | backend/internal/platform/config/config.go:44-51 | an empty environment fails on the missing secret; 31 characters are too short and 32 are enough |
| Config.GetEnvAsIntRoundTrip | backend/internal/platform/config/config.go:65-77 | a variable holding the decimal notation of a 64-bit integer reads back as that integer |
| Config.GetEnvAsIntFallsBack | backend/internal/platform/config/config.go:71-74 | text that is not a plain decimal number, or a number too large for 64 bits, falls back to the default |
| AuthMiddleware.BearerToken | backend/internal/platform/middleware/auth.go:37-44 | a token is found only when the header splits on single spaces into "Bearer" and one more part, and then it contains no space |
| AuthMiddleware.Authenticate | backend/internal/platform/middleware/auth.go:20-58 | a preflight passes without claims; a missing header, a malformed header and a rejected token each answer 401 with their own message; a request passes any other way only with a well-formed header whose token the service accepted, carrying its claims |
| AuthMiddleware.BearerOfToken | backend/internal/platform/middleware/auth.go:38-44 | the header "Bearer " followed by a space-free token yields exactly that token |
| AuthMiddleware.SplitTwoWords | backend/internal/platform/middleware/auth.go:38 | two space-free words joined by one space split back into those two words |
| AuthMiddleware.BearerTokenShape | backend/internal/platform/middleware/auth.go:38-44 | conversely, any header that yields a token is "Bearer ", then that token |
| AuthMiddleware.AuthenticatedIff | backend/internal/platform/middleware/auth.go:37-55 | a well-formed request passes with the claims exactly when the service accepts its token, and otherwise answers 401 "invalid or expired token" |
| AuthMiddleware.StrictScheme | backend/internal/platform/middleware/auth.go:38-42 | the scheme is case-sensitive and the separator a single space: "bearer x" and "Bearer  x" are both malformed |
| Admin.Validate | backend/internal/auth/admin.go:36-45 | login input passes exactly when both the username and the password are non-empty, and any failure is the invalid-credentials error |
| Admin.ValidateSeesOnlyEmptiness | backend/internal/auth/admin.go:36-45 | two inputs whose fields are empty in the same places get the same outcome |
| Admin.SameErrorForEitherField | backend/internal/auth/errors.go:5-14 | an empty username and an empty password give the same error, whose text is "invalid credentials", so the reply does not tell which was missing |
| MockData.MockFeaturedFlags | frontend/src/data/mock.ts:4-337 | the first four sample products are featured and every later one is not |
| MockData.MockImages | frontend/src/data/mock.ts:4-337 | every sample product has at least one image |
| Strings.Atoi | backend/cmd/app/handler/product_handler.go:29-34 | decimal parsing as the Go standard library does it: an optionally signed run of digits parses to its value when that lies in the 64-bit range, a larger one is a range error clamped to the bound on its sign's side, and any other text is a syntax error |
| Strings.AtoiIntToString | backend/internal/platform/config/config.go:71 | the decimal notation of a 64-bit integer parses back to that integer |
| Strings.AtoiLeadingZeroAndPlus | backend/cmd/app/handler/product_handler.go:29-34 | a leading zero or a plus sign does not change what a text parses to |
| Strings.IntToStringInjective | frontend/src/context/DesignContext.tsx:42 | two integers with the same decimal text are equal |
| Strings.Utf16Length | frontend/src/utils/validation.ts:21-28 | the UTF-16 length of a string lies between its number of characters and twice that, and is zero only for the empty string |
| Strings.Utf16LengthOfBmp | frontend/src/utils/validation.ts:21-28 | without characters outside the Basic Multilingual Plane the UTF-16 length is the number of characters |
| Strings.Split | backend/internal/platform/middleware/auth.go:38 | splitting on a separator gives one more part than there are separators, no part contains the separator, and joining the parts with it gives back the string |
| Strings.SplitOnce | backend/internal/platform/middleware/auth.go:38-39 | a string with exactly one separator splits into the text before it and the text after it |
| Strings.TrimEmptyIffBlank | frontend/src/components/admin/ProductForm.tsx:97 | trimming gives the empty string exactly when the text is all whitespace |

## Left out

- ErrorHandling.KeyMessage: keys that the message object inherits from `Object.prototype` ("constructor", "toString", "valueOf", "__proto__" and the like) are not modelled. In the source, such a context finds an inherited function or object, which is truthy, so `getErrorMessage` returns that non-string. The model answers GENERIC. No caller passes such a context.
- Rendering, routing and styling: JSX, CSS, page layout, toasts, skeletons and the other React components that only display state.
- HTTP and the network: axios/fetch clients, the router, multipart parsing and JSON body decoding. A handler receives its body already decoded, or `None` when decoding failed.
- SQL: the statement text and the driver are not modelled. The table is a sequence of rows, and a statement is its effect on that sequence. Driver and storage failures are not modelled on the repository paths: every statement succeeds unless the product is missing.
- `LIKE` wildcards: the `%` and `_` characters inside a search term are read literally.
- The filesystem: the upload directory is a list of entries. Each entry carries a directory flag and whether `os.Stat` succeeded. A failure of `os.ReadDir` is `None`. Removing a file takes the first entry of that name, and the removal of directories is not modelled.
- The repository error in the image handlers: a failed product lookup in `GetOrphanedImages` or `DeleteImage` would answer 500. This is not modelled, since the abstract repository cannot fail.
- Upload storage: `MkdirAll`, `Create` and `Copy` failures are folded into one optional error text.
- The clock and generated identifiers: `time.Now`, `Date.now`, UUIDs and element ids are parameters.
- Cryptography and tokens: bcrypt, JWT signing and validation, and the login handler. Token validation is a parameter of the middleware, and `GetClaims` is not modelled.
- The migrations' SQL is not interpreted; a migration is its version, and which step of which version fails is a parameter.
- Loading `.env` with `godotenv` is not modelled; configuration is read from one environment map.
- Byte length versus character length: Go's `len` on the JWT secret counts bytes, and the model counts characters. The two agree on ASCII secrets.
- Timers: the 300 ms debounce is a pending slot, and the autosave, toast and carousel timers are not modelled.
- fabric.js rendering, template image scaling, image export and font loading.
- Floating point and locale: `toFixed`, `toLocaleString` and date formatting. Canvas numbers are reals, `Math.round` is the floor of x + 1/2, and `NaN`, `undefined` and `Infinity` are not modelled. A missing scale is the one falsy number, 0, which is read as 1.
- Unicode: `toLowerCase` in the dashboard search is a parameter. The backend's `strings.ToLower` on extensions is ASCII lower-casing. `trim` uses the JavaScript whitespace set, without normalisation.
- `validateUrl` depends on the host's URL parser; it is the parameter `validUrl` of the image rule.
- 64-bit overflow: Go's `int` arithmetic in the page offset, the size limit and the id sequence is unbounded here. Parsing does clamp to the 64-bit range as `strconv.Atoi` does.
- The state shared through the React context and the effects that load data on mount (the home page's product loading, the dashboard's fetch) are not modelled. Only the pure state updates are.
- ImagesHandler.DeleteImage: its contract states only what a successful deletion implies. The full reply table is in `ImagesHandler.DeleteChecked`, applied by `DeleteImage` to the products it consults.
- ImagesHandler.Considered: its contract bounds the number of products. What they are, the first listing page, is stated by `SameProducts` and `SomeProductUnconsidered`.
- Migrations.Pending: its contract states only a bound. Which migrations are pending is stated by `PendingNone`, `PendingAll`, `PendingAppend`, `PendingIsSuffix` and `SuffixAfter`.
- ProductRepository.ApplyUpdate: its contract states what an update never changes. The field-by-field effect is stated by `UpdateThenGet`.
- ProductEntity.NewRow: its contract states the bookkeeping columns. That the content survives the round trip through storage is stated by `ScanNewRow`.
- Config.Read: its contract states the secret. The other settings and their defaults are stated by `Defaults`.
- ProductService.GetProducts and ProductService.GetProduct hand the call to the repository unchanged, so they have no row of their own.
- ProductRepository.Sort: equal sort keys are ordered by ascending id. The SQL `ORDER BY` at backend/internal/product/sqlite_repository.go:82-89 leaves their order to SQLite, so the order promised among equal keys is the model's choice.
- ProductRepository.GetAllIsOrdered: the order within a page among rows with equal keys holds for the id tie-break only, for the reason given under Sort.
- ProductRepository.PagesAreConsecutive: with equal keys SQLite may order them differently from one query to the next, so a row can repeat or be skipped across pages; the promise holds for the id tie-break only.
- Validation.ProductErrors: it applies the whole rules table. The admin form registers only some fields with rules, which `FormErrors` models: the image list is not registered and the colour inputs (ProductForm.tsx:264) have no rules.
- CanvasEditor.Fire: the object the timer reads at expiry is a parameter `live`. That it is the same fabric object as the pending one, possibly moved or edited since, is not checked.
- UploadService.MaxSize: the 64-bit multiplication of the megabyte setting is unbounded here; it overflows only for settings beyond any sensible size.

## Findings

| source | as written | input that shows it | evidently intended | confidence | as-written member | corrected member |
|---|---|---|---|---|---|---|
| frontend/src/components/admin/ImageUploadField.tsx:49-88 | the progress, completion and failure callbacks of an upload each rebuild `newImages`, the list built when the file was chosen, and hand it to `onChange` | [X done, A uploading]: the user removes X, then A's next progress event hands [X, A] back; a file chosen while A uploads is dropped when A completes | each event updates the list as it is when the event arrives | likely; not executed | ImageUpload.StaleEventRestoresRemoved | ImageUpload.OnEventFixed |
| frontend/src/components/admin/ImageUploadField.tsx:115-126 | on retry, the progress handler rebuilds the list from the `images` captured before the retry | a failed entry with its file still attached is retried, and one progress event arrives: the entry gets its old error back and loses its uploading flag | a progress event during a retry keeps the entry error-free and uploading, and only sets its percentage | likely; not executed | ImageUpload.RetryProgressRestoresError | ImageUpload.RetryProgressFixed |
| frontend/src/components/admin/OrphanedImagesList.tsx:28-34 | select-all compares the selection's size with the number of images | the selection is {a.png, b.png}, b.png has since been deleted, and the list is [a.png, c.png]: select-all clears the selection instead of selecting c.png. This needs a caller that keeps the list mounted while `images` changes; the admin page does not, since every reload replaces the list with its loading state (AdminOrphanedImages.tsx:15-27, 90-106) and a bulk delete always clears the selection (OrphanedImagesList.tsx:76-82) | clear only when every listed image is already selected, otherwise select them all | latent: not reachable from the admin page as it stands; not executed | OrphanedImages.StaleSelectionClears | OrphanedImages.SelectAllFixed |
| backend/cmd/app/handler/images_handler.go:106-120 | the in-use check consults `GetProducts` with empty filters, which returns only the 20 newest products | 21 live products where only the oldest uses x.jpg: deleting x.jpg answers 200 and removes an image still in use (the orphan listing is affected the same way) | consult every live product before deleting an image | high; not executed | ImagesHandler.DeletesImageInUse | ImagesHandler.DeleteImageFixed |
| frontend/src/services/products.ts:76-77 | the listing calls map over `data.products`, which the backend sends as `null` for a page with no product (ProductHandler.EmptyPageIsNull) | an empty catalogue, a search with no match, or page 2 of a one-page listing: `.map` on null throws and the caller gets an error instead of an empty page | an empty page lists no products | likely; not executed | ProductsService.NullListingRejected | ProductsService.FilteredFixed |

=== FILE: admin.dfy ===
/**
  The admin login input (package `auth`): the check made on the submitted
  credentials before any lookup or password comparison.
 */
module Admin {
  import opened Wrappers

  datatype LoginInput = LoginInput(username: string, password: string)

  /** The package's error values. */
  datatype AuthError = InvalidCredentials | Unauthorized | InvalidToken

  function Message(e: AuthError): string {
    match e
    case InvalidCredentials => "invalid credentials"
    case Unauthorized => "unauthorized"
    case InvalidToken => "invalid token"
  }

  /** `LoginInput.Validate`: both fields must be non-empty, and either missing gives the same error. */
  function Validate(input: LoginInput): (r: Option<AuthError>)
    ensures r.None? <==> input.username != "" && input.password != ""
    ensures r.Some? ==> r.value == InvalidCredentials
  {
    if input.username == "" then Some(InvalidCredentials)
    else if input.password == "" then Some(InvalidCredentials)
    else None
  }

  /** The outcome depends only on which fields are empty, never on what a non-empty field holds. */
  lemma ValidateSeesOnlyEmptiness(a: LoginInput, b: LoginInput)
    requires (a.username == "") == (b.username == "") && (a.password == "") == (b.password == "")
    ensures Validate(a) == Validate(b)
  {
  }

  /** The error does not tell which field was empty. */
  lemma SameErrorForEitherField(username: string, password: string)
    ensures Validate(LoginInput("", password)) == Validate(LoginInput(username, "")) == Some(InvalidCredentials)
    ensures Message(Validate(LoginInput("", password)).value) == "invalid credentials"
  {
  }
}

=== FILE: admin_dashboard.dfy ===
/**
  The admin dashboard (`AdminDashboard`): the search box over the loaded
  products and the two figures shown above the table, the number of
  featured products and the average price. Lower-casing is the host's
  `toLowerCase`, passed in as a function: its Unicode case mapping is not
  modelled.
 */
module AdminDashboard {
  import opened Wrappers
  import Seqs
  import Strings
  import JsNumbers
  import Catalog

  /** The name matches the query, both lower-cased by `lower`. */
  predicate NameMatches(p: Catalog.Product, query: string, lower: string -> string) {
    Strings.Contains(lower(p.name), lower(query))
  }

  /** The search effect: a blank query shows every product; otherwise those whose name contains the untrimmed query. */
  function Search(products: seq<Catalog.Product>, query: string, lower: string -> string): (r: seq<Catalog.Product>)
    ensures Strings.IsBlank(query) ==> r == products
    ensures Seqs.IsSubsequence(r, products)
    ensures !Strings.IsBlank(query) ==> forall i :: 0 <= i < |r| ==> NameMatches(r[i], query, lower)
    ensures forall i :: 0 <= i < |products| && NameMatches(products[i], query, lower) ==> products[i] in r
  {
    Strings.TrimEmptyIffBlank(query);
    Seqs.SubsequenceRefl(products);
    if Strings.Trim(query) == "" then products
    else Seqs.Filter(products, (p: Catalog.Product) => NameMatches(p, query, lower))
  }

  /** Every text contains itself. */
  lemma ContainsSelf(s: string)
    ensures Strings.Contains(s, s)
  {
    assert Strings.OccursAt(s, s, 0);
    Strings.ContainsIff(s, s);
  }

  /** Searching for a product's full name always lists that product. */
  lemma SearchFindsFullName(products: seq<Catalog.Product>, i: int, lower: string -> string)
    requires 0 <= i < |products|
    ensures products[i] in Search(products, products[i].name, lower)
  {
    ContainsSelf(lower(products[i].name));
  }

  /** `p.featured` as a JavaScript condition. */
  predicate IsFeatured(p: Catalog.Product) {
    p.featured == Some(true)
  }

  /** `featuredCount`: the length of the featured sublist, which is the number of featured products. */
  function FeaturedCount(products: seq<Catalog.Product>): (n: nat)
    ensures n == Seqs.CountIf(products, IsFeatured) && n <= |products|
  {
    |Seqs.Filter(products, IsFeatured)|
  }

  /** Loading one more product raises the featured count by one exactly when it is featured. */
  lemma {:induction false} FeaturedCountSnoc(products: seq<Catalog.Product>, p: Catalog.Product)
    ensures FeaturedCount(products + [p]) == FeaturedCount(products) + (if IsFeatured(p) then 1 else 0)
  {
    if |products| > 0 {
      FeaturedCountSnoc(products[1..], p);
      assert (products + [p])[1..] == products[1..] + [p];
    } else {
      assert Seqs.Filter([p], IsFeatured) == if IsFeatured(p) then [p] else [];
    }
  }

  /** The sum of the prices, from zero. */
  function Sum(products: seq<Catalog.Product>): real {
    if |products| == 0 then 0.0 else Sum(products[..|products| - 1]) + products[|products| - 1].price
  }

  /** `avgPrice`: the rounded mean price, or 0 for an empty list. */
  function AvgPrice(products: seq<Catalog.Product>): (a: int)
    ensures |products| == 0 ==> a == 0
    ensures |products| > 0 ==> a as real - 0.5 <= Sum(products) / |products| as real < a as real + 0.5
  {
    if |products| > 0 then JsNumbers.Round(Sum(products) / |products| as real) else 0
  }

  /** Prices within `[lo, hi]` give a sum within `[n lo, n hi]`. */
  lemma {:induction false} SumBounds(products: seq<Catalog.Product>, lo: real, hi: real)
    requires forall i :: 0 <= i < |products| ==> lo <= products[i].price <= hi
    ensures |products| as real * lo <= Sum(products) <= |products| as real * hi
  {
    if |products| > 0 {
      SumBounds(products[..|products| - 1], lo, hi);
    }
  }

  /** The average lies between the rounded lowest and highest bounds of the prices. */
  lemma AvgPriceBounds(products: seq<Catalog.Product>, lo: real, hi: real)
    requires |products| > 0
    requires forall i :: 0 <= i < |products| ==> lo <= products[i].price <= hi
    ensures JsNumbers.Round(lo) <= AvgPrice(products) <= JsNumbers.Round(hi)
  {
    SumBounds(products, lo, hi);
    var n := |products| as real;
    var mean := Sum(products) / n;
    assert lo <= mean by {
      assert n * lo <= Sum(products);
    }
    assert mean <= hi by {
      assert Sum(products) <= n * hi;
    }
    JsNumbers.RoundMonotone(lo, mean);
    JsNumbers.RoundMonotone(mean, hi);
  }

  /** When every product costs the same whole amount, that amount is the average. */
  lemma AvgOfEqualPrices(products: seq<Catalog.Product>, c: int)
    requires |products| > 0
    requires forall i :: 0 <= i < |products| ==> products[i].price == c as real
    ensures AvgPrice(products) == c
  {
    AvgPriceBounds(products, c as real, c as real);
    JsNumbers.RoundInt(c);
  }
}

=== FILE: auth_context.dfy ===
/**
  The admin session on the frontend (`AuthProvider`): the token and user in
  memory and the token kept in the browser's storage under `auth_token`.
  The storage is part of the state so that a page reload (a fresh provider
  over the same storage) can be stated.
 */
module AuthContext {
  import opened Wrappers
  import Catalog

  datatype AuthUser = AuthUser(id: string, email: string)

  datatype AuthState = AuthState(user: Option<AuthUser>, token: Option<string>, stored: Option<string>)

  /** The user assumed for a token found in storage. */
  const PLACEHOLDER_USER: AuthUser := AuthUser("1", "admin@tienda.com")

  /** A fresh provider: nothing in memory, the storage as the browser has it. */
  function Fresh(stored: Option<string>): (s: AuthState)
    ensures !IsAuthenticated(s) && s.user.None? && s.stored == stored
  {
    AuthState(None, None, stored)
  }

  /** `isAuthenticated`: `!!token`, true exactly for a token that is present and non-empty. */
  function IsAuthenticated(s: AuthState): (b: bool)
    ensures b <==> s.token.Some? && s.token.value != ""
  {
    Catalog.Truthy(s.token)
  }

  /** The mount effect: a truthy stored token is taken, with the placeholder user; otherwise nothing changes. */
  function Mount(s: AuthState): (r: AuthState)
    ensures Catalog.Truthy(s.stored) ==> r == s.(token := s.stored, user := Some(PLACEHOLDER_USER))
    ensures !Catalog.Truthy(s.stored) ==> r == s
    ensures r.stored == s.stored
  {
    if Catalog.Truthy(s.stored) then s.(token := s.stored, user := Some(PLACEHOLDER_USER)) else s
  }

  /** `authService.login` on success: the token is written to storage before the provider learns of it. */
  function StoreToken(s: AuthState, token: string): (r: AuthState)
    ensures r == s.(stored := Some(token))
  {
    s.(stored := Some(token))
  }

  /** `login`: token and user in memory; the storage is not touched. */
  function Login(s: AuthState, token: string, user: AuthUser): (r: AuthState)
    ensures r.token == Some(token) && r.user == Some(user) && r.stored == s.stored
    ensures IsAuthenticated(r) <==> token != ""
  {
    s.(token := Some(token), user := Some(user))
  }

  /** `logout`: memory and storage are both cleared. */
  function Logout(s: AuthState): (r: AuthState)
    ensures r.token.None? && r.user.None? && r.stored.None?
    ensures !IsAuthenticated(r)
  {
    AuthState(None, None, None)
  }

  /** After a logout, a reload does not bring the session back. */
  lemma LogoutSurvivesReload(s: AuthState)
    ensures !IsAuthenticated(Mount(Fresh(Logout(s).stored)))
  {
  }

  /** After a login, a reload keeps the session but replaces the user by the placeholder. */
  lemma ReloadAfterLogin(s: AuthState, token: string, user: AuthUser)
    requires token != ""
    ensures var after := Login(StoreToken(s, token), token, user);
      var reloaded := Mount(Fresh(after.stored));
      && IsAuthenticated(after) && IsAuthenticated(reloaded)
      && reloaded.token == after.token
      && reloaded.user == Some(PLACEHOLDER_USER)
  {
  }

  /** Mounting twice is mounting once. */
  lemma MountIdempotent(s: AuthState)
    ensures Mount(Mount(s)) == Mount(s)
  {
  }
}

=== FILE: auth_middleware.dfy ===
/**
  The authentication middleware in front of the admin routes: a CORS
  preflight goes through untouched, every other request needs an
  `Authorization: Bearer <token>` header whose token the auth service
  accepts. Token validation (JWT signature and expiry) is a parameter.
 */
module AuthMiddleware {
  import opened Wrappers
  import Strings
  import opened WebResponse

  datatype Request = Request(verb: string, authorization: string)

  /** What the middleware does with a request: hand it on (with the claims, when it checked a token) or answer 401 itself. */
  datatype Outcome<C> = Next(claims: Option<C>) | Denied(reply: Reply<()>)

  const OPTIONS: string := "OPTIONS"
  const MISSING_HEADER: string := "missing authorization header"
  const BAD_FORMAT: string := "invalid authorization header format"
  const BAD_TOKEN: string := "invalid or expired token"

  /** The header split on single spaces must be exactly `Bearer` and one more part, which is the token. */
  function BearerToken(header: string): (token: Option<string>)
    ensures token.Some? ==> ' ' !in token.value
  {
    var parts := Strings.Split(header, ' ');
    if |parts| != 2 || parts[0] != "Bearer" then None else Some(parts[1])
  }

  /** The middleware's decision for one request. */
  function Authenticate<C>(req: Request, validate: string -> Option<C>): (o: Outcome<C>)
    ensures req.verb == OPTIONS ==> o == Next(None)
    ensures req.verb != OPTIONS && req.authorization == "" ==> o == Denied(RespondUnauthorized(MISSING_HEADER))
    ensures req.verb != OPTIONS && req.authorization != "" && BearerToken(req.authorization).None? ==>
      o == Denied(RespondUnauthorized(BAD_FORMAT))
    ensures o.Denied? ==> o.reply.status == STATUS_UNAUTHORIZED && o.reply.body.Some? && !o.reply.body.value.success
    ensures o.Next? && req.verb != OPTIONS ==>
      BearerToken(req.authorization).Some? && o.claims == validate(BearerToken(req.authorization).value) && o.claims.Some?
  {
    if req.verb == OPTIONS then Next(None)
    else if req.authorization == "" then Denied(RespondUnauthorized(MISSING_HEADER))
    else
      match BearerToken(req.authorization)
      case None => Denied(RespondUnauthorized(BAD_FORMAT))
      case Some(token) =>
        match validate(token)
        case None => Denied(RespondUnauthorized(BAD_TOKEN))
        case Some(claims) => Next(Some(claims))
  }

  /** A header of the form `Bearer <token>` yields exactly that token, provided the token has no space. */
  lemma BearerOfToken(token: string)
    requires ' ' !in token
    ensures BearerToken("Bearer " + token) == Some(token)
  {
    SplitTwoWords("Bearer", token);
    assert "Bearer " + token == "Bearer" + [' '] + token;
  }

  /** Two space-free words joined by one space split back into those two words. */
  lemma SplitTwoWords(first: string, second: string)
    requires ' ' !in first && ' ' !in second
    ensures Strings.Split(first + [' '] + second, ' ') == [first, second]
  {
    var h := first + [' '] + second;
    var k := Strings.IndexOf(h, ' ');
    assert h[|first|] == ' ';
    assert h[..|first|] == first;
    assert h[..k] == h[..|first| + 1][..k];
    assert k == |first|;
    assert h[k + 1..] == second;
    Strings.CountAppend(first + [' '], second, ' ');
    Strings.CountAppend(first, [' '], ' ');
    Strings.SplitOnce(h, ' ');
  }

  /** Conversely, a header the middleware accepts is `Bearer`, one space and the token. */
  lemma BearerTokenShape(header: string)
    requires BearerToken(header).Some?
    ensures header == "Bearer " + BearerToken(header).value
  {
    var parts := Strings.Split(header, ' ');
    Strings.SplitOnce(header, ' ');
    var k := Strings.IndexOf(header, ' ');
    assert header == header[..k] + [' '] + header[k + 1..];
  }

  /** Exactly the requests with a well-formed header and a token the service accepts get through with claims. */
  lemma AuthenticatedIff<C>(verb: string, token: string, validate: string -> Option<C>)
    requires verb != OPTIONS && ' ' !in token
    ensures Authenticate(Request(verb, "Bearer " + token), validate) == if validate(token).Some? then Next(validate(token)) else Denied(RespondUnauthorized(BAD_TOKEN))
  {
    BearerOfToken(token);
  }

  /** The scheme is case-sensitive and the separator a single space: `bearer x` and `Bearer  x` are both malformed. */
  lemma StrictScheme<C>(token: string, validate: string -> Option<C>)
    requires ' ' !in token
    ensures Authenticate(Request("GET", "bearer " + token), validate) == Denied(RespondUnauthorized(BAD_FORMAT))
    ensures Authenticate(Request("GET", "Bearer  " + token), validate) == Denied(RespondUnauthorized(BAD_FORMAT))
  {
    LowercaseSchemeRejected(token);
    DoubleSpaceRejected(token);
  }

  /** `bearer <token>` splits into two parts, the first of which is not `Bearer`. */
  lemma LowercaseSchemeRejected(token: string)
    requires ' ' !in token
    ensures BearerToken("bearer " + token).None?
  {
    SplitTwoWords("bearer", token);
    assert "bearer " + token == "bearer" + [' '] + token;
  }

  /** `Bearer  <token>` splits into at least three parts. */
  lemma DoubleSpaceRejected(token: string)
    ensures BearerToken("Bearer  " + token).None?
  {
    DoubleSpaceSplitsInThree(token);
  }

  lemma DoubleSpaceSplitsInThree(token: string)
    ensures |Strings.Split("Bearer  " + token, ' ')| == Strings.Count(token, ' ') + 3
  {
    Strings.CountAppend("Bearer  ", token, ' ');
    assert Strings.Count("Bearer  ", ' ') == 2;
  }
}

=== FILE: canvas_editor.dfy ===
/**
  The designer canvas component (`CanvasEditor`): the effect that reconciles
  the canvas with the design's text elements after every change, and the
  debounced `object:modified` handler that writes a dragged or edited object
  back into the design.

  The sync pass works on the objects present when it starts (`existingObjects`):
  it first removes the tagged i-text objects whose id the design no longer
  has, then walks the design's elements in order, refreshing the first
  pre-existing object carrying each id (unless the user is editing it) and
  adding an object for every element that had none. The layout extent of a new
  object is computed by the drawing library and is a parameter `measure`.

  The 300 ms timer is reduced to its one pending slot: a new event replaces
  whatever was pending, the timer's expiry commits the pending object as it
  is at that moment, and the effect cleanup drops it.
 */
module CanvasEditor {
  import opened Wrappers
  import Seqs
  import DesignContext
  import opened CanvasHelpers

  /** A tagged i-text object whose id the design does not have. */
  predicate Stale(o: CanvasObject, ids: seq<string>) {
    IsText(o) && IsTagged(o) && o.tag.value !in ids
  }

  /** An i-text object tagged with one of `ids`: the only objects the sync pass may rewrite. */
  predicate Matches(o: CanvasObject, ids: seq<string>) {
    IsText(o) && o.tag.Some? && o.tag.value in ids
  }

  /** `b` keeps the kind and tag of every object of `a`, index by index, and may have more. */
  predicate SameLabels(a: Canvas, b: Canvas) {
    |a| <= |b| && forall i :: 0 <= i < |a| ==> b[i].kind == a[i].kind && b[i].tag == a[i].tag
  }

  /** Objects with the same kind and tag prefix are found at the same index. */
  lemma FindObjectStable(a: Canvas, b: Canvas, id: string)
    requires SameLabels(a, b) && FindObject(a, id) >= 0
    ensures FindObject(b, id) == FindObject(a, id)
  {
    var k := FindObject(a, id);
    assert Carries(b[k], id);
    var kb := FindObject(b, id);
    if kb < k {
      assert Carries(a[kb], id);
    }
  }

  /** The removal loop of the sync pass: every stale object goes, everything else stays in order. */
  function RemoveStale(c: Canvas, ids: seq<string>): (r: Canvas)
    ensures forall i :: 0 <= i < |r| ==> !Stale(r[i], ids)
    ensures forall i :: 0 <= i < |c| && !Stale(c[i], ids) ==> c[i] in r
    ensures Seqs.IsSubsequence(r, c)
  {
    Seqs.Filter(c, (o: CanvasObject) => !Stale(o, ids))
  }

  /** The removal drops every copy of each stale object and keeps every other object as often as it occurred. */
  lemma RemoveStaleCounts(c: Canvas, ids: seq<string>, o: CanvasObject)
    ensures multiset(RemoveStale(c, ids))[o] == if Stale(o, ids) then 0 else multiset(c)[o]
  {
    Seqs.FilterCounts(c, (o: CanvasObject) => !Stale(o, ids));
  }

  /** A canvas with no stale object is left as it is. */
  lemma RemoveStaleNoop(c: Canvas, ids: seq<string>)
    requires forall i :: 0 <= i < |c| ==> !Stale(c[i], ids)
    ensures RemoveStale(c, ids) == c
  {
    Seqs.FilterAll(c, (o: CanvasObject) => !Stale(o, ids));
  }

  /** The object's text or font differs from the element's, so writing the element changes the object's layout. */
  predicate LayoutChanges(o: CanvasObject, el: DesignContext.TextElement) {
    o.text != Some(el.content) || o.fontSize != el.fontSize || o.fontFamily != el.fontFamily
  }

  /**
    The property writes the sync pass makes on an object it is allowed to
    touch; `layout` is the size the drawing library computes when the text or
    its font changes.
   */
  function Refresh(o: CanvasObject, el: DesignContext.TextElement, layout: Extent): (r: CanvasObject)
    ensures Shows(r, el)
    ensures r.kind == o.kind && r.tag == o.tag && r.isEditing == o.isEditing
    ensures r.scaleX == o.scaleX && r.scaleY == o.scaleY
    ensures LayoutChanges(o, el) ==> r.width == layout.width && r.height == layout.height
    ensures !LayoutChanges(o, el) ==> r.width == o.width && r.height == o.height
    ensures Shows(o, el) ==> r == o
  {
    var written := o.(text := Some(el.content), fontSize := el.fontSize, fontFamily := el.fontFamily,
       fill := el.color, left := el.position.x, top := el.position.y);
    if LayoutChanges(o, el) then written.(width := layout.width, height := layout.height) else written
  }

  /** One iteration of the `forEach` over the design's elements; `base` is the pre-pass object list. */
  function SyncElement(base: Canvas, acc: Canvas, el: DesignContext.TextElement, measure: DesignContext.TextElement -> Extent): (r: Canvas)
    requires |base| <= |acc|
    ensures |r| == if FindObject(base, el.id) < 0 then |acc| + 1 else |acc|
    ensures FindObject(base, el.id) < 0 ==> r[..|acc|] == acc
  {
    var k := FindObject(base, el.id);
    if k < 0 then AddTextToCanvas(acc, el, measure(el))
    else if acc[k].isEditing then acc
    else acc[k := Refresh(acc[k], el, measure(el))]
  }

  /** Objects of `base` keep kind, tag and editing flag in `acc`; only those matching `ids` and not being edited may differ. */
  predicate Framed(base: Canvas, acc: Canvas, ids: seq<string>) {
    && SameLabels(base, acc)
    && (forall i :: 0 <= i < |base| ==> acc[i].isEditing == base[i].isEditing)
    && (forall i :: 0 <= i < |base| && (base[i].isEditing || !Matches(base[i], ids)) ==> acc[i] == base[i])
  }

  /** Every object past the end of `base` is a fresh, non-editing i-text object for one of `ids`. */
  predicate AppendedFor(base: Canvas, acc: Canvas, ids: seq<string>) {
    forall i :: |base| <= i < |acc| ==> Matches(acc[i], ids) && !acc[i].isEditing
  }

  /** Every element has an object carrying its id. */
  predicate AllPlaced(acc: Canvas, els: seq<DesignContext.TextElement>) {
    forall j :: 0 <= j < |els| ==> FindObject(acc, els[j].id) >= 0
  }

  /** The first object carrying each element's id is being edited or shows the element. */
  predicate AllShown(acc: Canvas, els: seq<DesignContext.TextElement>) {
    forall j :: 0 <= j < |els| ==>
      var k := FindObject(acc, els[j].id); k >= 0 && (acc[k].isEditing || Shows(acc[k], els[j]))
  }

  /** The `forEach` over the design's elements, element by element in order. */
  function SyncElements(base: Canvas, els: seq<DesignContext.TextElement>, measure: DesignContext.TextElement -> Extent): (r: Canvas)
    ensures Framed(base, r, DesignContext.Ids(els))
    ensures AppendedFor(base, r, DesignContext.Ids(els))
    ensures AllPlaced(r, els)
    ensures DesignContext.DistinctIds(els) ==> AllShown(r, els)
    decreases |els|
  {
    if |els| == 0 then base
    else
      var acc := SyncElements(base, els[..|els| - 1], measure);
      var r := SyncElement(base, acc, els[|els| - 1], measure);
      StepFrame(base, els, acc, r, measure);
      StepPlaced(base, els, acc, r, measure);
      if DesignContext.DistinctIds(els) then
        StepShown(base, els, acc, r, measure);
        r
      else r
  }

  lemma IdsSnoc(els: seq<DesignContext.TextElement>)
    requires |els| > 0
    ensures DesignContext.Ids(els) == DesignContext.Ids(els[..|els| - 1]) + [els[|els| - 1].id]
  {
  }

  /** One step of the walk keeps the frame: it rewrites a carrier of the element's id, or appends an object for it. */
  lemma StepFrame(base: Canvas, els: seq<DesignContext.TextElement>, acc: Canvas, r: Canvas, measure: DesignContext.TextElement -> Extent)
    requires |els| > 0
    requires Framed(base, acc, DesignContext.Ids(els[..|els| - 1])) && AppendedFor(base, acc, DesignContext.Ids(els[..|els| - 1]))
    requires r == SyncElement(base, acc, els[|els| - 1], measure)
    ensures Framed(base, r, DesignContext.Ids(els)) && AppendedFor(base, r, DesignContext.Ids(els)) && SameLabels(acc, r)
    ensures forall i :: 0 <= i < |acc| && i != FindObject(base, els[|els| - 1].id) ==> r[i] == acc[i]
  {
    IdsSnoc(els);
    var el := els[|els| - 1];
    var k := FindObject(base, el.id);
    if k >= 0 {
      assert Matches(base[k], DesignContext.Ids(els));
    }
  }

  /** One step of the walk keeps every earlier element placed and places the new one. */
  lemma StepPlaced(base: Canvas, els: seq<DesignContext.TextElement>, acc: Canvas, r: Canvas, measure: DesignContext.TextElement -> Extent)
    requires |els| > 0
    requires SameLabels(base, acc) && SameLabels(acc, r) && AllPlaced(acc, els[..|els| - 1])
    requires r == SyncElement(base, acc, els[|els| - 1], measure)
    ensures AllPlaced(r, els)
  {
    var p := els[..|els| - 1];
    var el := els[|els| - 1];
    forall j | 0 <= j < |els| ensures FindObject(r, els[j].id) >= 0 {
      if j < |p| {
        assert els[j] == p[j];
        FindObjectStable(acc, r, p[j].id);
      } else if FindObject(base, el.id) >= 0 {
        FindObjectStable(base, r, el.id);
      } else {
        assert Carries(r[|acc|], el.id);
      }
    }
  }

  /** With distinct ids, one step keeps every earlier element shown and shows the new one. */
  lemma StepShown(base: Canvas, els: seq<DesignContext.TextElement>, acc: Canvas, r: Canvas, measure: DesignContext.TextElement -> Extent)
    requires |els| > 0 && DesignContext.DistinctIds(els)
    requires Framed(base, acc, DesignContext.Ids(els[..|els| - 1])) && AppendedFor(base, acc, DesignContext.Ids(els[..|els| - 1]))
    requires AllShown(acc, els[..|els| - 1])
    requires r == SyncElement(base, acc, els[|els| - 1], measure)
    ensures AllShown(r, els)
  {
    var p := els[..|els| - 1];
    var el := els[|els| - 1];
    var k := FindObject(base, el.id);
    StepFrame(base, els, acc, r, measure);
    assert DesignContext.DistinctIds(p);
    forall j | 0 <= j < |els|
      ensures var kj := FindObject(r, els[j].id); kj >= 0 && (r[kj].isEditing || Shows(r[kj], els[j]))
    {
      if j < |p| {
        assert els[j] == p[j] && p[j].id != el.id;
        var kj := FindObject(acc, p[j].id);
        FindObjectStable(acc, r, p[j].id);
        assert acc[kj].tag == Some(p[j].id);
        assert kj != k;
      } else if k >= 0 {
        FindObjectStable(base, r, el.id);
      } else {
        NotPlacedYet(base, p, el, acc, r);
      }
    }
  }

  /** With distinct ids, an element that no pre-existing object carries is found at the object appended for it. */
  lemma NotPlacedYet(base: Canvas, p: seq<DesignContext.TextElement>, el: DesignContext.TextElement, acc: Canvas, r: Canvas)
    requires forall t :: 0 <= t < |p| ==> p[t].id != el.id
    requires SameLabels(base, acc) && AppendedFor(base, acc, DesignContext.Ids(p))
    requires FindObject(base, el.id) < 0
    requires |r| == |acc| + 1 && r[..|acc|] == acc && Carries(r[|acc|], el.id)
    ensures FindObject(r, el.id) == |acc|
  {
    assert el.id !in DesignContext.Ids(p);
    forall i | 0 <= i < |acc| ensures !Carries(r[i], el.id) {
      assert r[i] == acc[i];
      if i < |base| {
        assert !Carries(base[i], el.id);
      }
    }
  }

  /**
    The whole sync effect: remove the stale objects, then walk the elements.
    `existingObjects` is captured before the removal, so the walk looks objects
    up in the canvas as it is once the stale ones are gone.
   */
  function Sync(c: Canvas, els: seq<DesignContext.TextElement>, measure: DesignContext.TextElement -> Extent): (r: Canvas)
    ensures forall i :: 0 <= i < |r| ==> !Stale(r[i], DesignContext.Ids(els))
    ensures forall i :: 0 <= i < |c| && (!IsText(c[i]) || c[i].tag.None?) ==> c[i] in r
    ensures forall i :: 0 <= i < |c| && c[i].isEditing && !Stale(c[i], DesignContext.Ids(els)) ==> c[i] in r
    ensures AllPlaced(r, els)
    ensures DesignContext.DistinctIds(els) ==> AllShown(r, els)
  {
    var ids := DesignContext.Ids(els);
    var base := RemoveStale(c, ids);
    var r := SyncElements(base, els, measure);
    SyncKeeps(c, ids, base, r);
    r
  }

  /** What the walk leaves of the pruned canvas: nothing stale, and every object it may not touch. */
  lemma SyncKeeps(c: Canvas, ids: seq<string>, base: Canvas, r: Canvas)
    requires base == RemoveStale(c, ids)
    requires Framed(base, r, ids) && AppendedFor(base, r, ids)
    ensures forall i :: 0 <= i < |r| ==> !Stale(r[i], ids)
    ensures forall i :: 0 <= i < |c| && (!IsText(c[i]) || c[i].tag.None? || c[i].isEditing) && !Stale(c[i], ids) ==> c[i] in r
  {
    forall i | 0 <= i < |r| ensures !Stale(r[i], ids) {
      if i < |base| {
        assert !Stale(base[i], ids);
      }
    }
    forall i | 0 <= i < |c| && (!IsText(c[i]) || c[i].tag.None? || c[i].isEditing) && !Stale(c[i], ids)
      ensures c[i] in r
    {
      var t :| 0 <= t < |base| && base[t] == c[i];
      assert r[t] == base[t];
    }
  }

  /** After the sync a non-empty id has an i-text object on the canvas exactly when the design has an element with it. */
  lemma SyncTagsMatchDesign(c: Canvas, els: seq<DesignContext.TextElement>, measure: DesignContext.TextElement -> Extent, id: string)
    requires id != ""
    ensures FindObject(Sync(c, els, measure), id) >= 0 <==> id in DesignContext.Ids(els)
  {
    var r := Sync(c, els, measure);
    var k := FindObject(r, id);
    if k >= 0 {
      assert !Stale(r[k], DesignContext.Ids(els));
    }
    if id in DesignContext.Ids(els) {
      var j :| 0 <= j < |els| && DesignContext.Ids(els)[j] == id;
    }
  }

  /** The pending slot of the 300 ms debounce: the object whose commit is scheduled, if any. */
  datatype Debounce = Debounce(pending: Option<CanvasObject>)

  const IDLE: Debounce := Debounce(None)

  /** `handleObjectModified`: an event without a tagged target is ignored, any other replaces the pending one. */
  function OnObjectModified(s: Debounce, target: Option<CanvasObject>): (r: Debounce)
    ensures target.None? || !IsTagged(target.value) ==> r == s
    ensures target.Some? && IsTagged(target.value) ==> r.pending == target
  {
    if target.None? || !IsTagged(target.value) then s else Debounce(target)
  }

  /** The update the timer commits: the position always, the content when the object has text. */
  function CommitPayload(o: CanvasObject): (u: DesignContext.TextUpdate)
    ensures u.position == Some(DesignContext.Position(o.left, o.top))
    ensures u.content == o.text
    ensures u.id.None? && u.fontSize.None? && u.fontFamily.None? && u.color.None?
  {
    DesignContext.TextUpdate(None, o.text, Some(DesignContext.Position(o.left, o.top)), None, None, None)
  }

  /**
    The timer expires: the pending object, read as it is at expiry (`live`,
    which may have been dragged or edited since the event), is written back
    to the design. An object that has lost its id makes the callback throw
    before the design is touched.
   */
  function Fire(s: Debounce, live: CanvasObject, d: DesignContext.Design, now: DesignContext.Timestamp): (r: (Debounce, DesignContext.Design))
    ensures r.0 == IDLE
    ensures s.pending.None? || live.tag.None? ==> r.1 == d
    ensures s.pending.Some? && live.tag.Some? ==>
      r.1 == DesignContext.UpdateText(d, live.tag.value, CommitPayload(live), now)
  {
    match s.pending
    case None => (IDLE, d)
    case Some(_) =>
      match live.tag
      case None => (IDLE, d)
      case Some(id) => (IDLE, DesignContext.UpdateText(d, id, CommitPayload(live), now))
  }

  /**
    The effect cleanup: the listener goes and the pending commit is
    cancelled. It runs on unmount and also whenever the design changes, since
    the provider hands out a new `updateText` on every render and the effect
    depends on it.
   */
  function Unmount(s: Debounce): (r: Debounce)
    ensures r.pending.None?
  {
    IDLE
  }

  /** A burst of `object:modified` events before the timer expires. */
  function OnEvents(s: Debounce, targets: seq<Option<CanvasObject>>): Debounce
    decreases |targets|
  {
    if |targets| == 0 then s else OnObjectModified(OnEvents(s, targets[..|targets| - 1]), targets[|targets| - 1])
  }

  /** Index of the last event whose target is a tagged object, or -1. */
  function LastTagged(targets: seq<Option<CanvasObject>>): (k: int)
    ensures -1 <= k < |targets|
    ensures k >= 0 ==> targets[k].Some? && IsTagged(targets[k].value)
    ensures forall j :: k < j < |targets| ==> targets[j].None? || !IsTagged(targets[j].value)
  {
    if |targets| == 0 then -1
    else
      var t := targets[|targets| - 1];
      if t.Some? && IsTagged(t.value) then |targets| - 1 else LastTagged(targets[..|targets| - 1])
  }

  /** Only the last tagged event of a burst is pending; without one the slot is as before. */
  lemma {:induction false} OnEventsKeepsLast(s: Debounce, targets: seq<Option<CanvasObject>>)
    ensures var k := LastTagged(targets);
      OnEvents(s, targets) == if k < 0 then s else Debounce(targets[k])
    decreases |targets|
  {
    if |targets| > 0 {
      OnEventsKeepsLast(s, targets[..|targets| - 1]);
    }
  }

  /** The committed update moves every element with the object's id to where the object is at expiry. */
  lemma FireMovesElement(o: CanvasObject, live: CanvasObject, d: DesignContext.Design, now: DesignContext.Timestamp, i: int)
    requires live.tag.Some? && 0 <= i < |d.textElements| && d.textElements[i].id == live.tag.value
    ensures var r := Fire(Debounce(Some(o)), live, d, now).1.textElements[i];
      r.position == DesignContext.Position(live.left, live.top) && r.id == live.tag.value
      && (live.text.Some? ==> r.content == live.text.value)
      && (live.text.None? ==> r.content == d.textElements[i].content)
  {
  }

  /** A design change between an event and the timer's expiry cancels the commit: the design is left as the change made it. */
  lemma DesignChangeCancelsCommit(s: Debounce, t: Option<CanvasObject>, live: CanvasObject, d: DesignContext.Design, now: DesignContext.Timestamp)
    ensures Fire(Unmount(OnObjectModified(s, t)), live, d, now).1 == d
  {
  }
}

=== FILE: canvas_helpers.dfy ===
/**
  The drawing surface seen through the narrow interface the designer uses:
  the canvas is the ordered list of its objects, each object an i-text or
  some other kind, optionally tagged (`data.id`) with the id of the text
  element it shows. Rendering, selection and event wiring belong to the
  drawing library and are not modelled.
 */
module CanvasHelpers {
  import opened Wrappers
  import Seqs
  import DesignContext

  datatype ObjectKind = IText | OtherKind

  /** Width and height of an object's text layout, computed by the drawing library. */
  datatype Extent = Extent(width: real, height: real)

  datatype CanvasObject = CanvasObject(
    kind: ObjectKind,
    tag: Option<string>,
    text: Option<string>,
    left: real,
    top: real,
    width: real,
    height: real,
    scaleX: real,
    scaleY: real,
    fontSize: real,
    fontFamily: string,
    fill: string,
    isEditing: bool,
    lockRotation: bool,
    selectable: bool)

  type Canvas = seq<CanvasObject>

  /** The canvas the designer creates (600 by 750). */
  const CANVAS_WIDTH: real := 600.0
  const CANVAS_HEIGHT: real := 750.0

  /** Returned by `getObjects('i-text')`. */
  predicate IsText(o: CanvasObject) {
    o.kind == IText
  }

  /** An i-text object whose data tag is the id. */
  predicate Carries(o: CanvasObject, id: string) {
    IsText(o) && o.tag == Some(id)
  }

  /** `obj.data?.id` is truthy: present and non-empty. */
  predicate IsTagged(o: CanvasObject) {
    o.tag.Some? && o.tag.value != ""
  }

  /** The position of the first i-text object tagged with the id, or -1. */
  function FindObject(c: Canvas, id: string): (k: int)
    ensures -1 <= k < |c|
    ensures k >= 0 ==> Carries(c[k], id) && forall j :: 0 <= j < k ==> !Carries(c[j], id)
    ensures k == -1 ==> forall j :: 0 <= j < |c| ==> !Carries(c[j], id)
  {
    if |c| == 0 then -1
    else if Carries(c[0], id) then 0
    else var k := FindObject(c[1..], id); if k == -1 then -1 else k + 1
  }

  /** The object `addTextToCanvas` creates for a text element. */
  function NewTextObject(el: DesignContext.TextElement, extent: Extent): (o: CanvasObject)
    ensures Carries(o, el.id) && o.text == Some(el.content)
    ensures o.left == el.position.x && o.top == el.position.y
    ensures o.fontSize == el.fontSize && o.fontFamily == el.fontFamily && o.fill == el.color
    ensures o.lockRotation && o.selectable && !o.isEditing
  {
    CanvasObject(IText, Some(el.id), Some(el.content), el.position.x, el.position.y,
      extent.width, extent.height, 1.0, 1.0, el.fontSize, el.fontFamily, el.color,
      false, true, true)
  }

  /** `addTextToCanvas`: the new object goes on top of every existing one. */
  function AddTextToCanvas(c: Canvas, el: DesignContext.TextElement, extent: Extent): (r: Canvas)
    ensures |r| == |c| + 1 && r[..|c|] == c
    ensures r[|c|] == NewTextObject(el, extent)
  {
    c + [NewTextObject(el, extent)]
  }

  /** `scaleX || 1`: a zero (falsy) scale counts as 1. */
  function ScaleOrOne(s: real): (r: real)
    ensures r != 0.0
  {
    if s == 0.0 then 1.0 else s
  }

  /** The object's box after scaling: `width * (scaleX || 1)`. */
  function EffectiveWidth(o: CanvasObject): real {
    o.width * ScaleOrOne(o.scaleX)
  }

  function EffectiveHeight(o: CanvasObject): real {
    o.height * ScaleOrOne(o.scaleY)
  }

  /** One axis of the `moving` handler: first the low edge, then the high edge, which wins. */
  function ClampAxis(pos: real, extent: real, limit: real): (r: real)
    ensures extent <= limit ==> 0.0 <= r <= limit - extent
    ensures 0.0 <= pos && pos + extent <= limit ==> r == pos
    ensures extent > limit ==> r == limit - extent
  {
    var low := if pos < 0.0 then 0.0 else pos;
    if low + extent > limit then limit - extent else low
  }

  /** The position `enableTextDragging` gives an object on every `moving` event. */
  function ClampMoving(o: CanvasObject, canvasWidth: real, canvasHeight: real): (r: CanvasObject)
    ensures r == o.(left := r.left, top := r.top)
  {
    o.(left := ClampAxis(o.left, EffectiveWidth(o), canvasWidth),
       top := ClampAxis(o.top, EffectiveHeight(o), canvasHeight))
  }

  /** An object that fits keeps its whole scaled box inside the canvas after the clamp. */
  lemma ClampKeepsBoxInside(o: CanvasObject, w: real, h: real)
    requires EffectiveWidth(o) <= w && EffectiveHeight(o) <= h
    ensures var r := ClampMoving(o, w, h);
      0.0 <= r.left && r.left + EffectiveWidth(r) <= w && 0.0 <= r.top && r.top + EffectiveHeight(r) <= h
  {
  }

  /** A position already inside the canvas is left where it is. */
  lemma ClampKeepsInsidePosition(o: CanvasObject, w: real, h: real)
    requires 0.0 <= o.left && o.left + EffectiveWidth(o) <= w
    requires 0.0 <= o.top && o.top + EffectiveHeight(o) <= h
    ensures ClampMoving(o, w, h) == o
  {
  }

  /** An object wider than the canvas is pinned to `W - w`, left of the canvas origin. */
  lemma ClampOversizedWidth(o: CanvasObject, w: real, h: real)
    requires EffectiveWidth(o) > w
    ensures ClampMoving(o, w, h).left == w - EffectiveWidth(o) < 0.0
  {
  }

  /** Clamping an already clamped object changes nothing, whatever its size. */
  lemma ClampIdempotent(o: CanvasObject, w: real, h: real)
    ensures ClampMoving(ClampMoving(o, w, h), w, h) == ClampMoving(o, w, h)
  {
    var r := ClampMoving(o, w, h);
    assert EffectiveWidth(r) == EffectiveWidth(o) && EffectiveHeight(r) == EffectiveHeight(o);
    ClampAxisIdempotent(o.left, EffectiveWidth(o), w);
    ClampAxisIdempotent(o.top, EffectiveHeight(o), h);
  }

  lemma ClampAxisIdempotent(pos: real, extent: real, limit: real)
    ensures ClampAxis(ClampAxis(pos, extent, limit), extent, limit) == ClampAxis(pos, extent, limit)
  {
  }

  /** The object shows the element: text, font, colour and position all equal the element's. */
  predicate Shows(o: CanvasObject, el: DesignContext.TextElement) {
    && o.text == Some(el.content)
    && o.fontSize == el.fontSize && o.fontFamily == el.fontFamily && o.fill == el.color
    && o.left == el.position.x && o.top == el.position.y
  }

  /** The update sets a property the drawing library lays the text out by, so it recomputes the object's size. */
  predicate Relayout(u: DesignContext.TextUpdate) {
    u.content.Some? || u.fontSize.Some? || u.fontFamily.Some?
  }

  /**
    `updateTextProperties` on one object: only the fields the update carries,
    and the size `layout` the drawing library computes when the text or its
    font changes.
   */
  function ApplyUpdate(o: CanvasObject, u: DesignContext.TextUpdate, layout: Extent): (r: CanvasObject)
    ensures r.text == (if u.content.Some? then Some(u.content.value) else o.text)
    ensures r.fontSize == u.fontSize.GetOr(o.fontSize) && r.fontFamily == u.fontFamily.GetOr(o.fontFamily)
    ensures r.fill == u.color.GetOr(o.fill)
    ensures r.left == (if u.position.Some? then u.position.value.x else o.left)
    ensures r.top == (if u.position.Some? then u.position.value.y else o.top)
    ensures Relayout(u) ==> r.width == layout.width && r.height == layout.height
    ensures !Relayout(u) ==> r.width == o.width && r.height == o.height
    ensures r == o.(text := r.text, fontSize := r.fontSize, fontFamily := r.fontFamily, fill := r.fill,
                    left := r.left, top := r.top, width := r.width, height := r.height)
  {
    var moved := o.(text := if u.content.Some? then Some(u.content.value) else o.text,
       fontSize := u.fontSize.GetOr(o.fontSize),
       fontFamily := u.fontFamily.GetOr(o.fontFamily),
       fill := u.color.GetOr(o.fill),
       left := if u.position.Some? then u.position.value.x else o.left,
       top := if u.position.Some? then u.position.value.y else o.top);
    if Relayout(u) then moved.(width := layout.width, height := layout.height) else moved
  }

  /** `updateTextProperties`: the first i-text object with that id takes the update; nothing else changes. */
  function UpdateTextProperties(c: Canvas, id: string, u: DesignContext.TextUpdate, layout: Extent): (r: Canvas)
    ensures |r| == |c|
    ensures FindObject(c, id) == -1 ==> r == c
    ensures FindObject(c, id) >= 0 ==> r == c[FindObject(c, id) := ApplyUpdate(c[FindObject(c, id)], u, layout)]
  {
    var k := FindObject(c, id);
    if k < 0 then c else c[k := ApplyUpdate(c[k], u, layout)]
  }

  /** `deleteTextFromCanvas`: removes the first i-text object with that id, and only that one. */
  function DeleteTextFromCanvas(c: Canvas, id: string): (r: Canvas)
    ensures FindObject(c, id) == -1 ==> r == c
    ensures FindObject(c, id) >= 0 ==>
      |r| == |c| - 1 && r == c[..FindObject(c, id)] + c[FindObject(c, id) + 1..]
  {
    var k := FindObject(c, id);
    if k < 0 then c else c[..k] + c[k + 1..]
  }

  /** `clearAllText`: every i-text object goes; objects of other kinds stay, in order. */
  function ClearAllText(c: Canvas): (r: Canvas)
    ensures forall i :: 0 <= i < |r| ==> !IsText(r[i])
    ensures forall o :: multiset(r)[o] == if IsText(o) then 0 else multiset(c)[o]
    ensures Seqs.IsSubsequence(r, c)
  {
    var keep := (o: CanvasObject) => !IsText(o);
    Seqs.FilterCounts(c, keep);
    Seqs.Filter(c, keep)
  }

  /** Deleting from the canvas removes at most one object: a second copy of the id survives. */
  lemma DeleteRemovesOnlyFirst(c: Canvas, id: string, i: int, j: int)
    requires 0 <= i < j < |c| && Carries(c[i], id) && Carries(c[j], id)
    ensures FindObject(DeleteTextFromCanvas(c, id), id) >= 0
  {
    var k := FindObject(c, id);
    var r := DeleteTextFromCanvas(c, id);
    assert k <= i;
    assert r[j - 1] == c[j];
  }

  /** An element whose id the canvas does not carry yet is found, after the add, at the new object, which shows it. */
  lemma AddTextFindsNew(c: Canvas, el: DesignContext.TextElement, extent: Extent)
    requires FindObject(c, el.id) == -1
    ensures var r := AddTextToCanvas(c, el, extent);
      FindObject(r, el.id) == |c| && Shows(r[|c|], el)
    ensures DeleteTextFromCanvas(AddTextToCanvas(c, el, extent), el.id) == c
  {
    var r := AddTextToCanvas(c, el, extent);
    assert forall j :: 0 <= j < |c| ==> r[j] == c[j];
  }

  /** After clearing, no id is found on the canvas any more, and clearing again changes nothing. */
  lemma ClearLeavesNoText(c: Canvas, id: string)
    ensures FindObject(ClearAllText(c), id) == -1
    ensures ClearAllText(ClearAllText(c)) == ClearAllText(c)
  {
    var r := ClearAllText(c);
    Seqs.FilterAll(r, (o: CanvasObject) => !IsText(o));
  }

  /**
    The canvas update mirrors the design's: when the object carrying an
    element's id shows it, after the same update it shows the merged element.
   */
  lemma UpdateMirrorsDesign(c: Canvas, el: DesignContext.TextElement, u: DesignContext.TextUpdate, layout: Extent)
    requires FindObject(c, el.id) >= 0 && Shows(c[FindObject(c, el.id)], el)
    ensures var k := FindObject(c, el.id);
      Shows(UpdateTextProperties(c, el.id, u, layout)[k], DesignContext.Merge(el, u))
  {
  }

  /** No object after the first carries the id. */
  predicate SingleCarrier(c: Canvas, id: string) {
    forall j :: 0 <= j < |c| && Carries(c[j], id) ==> j == FindObject(c, id)
  }

  /** The canvas finds an id exactly when some object carries it. */
  lemma FoundWhenCarried(c: Canvas, x: string)
    ensures FindObject(c, x) >= 0 <==> exists j :: 0 <= j < |c| && Carries(c[j], x)
  {
  }

  /** Deleting the object at `k` leaves the objects before it in place and shifts the rest down by one. */
  lemma RemovedAt(c: Canvas, k: int, j: int)
    requires 0 <= k < |c| && 0 <= j < |c| - 1
    ensures (c[..k] + c[k + 1..])[j] == if j < k then c[j] else c[j + 1]
  {
  }

  /** After deleting `id`, the canvas carries `x` exactly when `x` is another id it carried before. */
  lemma CanvasDeleteKeepsOthers(c: Canvas, id: string, x: string)
    requires SingleCarrier(c, id)
    ensures FindObject(DeleteTextFromCanvas(c, id), x) >= 0 <==> x != id && FindObject(c, x) >= 0
  {
    var r := DeleteTextFromCanvas(c, id);
    var k := FindObject(c, id);
    FoundWhenCarried(r, x);
    FoundWhenCarried(c, x);
    if k >= 0 {
      forall j | 0 <= j < |r| && Carries(r[j], x)
        ensures x != id && Carries(c[if j < k then j else j + 1], x)
      {
        RemovedAt(c, k, j);
      }
      if x != id && FindObject(c, x) >= 0 {
        var kx := FindObject(c, x);
        var j := if kx < k then kx else kx - 1;
        RemovedAt(c, k, j);
        assert Carries(r[j], x);
      }
    }
  }

  /** After the design deletes `id`, it has `x` exactly when `x` is another id it had before. */
  lemma DesignDeleteKeepsOthers(d: DesignContext.Design, id: string, x: string, now: DesignContext.Timestamp)
    ensures DesignContext.HasId(DesignContext.DeleteText(d, id, now).textElements, x) <==>
      x != id && DesignContext.HasId(d.textElements, x)
  {
    var els := DesignContext.DeleteText(d, id, now).textElements;
    if x != id && DesignContext.HasId(d.textElements, x) {
      var i :| 0 <= i < |d.textElements| && d.textElements[i].id == x;
      assert multiset(els)[d.textElements[i]] > 0;
      var j :| 0 <= j < |els| && els[j] == d.textElements[i];
    }
    if DesignContext.HasId(els, x) {
      var i :| 0 <= i < |els| && els[i].id == x;
      assert multiset(els)[els[i]] > 0;
      assert els[i] in d.textElements;
    }
  }

  /**
    The canvas delete mirrors the design's: when the canvas carries an id
    exactly when the design has it, and no id twice, the same holds after
    both deletes.
   */
  lemma DeleteMirrorsDesign(c: Canvas, d: DesignContext.Design, id: string, x: string, now: DesignContext.Timestamp)
    requires FindObject(c, x) >= 0 <==> DesignContext.HasId(d.textElements, x)
    requires SingleCarrier(c, id)
    ensures FindObject(DeleteTextFromCanvas(c, id), x) >= 0 <==>
      DesignContext.HasId(DesignContext.DeleteText(d, id, now).textElements, x)
  {
    CanvasDeleteKeepsOthers(c, id, x);
    DesignDeleteKeepsOthers(d, id, x, now);
  }
}

=== FILE: carousel.dfy ===
/**
  The featured-products carousel (`ProductCarousel`): the index of the slide
  on show over `n` products. The arrows move one slide with wrap-around, the
  dots jump to a slide, and a five-second timer advances one slide per tick;
  the timer is modelled by its ticks.
 */
module Carousel {

  /** With no products the carousel renders nothing. */
  function Renders(n: nat): (b: bool)
    ensures b <==> n > 0
  {
    n != 0
  }

  /** `goToNext`: the last slide wraps to the first. */
  function Next(i: int, n: nat): (r: int)
    ensures 0 <= i < n ==> 0 <= r < n && r == (i + 1) % n
  {
    if i == n - 1 then 0 else i + 1
  }

  /** `goToPrev`: the first slide wraps to the last. */
  function Prev(i: int, n: nat): (r: int)
    ensures 0 <= i < n ==> 0 <= r < n && r == (i + n - 1) % n
  {
    if i == 0 then n - 1 else i - 1
  }

  /** `goToSlide`: the dot's slide is shown whatever slide was on show; the dots offer only slides that exist. */
  function GoToSlide(i: int, index: int, n: nat): (r: int)
    ensures 0 <= index < n ==> 0 <= r < n
  {
    index
  }

  /** The arrows undo each other on every slide. */
  lemma PrevUndoesNext(i: int, n: nat)
    requires 0 <= i < n
    ensures Prev(Next(i, n), n) == i
    ensures Next(Prev(i, n), n) == i
  {
  }

  /** The slide shown after `ticks` ticks of the auto-advance timer. */
  function Advance(i: int, n: nat, ticks: nat): (r: int)
    ensures 0 <= i < n ==> 0 <= r < n
  {
    if ticks == 0 then i else Next(Advance(i, n, ticks - 1), n)
  }

  /** The timer walks the slides in a cycle: after `ticks` ticks it shows slide `(i + ticks) mod n`. */
  lemma {:induction false} AdvanceIsModular(i: int, n: nat, ticks: nat)
    requires 0 <= i < n
    ensures Advance(i, n, ticks) == (i + ticks) % n
  {
    if ticks > 0 {
      AdvanceIsModular(i, n, ticks - 1);
      var j := (i + ticks - 1) % n;
      assert Advance(i, n, ticks) == (j + 1) % n;
      ModSucc(i + ticks - 1, n);
    }
  }

  /** `((a mod n) + 1) mod n == (a + 1) mod n`. */
  lemma ModSucc(a: int, n: nat)
    requires a >= 0 && n > 0
    ensures (a % n + 1) % n == (a + 1) % n
  {
    var q := a / n;
    if a % n == n - 1 {
      ModUnique(a + 1, n, q + 1, 0);
      ModUnique(a % n + 1, n, 1, 0);
    } else {
      ModUnique(a + 1, n, q, a % n + 1);
      ModUnique(a % n + 1, n, 0, a % n + 1);
    }
  }

  /** The remainder is determined by any quotient-remainder decomposition. */
  lemma ModUnique(x: int, n: nat, k: int, m: int)
    requires n > 0 && 0 <= m < n && x == k * n + m
    ensures x % n == m
  {
    var d := x / n - k;
    assert d * n == m - x % n;
    MulBounds(d, n);
  }

  /** A non-zero multiple of `n` is at least `n` away from zero. */
  lemma {:induction false} MulBounds(d: int, n: nat)
    requires n > 0
    ensures d > 0 ==> d * n >= n
    ensures d < 0 ==> d * n + n <= 0
    decreases if d > 0 then d else -d
  {
    if d > 1 {
      MulBounds(d - 1, n);
      assert d * n == (d - 1) * n + n;
    } else if d < -1 {
      MulBounds(d + 1, n);
      assert d * n == (d + 1) * n - n;
    }
  }

  /** A full round of `n` ticks brings back the slide it started from. */
  lemma FullCycle(i: int, n: nat)
    requires 0 <= i < n
    ensures Advance(i, n, n) == i
  {
    AdvanceIsModular(i, n, n);
    ModUnique(i + n, n, 1, i);
  }

  /** After a dot is clicked the timer goes on from the dot's slide, whichever slide was on show before. */
  lemma DotThenTicks(i: int, j: int, index: int, n: nat, ticks: nat)
    requires 0 <= index < n
    ensures Advance(GoToSlide(i, index, n), n, ticks) == (index + ticks) % n
    ensures Advance(GoToSlide(i, index, n), n, ticks) == Advance(GoToSlide(j, index, n), n, ticks)
  {
    AdvanceIsModular(index, n, ticks);
  }
}

=== FILE: catalog.dfy ===
/**
  The storefront's product records as the frontend sees them: the product
  returned by the API (optional fields for data written before sizes,
  colours, gender and the flags existed) and the admin form's data. Prices
  are JavaScript numbers, modelled as reals.
 */
module Catalog {
  import opened Wrappers

  datatype Product = Product(
    id: string,
    name: string,
    description: string,
    price: real,
    category: string,
    images: seq<string>,
    tags: Option<seq<string>>,
    sizes: Option<seq<string>>,
    colors: Option<seq<string>>,
    gender: Option<string>,
    oversize: Option<bool>,
    featured: Option<bool>,
    createdAt: Option<string>,
    updatedAt: Option<string>)

  datatype ProductFormData = ProductFormData(
    name: string,
    description: string,
    price: real,
    images: seq<string>,
    tags: Option<seq<string>>,
    sizes: seq<string>,
    colors: seq<string>,
    gender: string,
    category: string,
    oversize: bool,
    featured: bool)

  const CATEGORIES: seq<string> := ["Casual", "Religioso", "Deportivo"]
  const GENDERS: seq<string> := ["Hombre", "Mujer", "Niño"]
  const SIZES: seq<string> := ["XS", "S", "M", "L", "XL", "XXL"]

  /** JavaScript truthiness of an optional string: present and non-empty. */
  predicate Truthy(s: Option<string>) {
    s.Some? && s.value != ""
  }

  /** `s || fallback` on an optional string. */
  function OrElse(s: Option<string>, fallback: string): (r: string)
    ensures Truthy(s) ==> r == s.value
    ensures !Truthy(s) ==> r == fallback
  {
    if Truthy(s) then s.value else fallback
  }
}

=== FILE: config.dfy ===
/**
  Backend configuration (package `config`): every setting is read from the
  environment with a default, and loading fails without a JWT secret of at
  least 32 characters. The environment is a map; a variable that is unset
  and one set to "" are treated alike, as `os.Getenv` does.
 */
module Config {
  import opened Wrappers
  import Strings

  type Env = map<string, string>

  /** `getEnv`: the variable's value when it is set and non-empty, otherwise the default. */
  function GetEnv(env: Env, key: string, default: string): (v: string)
    ensures key in env && env[key] != "" ==> v == env[key]
    ensures !(key in env && env[key] != "") ==> v == default
    ensures v == "" ==> default == ""
  {
    var value := if key in env then env[key] else "";
    if value != "" then value else default
  }

  /** `getEnvAsInt`: the variable parsed as a decimal integer, or the default when it is unset, empty or not a 64-bit integer. */
  function GetEnvAsInt(env: Env, key: string, default: int): (v: int)
    ensures key in env && Strings.Atoi(env[key]).Parsed? ==> v == Strings.Atoi(env[key]).n
    ensures !(key in env && Strings.Atoi(env[key]).Parsed?) ==> v == default
  {
    var valueStr := if key in env then env[key] else "";
    if valueStr == "" then default
    else
      match Strings.Atoi(valueStr)
      case Parsed(n) => n
      case _ => default
  }

  datatype Settings = Settings(
    port: string,
    env: string,
    dbPath: string,
    jwtSecret: string,
    jwtExpiryHours: int,
    corsOrigin: string,
    uploadDir: string,
    maxUploadSizeMB: int,
    logLevel: string,
    baseURL: string)

  const SECRET_MISSING: string := "JWT_SECRET is required but not set"
  const SECRET_SHORT: string := "JWT_SECRET must be at least 32 characters long"
  const MIN_SECRET_LENGTH: int := 32

  /** Every setting with its default, before the secret is checked. */
  function Read(env: Env): (s: Settings)
    ensures s.jwtSecret == GetEnv(env, "JWT_SECRET", "")
  {
    Settings(
      GetEnv(env, "PORT", "3000"),
      GetEnv(env, "ENV", "development"),
      GetEnv(env, "DB_PATH", "./data/tienda.db"),
      GetEnv(env, "JWT_SECRET", ""),
      GetEnvAsInt(env, "JWT_EXPIRY_HOURS", 24),
      GetEnv(env, "CORS_ORIGIN", "http://localhost:5173"),
      GetEnv(env, "UPLOAD_DIR", "./uploads"),
      GetEnvAsInt(env, "MAX_UPLOAD_SIZE_MB", 5),
      GetEnv(env, "LOG_LEVEL", "info"),
      GetEnv(env, "BASE_URL", "http://localhost:3000"))
  }

  /** `Load`: the settings, provided the secret is there and long enough. */
  function Load(env: Env): (r: Result<Settings, string>)
    ensures r.Ok? <==> "JWT_SECRET" in env && |env["JWT_SECRET"]| >= MIN_SECRET_LENGTH
    ensures r.Ok? ==> r.value == Read(env) && |r.value.jwtSecret| >= MIN_SECRET_LENGTH
    ensures r.Err? ==> r.error == (if GetEnv(env, "JWT_SECRET", "") == "" then SECRET_MISSING else SECRET_SHORT)
  {
    var cfg := Read(env);
    if cfg.jwtSecret == "" then Err(SECRET_MISSING)
    else if |cfg.jwtSecret| < MIN_SECRET_LENGTH then Err(SECRET_SHORT)
    else Ok(cfg)
  }

  /** With only a valid secret set, every other setting takes its default. */
  lemma Defaults(secret: string)
    requires |secret| >= MIN_SECRET_LENGTH
    ensures Load(map["JWT_SECRET" := secret]) == Ok(Settings(
      "3000", "development", "./data/tienda.db", secret, 24,
      "http://localhost:5173", "./uploads", 5, "info", "http://localhost:3000"))
  {
  }

  /** An empty environment fails on the missing secret; a 31-character secret is too short and a 32-character one is enough. */
  lemma SecretChecks(env: Env)
    ensures Load(map[]) == Err(SECRET_MISSING)
    ensures "JWT_SECRET" in env && |env["JWT_SECRET"]| == MIN_SECRET_LENGTH - 1 ==> Load(env) == Err(SECRET_SHORT)
    ensures "JWT_SECRET" in env && |env["JWT_SECRET"]| == MIN_SECRET_LENGTH ==> Load(env).Ok?
  {
  }

  /** A variable holding the decimal notation of a 64-bit integer is read back as that integer. */
  lemma GetEnvAsIntRoundTrip(env: Env, key: string, n: int, default: int)
    requires Strings.INT64_MIN <= n <= Strings.INT64_MAX
    requires key in env && env[key] == Strings.IntToString(n)
    ensures GetEnvAsInt(env, key, default) == n
  {
    Strings.AtoiIntToString(n);
  }

  /** Text that is not a plain decimal number, such as "5MB", falls back to the default, and so does a number too large for 64 bits. */
  lemma GetEnvAsIntFallsBack(env: Env, key: string, default: int)
    requires key in env && (!Strings.IsDecimalLiteral(env[key]) || Strings.Atoi(env[key]).RangeError?)
    ensures GetEnvAsInt(env, key, default) == default
  {
  }
}

=== FILE: design_context.dfy ===
/**
  The t-shirt designer's state container (`DesignContext`): a design is a
  template choice, an ordered list of text elements, a shirt colour and an
  optional last-modified instant. Every action is a pure reducer from the
  previous design to the next one.

  The clock is a parameter: `now` stands for `new Date()` and `stamp` for the
  `Date.now()` reading a new text element's id is made from. Two elements
  added within the same millisecond get the same id, so uniqueness is a
  precondition of the theorems that need it rather than a promise of
  `AddText`.
 */
module DesignContext {
  import opened Wrappers
  import Seqs
  import Strings

  /** An instant of the `updatedAt`/`createdAt` clock. */
  type Timestamp = int

  datatype Position = Position(x: real, y: real)

  datatype TextElement = TextElement(
    id: string,
    content: string,
    position: Position,
    fontSize: real,
    fontFamily: string,
    color: string)

  datatype ShirtColor = ShirtColor(name: string, hexValue: string, mockupUrl: Option<string>)

  datatype Template = Template(id: string, name: string, imageUrl: string)

  datatype Design = Design(
    templateId: Option<string>,
    templateName: Option<string>,
    textElements: seq<TextElement>,
    shirtColor: ShirtColor,
    createdAt: Option<Timestamp>,
    updatedAt: Option<Timestamp>)

  /** `Partial<TextElement>`: a `None` field is a key the update object does not carry. */
  datatype TextUpdate = TextUpdate(
    id: Option<string>,
    content: Option<string>,
    position: Option<Position>,
    fontSize: Option<real>,
    fontFamily: Option<string>,
    color: Option<string>)

  /** The second entry of the font table, "Moderna Sans". */
  const DEFAULT_FONT_FAMILY: string := "Work Sans"
  /** The first entry of the shirt-colour table, "Blanco". */
  const DEFAULT_SHIRT_COLOR: ShirtColor := ShirtColor("Blanco", "#FFFFFF", Some("/mockups/white-tshirt.png"))
  /** The default argument of `addText`. */
  const DEFAULT_TEXT: string := "Nuevo texto"
  const NEW_TEXT_POSITION: Position := Position(100.0, 100.0)
  const NEW_TEXT_FONT_SIZE: real := 40.0
  const NEW_TEXT_COLOR: string := "#000000"

  const INITIAL_DESIGN: Design := Design(None, None, [], DEFAULT_SHIRT_COLOR, None, None)

  function Ids(elements: seq<TextElement>): (ids: seq<string>)
    ensures |ids| == |elements|
    ensures forall i :: 0 <= i < |elements| ==> ids[i] == elements[i].id
  {
    seq(|elements|, i requires 0 <= i < |elements| => elements[i].id)
  }

  /** No two text elements share an id. */
  predicate DistinctIds(elements: seq<TextElement>) {
    forall i, j :: 0 <= i < j < |elements| ==> elements[i].id != elements[j].id
  }

  predicate HasId(elements: seq<TextElement>, id: string) {
    exists i :: 0 <= i < |elements| && elements[i].id == id
  }

  /** `{ ...el, ...updates }`. */
  function Merge(el: TextElement, u: TextUpdate): (r: TextElement)
    ensures u.id.Some? ==> r.id == u.id.value
    ensures u.content.Some? ==> r.content == u.content.value
    ensures u.position.Some? ==> r.position == u.position.value
    ensures u.fontSize.Some? ==> r.fontSize == u.fontSize.value
    ensures u.fontFamily.Some? ==> r.fontFamily == u.fontFamily.value
    ensures u.color.Some? ==> r.color == u.color.value
    ensures u.id.None? ==> r.id == el.id
    ensures u.content.None? ==> r.content == el.content
    ensures u.position.None? ==> r.position == el.position
    ensures u.fontSize.None? ==> r.fontSize == el.fontSize
    ensures u.fontFamily.None? ==> r.fontFamily == el.fontFamily
    ensures u.color.None? ==> r.color == el.color
  {
    TextElement(
      u.id.GetOr(el.id),
      u.content.GetOr(el.content),
      u.position.GetOr(el.position),
      u.fontSize.GetOr(el.fontSize),
      u.fontFamily.GetOr(el.fontFamily),
      u.color.GetOr(el.color))
  }

  /** `selectTemplate`: records the template's id and name and touches nothing else, not even `updatedAt`. */
  function SelectTemplate(d: Design, t: Template): (r: Design)
    ensures r.templateId == Some(t.id) && r.templateName == Some(t.name)
    ensures r.textElements == d.textElements && r.shirtColor == d.shirtColor
    ensures r.createdAt == d.createdAt && r.updatedAt == d.updatedAt
  {
    d.(templateId := Some(t.id), templateName := Some(t.name))
  }

  /** The id `addText` gives a new element: `text-` followed by the millisecond clock. */
  function TextId(stamp: Timestamp): (id: string)
    ensures |id| > 5 && id[..5] == "text-"
    ensures id[5..] == Strings.IntToString(stamp)
  {
    "text-" + Strings.IntToString(stamp)
  }

  /** Different clock readings give different ids; only two adds in the same millisecond collide. */
  lemma TextIdInjective(a: Timestamp, b: Timestamp)
    ensures TextId(a) == TextId(b) <==> a == b
  {
    if TextId(a) == TextId(b) {
      assert TextId(a)[5..] == TextId(b)[5..];
      Strings.IntToStringInjective(a, b);
    }
  }

  /** The element `addText` creates: default position, size, font and colour. */
  function NewTextElement(id: string, text: string): TextElement {
    TextElement(id, text, NEW_TEXT_POSITION, NEW_TEXT_FONT_SIZE, DEFAULT_FONT_FAMILY, NEW_TEXT_COLOR)
  }

  /** `addText`: appends exactly one element, after every existing one, and stamps the design. */
  function AddText(d: Design, text: string, stamp: Timestamp, now: Timestamp): (r: Design)
    ensures |r.textElements| == |d.textElements| + 1
    ensures r.textElements[..|d.textElements|] == d.textElements
    ensures var e := r.textElements[|d.textElements|];
      && e.id == TextId(stamp) && e.content == text && e.position == Position(100.0, 100.0)
      && e.fontSize == 40.0 && e.color == "#000000" && e.fontFamily == "Work Sans"
    ensures r.templateId == d.templateId && r.templateName == d.templateName
    ensures r.shirtColor == d.shirtColor && r.createdAt == d.createdAt
    ensures r.updatedAt == Some(now)
  {
    d.(textElements := d.textElements + [NewTextElement(TextId(stamp), text)], updatedAt := Some(now))
  }

  /** `addText()` called without an argument: the same element, holding the default text. */
  function AddDefaultText(d: Design, stamp: Timestamp, now: Timestamp): (r: Design)
    ensures |r.textElements| == |d.textElements| + 1
    ensures r.textElements[..|d.textElements|] == d.textElements
    ensures var e := r.textElements[|d.textElements|];
      e.id == TextId(stamp) && e.content == "Nuevo texto"
    ensures r.templateId == d.templateId && r.shirtColor == d.shirtColor && r.updatedAt == Some(now)
  {
    AddText(d, DEFAULT_TEXT, stamp, now)
  }

  /** `updateText`: merges the update into every element with that id and leaves the others alone. */
  function UpdateText(d: Design, id: string, u: TextUpdate, now: Timestamp): (r: Design)
    ensures |r.textElements| == |d.textElements|
    ensures forall i :: 0 <= i < |d.textElements| ==>
      r.textElements[i] == if d.textElements[i].id == id then Merge(d.textElements[i], u) else d.textElements[i]
    ensures !HasId(d.textElements, id) ==> r.textElements == d.textElements
    ensures r.templateId == d.templateId && r.templateName == d.templateName
    ensures r.shirtColor == d.shirtColor && r.createdAt == d.createdAt
    ensures r.updatedAt == Some(now)
  {
    var els := seq(|d.textElements|, i requires 0 <= i < |d.textElements| =>
      if d.textElements[i].id == id then Merge(d.textElements[i], u) else d.textElements[i]);
    d.(textElements := els, updatedAt := Some(now))
  }

  /** `deleteText`: keeps, in order, exactly the elements whose id differs. */
  function DeleteText(d: Design, id: string, now: Timestamp): (r: Design)
    ensures !HasId(r.textElements, id)
    ensures Seqs.IsSubsequence(r.textElements, d.textElements)
    ensures forall el :: multiset(r.textElements)[el] == if el.id != id then multiset(d.textElements)[el] else 0
    ensures r.templateId == d.templateId && r.templateName == d.templateName
    ensures r.shirtColor == d.shirtColor && r.createdAt == d.createdAt
    ensures r.updatedAt == Some(now)
  {
    var keep := (el: TextElement) => el.id != id;
    Seqs.FilterCounts(d.textElements, keep);
    d.(textElements := Seqs.Filter(d.textElements, keep), updatedAt := Some(now))
  }

  /** `changeShirtColor`: only the colour and the timestamp change. */
  function ChangeShirtColor(d: Design, c: ShirtColor, now: Timestamp): (r: Design)
    ensures r.shirtColor == c && r.updatedAt == Some(now)
    ensures r.templateId == d.templateId && r.templateName == d.templateName
    ensures r.textElements == d.textElements && r.createdAt == d.createdAt
  {
    d.(shirtColor := c, updatedAt := Some(now))
  }

  /** `resetDesign`: no template, no text, the default white shirt, whatever the design was. */
  function ResetDesign(d: Design): (r: Design)
    ensures r.templateId.None? && r.templateName.None? && r.textElements == []
    ensures r.shirtColor == ShirtColor("Blanco", "#FFFFFF", Some("/mockups/white-tshirt.png"))
    ensures r.createdAt.None? && r.updatedAt.None?
  {
    INITIAL_DESIGN
  }

  /** `restoreDesign`: the saved draft wholesale, except for a fresh `updatedAt`. */
  function RestoreDesign(saved: Design, now: Timestamp): (r: Design)
    ensures r.templateId == saved.templateId && r.templateName == saved.templateName
    ensures r.textElements == saved.textElements && r.shirtColor == saved.shirtColor
    ensures r.createdAt == saved.createdAt && r.updatedAt == Some(now)
  {
    saved.(updatedAt := Some(now))
  }

  /** Choosing a second template replaces the first: the last choice wins and nothing else changes. */
  lemma SelectTemplateLastWins(d: Design, t1: Template, t2: Template)
    ensures SelectTemplate(SelectTemplate(d, t1), t2) == SelectTemplate(d, t2)
  {
  }

  /** A second colour replaces the first: the design is as if only the last colour had been chosen. */
  lemma ChangeShirtColorLastWins(d: Design, c1: ShirtColor, c2: ShirtColor, t1: Timestamp, t2: Timestamp)
    ensures ChangeShirtColor(ChangeShirtColor(d, c1, t1), c2, t2) == ChangeShirtColor(d, c2, t2)
  {
  }

  /** A reset forgets everything: designs reset to the same state whatever they held, the added texts included. */
  lemma ResetForgets(d1: Design, d2: Design, text: string, stamp: Timestamp, now: Timestamp)
    ensures ResetDesign(d1) == ResetDesign(d2) == INITIAL_DESIGN
    ensures ResetDesign(AddText(d1, text, stamp, now)) == ResetDesign(d1)
  {
  }

  /** Restoring a saved design brings it back as it was, save for the restore time, so a restored design is never the blank one. */
  lemma RestoreBringsBack(saved: Design, current: Design, now: Timestamp)
    ensures RestoreDesign(saved, now).(updatedAt := saved.updatedAt) == saved
    ensures RestoreDesign(saved, now) != ResetDesign(current)
  {
  }

  /** An add extends the id list by the new id. */
  lemma IdsAfterAdd(d: Design, text: string, stamp: Timestamp, now: Timestamp)
    ensures Ids(AddText(d, text, stamp, now).textElements) == Ids(d.textElements) + [TextId(stamp)]
  {
  }

  /** Deleting the element just added with a fresh id gives back the previous text list. */
  lemma DeleteUndoesAdd(d: Design, text: string, stamp: Timestamp, t1: Timestamp, t2: Timestamp)
    requires !HasId(d.textElements, TextId(stamp))
    ensures DeleteText(AddText(d, text, stamp, t1), TextId(stamp), t2).textElements == d.textElements
  {
    var id := TextId(stamp);
    var p := (el: TextElement) => el.id != id;
    Seqs.FilterSnoc(d.textElements, NewTextElement(id, text), p);
    Seqs.FilterAll(d.textElements, p);
  }

  /** Adding with a fresh id keeps the ids distinct. */
  lemma AddTextKeepsIdsDistinct(d: Design, text: string, stamp: Timestamp, now: Timestamp)
    requires DistinctIds(d.textElements) && !HasId(d.textElements, TextId(stamp))
    ensures DistinctIds(AddText(d, text, stamp, now).textElements)
  {
    var r := AddText(d, text, stamp, now).textElements;
    forall i, j | 0 <= i < j < |r| ensures r[i].id != r[j].id {
      if j == |d.textElements| {
        assert r[i] == d.textElements[i];
      } else {
        assert r[i] == d.textElements[i] && r[j] == d.textElements[j];
      }
    }
  }

  /** An update that does not rename keeps the id list and is idempotent. */
  lemma UpdateTextIdempotent(d: Design, id: string, u: TextUpdate, t1: Timestamp, t2: Timestamp)
    requires u.id.None? || u.id == Some(id)
    ensures Ids(UpdateText(d, id, u, t1).textElements) == Ids(d.textElements)
    ensures UpdateText(UpdateText(d, id, u, t1), id, u, t2).textElements == UpdateText(d, id, u, t1).textElements
  {
  }

  /** Deleting twice is deleting once. */
  lemma DeleteTextIdempotent(d: Design, id: string, t1: Timestamp, t2: Timestamp)
    ensures DeleteText(DeleteText(d, id, t1), id, t2).textElements == DeleteText(d, id, t1).textElements
  {
    var r := DeleteText(d, id, t1).textElements;
    Seqs.FilterAll(r, (el: TextElement) => el.id != id);
  }
}

=== FILE: edit_product.dfy ===
/**
  The edit page's conversion of a loaded product into the form's data
  (`EditProduct`): the product's own fields are copied, missing optional
  ones get the form's defaults, and the timestamps, id and tags are dropped.
 */
module EditProduct {
  import opened Wrappers
  import Catalog

  function ToFormData(p: Catalog.Product): (f: Catalog.ProductFormData)
    ensures f.name == p.name && f.description == p.description && f.price == p.price && f.images == p.images
    ensures f.sizes == p.sizes.GetOr([]) && f.colors == p.colors.GetOr([])
    ensures f.gender == (if Catalog.Truthy(p.gender) then p.gender.value else "Hombre")
    ensures f.category == (if p.category != "" then p.category else "Casual")
    ensures f.oversize == (p.oversize == Some(true)) && f.featured == (p.featured == Some(true))
    ensures f.tags.None?
  {
    Catalog.ProductFormData(
      p.name, p.description, p.price, p.images, None,
      p.sizes.GetOr([]), p.colors.GetOr([]),
      Catalog.OrElse(p.gender, "Hombre"),
      Catalog.OrElse(Some(p.category), "Casual"),
      p.oversize.GetOr(false), p.featured.GetOr(false))
  }

  /** The form never starts with an empty gender or category. */
  lemma FormHasGenderAndCategory(p: Catalog.Product)
    ensures ToFormData(p).gender != "" && ToFormData(p).category != ""
  {
  }

  /** A product whose optional fields are all present keeps every one of them, and any gender or category it has. */
  lemma CompleteProductKeepsFields(p: Catalog.Product)
    requires p.sizes.Some? && p.colors.Some? && p.oversize.Some? && p.featured.Some?
    requires Catalog.Truthy(p.gender) && p.category != ""
    ensures var f := ToFormData(p);
      f.sizes == p.sizes.value && f.colors == p.colors.value && f.gender == p.gender.value
      && f.category == p.category && f.oversize == p.oversize.value && f.featured == p.featured.value
  {
  }
}

=== FILE: error_handling.dfy ===
/**
  The frontend's mapping from a failed request to a message for the user
  (`getErrorMessage`) and its retry policy (`isRetryableError`).

  A failed request is described by what the HTTP client attached to it:
  whether a request went out, the response if one came back (its status and
  the backend's `error.message` when that is a string), and the client's
  error code.
 */
module ErrorHandling {
  import opened Wrappers
  import Strings

  datatype Response = Response(status: int, backendMessage: Option<string>)

  datatype RequestError = RequestError(
    request: bool,
    response: Option<Response>,
    code: Option<string>)

  const NETWORK_ERROR: string := "No se pudo conectar al servidor. Verificá tu conexión a internet."
  const TIMEOUT: string := "La solicitud tardó demasiado. Por favor, intentá de nuevo."
  const GENERIC: string := "Ocurrió un error inesperado. Por favor, intentá de nuevo."

  /** The messages shown for the statuses the table knows. */
  const STATUS_400: string := "Los datos enviados no son válidos. Por favor, revisá el formulario."
  const STATUS_401: string := "Tu sesión expiró. Por favor, iniciá sesión nuevamente."
  const STATUS_403: string := "No tenés permisos para realizar esta acción."
  const STATUS_404: string := "No se encontró el recurso solicitado."
  const STATUS_409: string := "Ya existe un recurso con esos datos."
  const STATUS_422: string := "Los datos proporcionados no son válidos."
  const STATUS_500: string := "Ocurrió un error en el servidor. Estamos trabajando para solucionarlo."
  const STATUS_502: string := "El servidor está temporalmente no disponible. Intentá de nuevo en unos momentos."
  const STATUS_503: string := "El servicio no está disponible en este momento. Intentá más tarde."

  /** The entries of the message table keyed by an HTTP status. */
  function StatusMessage(status: int): (m: Option<string>)
    ensures m.Some? <==> status in {400, 401, 403, 404, 409, 422, 500, 502, 503}
    ensures m.Some? ==> m.value != ""
  {
    match status
    case 400 => Some(STATUS_400)
    case 401 => Some(STATUS_401)
    case 403 => Some(STATUS_403)
    case 404 => Some(STATUS_404)
    case 409 => Some(STATUS_409)
    case 422 => Some(STATUS_422)
    case 500 => Some(STATUS_500)
    case 502 => Some(STATUS_502)
    case 503 => Some(STATUS_503)
    case _ => None
  }

  /** The messages for the operations a `context` argument names. */
  const CREATE_PRODUCT: string := "No se pudo crear el producto. Por favor, verificá los datos e intentá de nuevo."
  const UPDATE_PRODUCT: string := "No se pudo actualizar el producto. Por favor, intentá de nuevo."
  const DELETE_PRODUCT: string := "No se pudo eliminar el producto. Por favor, intentá de nuevo."
  const LOAD_PRODUCTS: string := "No se pudieron cargar los productos. Por favor, recargá la página."
  const LOAD_PRODUCT: string := "No se pudo cargar el producto. Por favor, intentá de nuevo."
  const UPLOAD_IMAGE: string := "No se pudo subir la imagen. Verificá el tamaño y formato del archivo."
  const LOGIN_FAILED: string := "Email o contraseña incorrectos. Por favor, intentá de nuevo."

  /** A key that is the decimal text of a status: three digits, the first not zero. */
  predicate IsStatusKey(key: string) {
    |key| == 3 && Strings.AllDigits(key) && key[0] != '0'
  }

  /**
    The message table's own entries looked up by a key, as a `context`
    argument does; the status entries are keyed by their decimal text. Keys
    the object inherits from `Object.prototype` are not among them.
   */
  function KeyMessage(key: string): (m: Option<string>)
    ensures m.Some? ==> m.value != ""
    ensures key == "GENERIC" ==> m == Some(GENERIC)
  {
    if IsStatusKey(key) then StatusMessage(Strings.DigitsValue(key))
    else
      match key
      case "NETWORK_ERROR" => Some(NETWORK_ERROR)
      case "TIMEOUT" => Some(TIMEOUT)
      case "CREATE_PRODUCT" => Some(CREATE_PRODUCT)
      case "UPDATE_PRODUCT" => Some(UPDATE_PRODUCT)
      case "DELETE_PRODUCT" => Some(DELETE_PRODUCT)
      case "LOAD_PRODUCTS" => Some(LOAD_PRODUCTS)
      case "LOAD_PRODUCT" => Some(LOAD_PRODUCT)
      case "UPLOAD_IMAGE" => Some(UPLOAD_IMAGE)
      case "LOGIN_FAILED" => Some(LOGIN_FAILED)
      case "GENERIC" => Some(GENERIC)
      case _ => None
  }

  /** Looking a status up by its decimal text finds the same message as looking it up by number. */
  lemma StatusKeysAgree(status: int)
    requires 100 <= status < 1000
    ensures KeyMessage(Strings.IntToString(status)) == StatusMessage(status)
  {
    Strings.ThreeDigits(status);
    Strings.DigitsValueOfNatToString(status);
    var key := Strings.IntToString(status);
    assert Strings.AllDigits(key);
    assert key[0] != '0';
  }

  /** No response came back although a request went out. */
  predicate IsNetworkError(e: RequestError) {
    e.response.None? && e.request
  }

  /** `getErrorMessage`: the first rule that applies, in order, decides the message. */
  function GetErrorMessage(e: RequestError, context: Option<string>): (m: string)
    ensures m != ""
    ensures IsNetworkError(e) ==> m == NETWORK_ERROR
    ensures !IsNetworkError(e) && e.code == Some("ECONNABORTED") ==> m == TIMEOUT
    ensures (&& !IsNetworkError(e) && e.code != Some("ECONNABORTED") && e.response.Some?
             && StatusMessage(e.response.value.status).Some?)
            ==> m == StatusMessage(e.response.value.status).value
    ensures (&& !IsNetworkError(e) && e.code != Some("ECONNABORTED") && e.response.Some?
             && StatusMessage(e.response.value.status).None?
             && e.response.value.backendMessage.Some? && e.response.value.backendMessage.value != "")
            ==> m == e.response.value.backendMessage.value
    ensures (&& !IsNetworkError(e) && e.code != Some("ECONNABORTED")
             && !(e.response.Some? && StatusMessage(e.response.value.status).Some?)
             && !(e.response.Some? && e.response.value.backendMessage.Some? && e.response.value.backendMessage.value != ""))
            ==> m == (if context.Some? && KeyMessage(context.value).Some? then KeyMessage(context.value).value else GENERIC)
  {
    if IsNetworkError(e) then NETWORK_ERROR
    else if e.code == Some("ECONNABORTED") then TIMEOUT
    else if e.response.Some? && StatusMessage(e.response.value.status).Some? then StatusMessage(e.response.value.status).value
    else if e.response.Some? && e.response.value.backendMessage.Some? && e.response.value.backendMessage.value != "" then
      e.response.value.backendMessage.value
    else if context.Some? && KeyMessage(context.value).Some? then KeyMessage(context.value).value
    else GENERIC
  }

  /** A backend message never hides a known status: the table wins over the server's own text. */
  lemma StatusBeatsBackendMessage(status: int, backend: string, code: Option<string>, context: Option<string>)
    requires StatusMessage(status).Some? && code != Some("ECONNABORTED")
    ensures GetErrorMessage(RequestError(true, Some(Response(status, Some(backend))), code), context)
         == StatusMessage(status).value
  {
  }

  /** An unknown status without a message of its own falls back to the operation's message. */
  lemma ContextFallback(status: int, code: Option<string>)
    requires StatusMessage(status).None? && code != Some("ECONNABORTED")
    ensures GetErrorMessage(RequestError(true, Some(Response(status, None)), code), Some("UPLOAD_IMAGE")) == UPLOAD_IMAGE
    ensures GetErrorMessage(RequestError(true, Some(Response(status, Some(""))), code), None) == GENERIC
  {
  }

  /** `isRetryableError`: network errors, any 5xx status, 408 and 429. */
  function IsRetryable(e: RequestError): (b: bool)
    ensures b <==> (|| IsNetworkError(e)
                    || (e.response.Some? && (500 <= e.response.value.status < 600 || e.response.value.status in {408, 429})))
  {
    if IsNetworkError(e) then true
    else if e.response.None? then false
    else
      var status := e.response.value.status;
      (500 <= status && status < 600) || status == 408 || status == 429
  }

  /** Client errors with a message of their own are final: none of 400, 401, 403, 404, 409, 422 is retried. */
  lemma ClientErrorsNotRetried(status: int, backend: Option<string>, code: Option<string>)
    requires status in {400, 401, 403, 404, 409, 422}
    ensures !IsRetryable(RequestError(true, Some(Response(status, backend)), code))
    ensures StatusMessage(status).Some?
  {
  }
}

=== FILE: filters.dfy ===
/**
  The catalogue filter bar (`Filters`): a gender chosen by toggling its
  button (the empty string means "any gender") and an oversize switch that
  is either on (`true`) or off (`null`).
 */
module Filters {
  import opened Wrappers

  /** `FilterValues`; `oversize` is `boolean | null`, with `null` as `None`. */
  datatype FilterValues = FilterValues(gender: string, oversize: Option<bool>)

  const CLEARED: FilterValues := FilterValues("", None)

  /** `filters.oversize` as a JavaScript condition. */
  predicate OversizeOn(f: FilterValues) {
    f.oversize == Some(true)
  }

  /** `handleGenderClick`: pressing the chosen gender clears it, pressing another one chooses it. */
  function GenderClick(f: FilterValues, gender: string): (r: FilterValues)
    ensures r.oversize == f.oversize
    ensures f.gender == gender ==> r.gender == ""
    ensures f.gender != gender ==> r.gender == gender
  {
    f.(gender := if f.gender == gender then "" else gender)
  }

  /** `handleOversizeToggle`: on turns off (`null`), anything else turns on. */
  function OversizeToggle(f: FilterValues): (r: FilterValues)
    ensures r.gender == f.gender
    ensures OversizeOn(r) <==> !OversizeOn(f)
    ensures r.oversize == Some(true) || r.oversize == None
  {
    f.(oversize := if OversizeOn(f) then None else Some(true))
  }

  /** `clearFilters`. */
  function Clear(f: FilterValues): (r: FilterValues)
    ensures !HasActive(r)
  {
    CLEARED
  }

  /** `hasActiveFilters`: a gender is chosen or the oversize switch is on. */
  predicate HasActive(f: FilterValues) {
    f.gender != "" || OversizeOn(f)
  }

  /** Pressing a gender button twice leaves the gender as it was when none or that one was chosen. */
  lemma GenderClickTwice(f: FilterValues, gender: string)
    requires gender != ""
    ensures f.gender == "" || f.gender == gender ==> GenderClick(GenderClick(f, gender), gender) == f
    ensures f.gender != "" && f.gender != gender ==> GenderClick(GenderClick(f, gender), gender).gender == ""
  {
  }

  /** Two presses of the oversize switch restore it; from either state the switch offers, the filters come back unchanged. */
  lemma OversizeToggleTwice(f: FilterValues)
    ensures OversizeOn(OversizeToggle(OversizeToggle(f))) == OversizeOn(f)
    ensures f.oversize == None || f.oversize == Some(true) ==> OversizeToggle(OversizeToggle(f)) == f
  {
  }

  /** Choosing a gender or turning the switch on always makes a filter active. */
  lemma ChoosingActivates(f: FilterValues, gender: string)
    requires gender != "" && f.gender != gender
    ensures HasActive(GenderClick(f, gender))
    ensures !OversizeOn(f) ==> HasActive(OversizeToggle(f))
  {
  }
}

=== FILE: home.dfy ===
/**
  The storefront home page (`Home`): the filter state it starts from and the
  list it hands the grid, which is every loaded product narrowed by the
  chosen gender and, when the switch is on, to oversize products.
 */
module Home {
  import opened Wrappers
  import Seqs
  import Catalog
  import Filters

  /** The initial filters: the `gender` URL parameter when it is truthy, the oversize switch off. */
  function InitialFilters(genderParam: Option<string>): (f: Filters.FilterValues)
    ensures f.oversize.None?
    ensures Catalog.Truthy(genderParam) ==> f.gender == genderParam.value
    ensures !Catalog.Truthy(genderParam) ==> !Filters.HasActive(f)
  {
    Filters.FilterValues(Catalog.OrElse(genderParam, ""), None)
  }

  /** The product passes the gender step: any gender, or exactly the chosen one. */
  predicate GenderPasses(f: Filters.FilterValues, p: Catalog.Product) {
    f.gender == "" || p.gender == Some(f.gender)
  }

  /** The product passes the oversize step: the switch is not on, or the product is oversize. */
  predicate OversizePasses(f: Filters.FilterValues, p: Catalog.Product) {
    !Filters.OversizeOn(f) || p.oversize == Some(true)
  }

  /** The test of the gender step. */
  function GenderTest(f: Filters.FilterValues): Catalog.Product -> bool {
    (p: Catalog.Product) => p.gender == Some(f.gender)
  }

  /** The test of the oversize step. */
  function OversizeTest(): Catalog.Product -> bool {
    (p: Catalog.Product) => p.oversize == Some(true)
  }

  /** Both tests at once. */
  function BothTest(f: Filters.FilterValues): Catalog.Product -> bool {
    (p: Catalog.Product) => GenderPasses(f, p) && OversizePasses(f, p)
  }

  /** The gender step: a chosen gender keeps exactly its products. */
  function ByGender(all: seq<Catalog.Product>, f: Filters.FilterValues): seq<Catalog.Product> {
    if f.gender != "" then Seqs.Filter(all, GenderTest(f)) else all
  }

  /** The oversize step: when the switch is on, only oversize products stay. */
  function ByOversize(s: seq<Catalog.Product>, f: Filters.FilterValues): seq<Catalog.Product> {
    if f.oversize == Some(true) then Seqs.Filter(s, OversizeTest()) else s
  }

  /** `filteredProducts`: the gender step, then the oversize step; the same list as one filter by both tests. */
  function Filtered(all: seq<Catalog.Product>, f: Filters.FilterValues): (r: seq<Catalog.Product>)
    ensures r == Seqs.Filter(all, BothTest(f))
    ensures Seqs.IsSubsequence(r, all)
    ensures forall i :: 0 <= i < |r| ==> GenderPasses(f, r[i]) && OversizePasses(f, r[i])
    ensures forall i :: 0 <= i < |all| && GenderPasses(f, all[i]) && OversizePasses(f, all[i]) ==> all[i] in r
  {
    FilterSteps(all, f);
    ByOversize(ByGender(all, f), f)
  }

  /** The two steps together are one filter by both tests. */
  lemma FilterSteps(all: seq<Catalog.Product>, f: Filters.FilterValues)
    ensures ByOversize(ByGender(all, f), f) == Seqs.Filter(all, BothTest(f))
  {
    if f.gender != "" && f.oversize == Some(true) {
      BothSteps(all, f);
    } else if f.gender != "" {
      OneStep(all, GenderTest(f), BothTest(f));
    } else if f.oversize == Some(true) {
      OneStep(all, OversizeTest(), BothTest(f));
    } else {
      Seqs.FilterAll(all, BothTest(f));
    }
  }

  lemma BothSteps(all: seq<Catalog.Product>, f: Filters.FilterValues)
    requires f.gender != "" && f.oversize == Some(true)
    ensures Seqs.Filter(Seqs.Filter(all, GenderTest(f)), OversizeTest()) == Seqs.Filter(all, BothTest(f))
  {
    Seqs.FilterFilter(all, GenderTest(f), OversizeTest());
    BothPointwise(f);
    OneStep(all, Seqs.And(GenderTest(f), OversizeTest()), BothTest(f));
  }

  lemma BothPointwise(f: Filters.FilterValues)
    requires f.gender != "" && f.oversize == Some(true)
    ensures forall x :: Seqs.And(GenderTest(f), OversizeTest())(x) == BothTest(f)(x)
  {
  }

  /** A filter by a test that agrees with another everywhere is the filter by the other. */
  lemma OneStep(all: seq<Catalog.Product>, p: Catalog.Product -> bool, q: Catalog.Product -> bool)
    requires forall x :: p(x) == q(x)
    ensures Seqs.Filter(all, p) == Seqs.Filter(all, q)
  {
    Seqs.FilterCongruent(all, p, q);
  }

  /** Without active filters every loaded product is shown, in order. */
  lemma InactiveShowsAll(all: seq<Catalog.Product>, f: Filters.FilterValues)
    requires !Filters.HasActive(f)
    ensures Filtered(all, f) == all
  {
  }
}

=== FILE: image_upload.dfy ===
/**
  The admin image picker (`ImageUploadField`): an ordered list of upload
  records, one per chosen file, each moving from "uploading" to "done" (with
  the stored URL) or "failed" (with a message). Every transition is the new
  list handed to `onChange`; a transition that does not call `onChange`
  returns `None`.

  The upload itself, its progress events and its response are inputs: the
  network call is not modelled. File objects are compared by identity in the
  source; here a `FileRef` carries an opaque handle, so two selections of
  the same file are distinct when their handles are.
 */
module ImageUpload {
  import opened Wrappers
  import Seqs
  import JsNumbers
  import UploadValidation
  import Catalog

  datatype FileRef = FileRef(handle: nat, size: int, mimeType: string)

  datatype UploadedImage = UploadedImage(
    file: Option<FileRef>,
    url: string,
    progress: int,
    error: Option<string>,
    uploading: bool)

  /** The default of the `maxImages` prop. */
  const DEFAULT_MAX_IMAGES: int := 4
  /** The message of a failed upload whose error has no message. */
  const UPLOAD_ERROR: string := "Error al subir imagen"

  /** The list after a file is chosen, and whether an upload starts. */
  datatype Selection = Selection(images: seq<UploadedImage>, startsUpload: bool)

  /** `handleFileSelect` up to the upload call: only the first chosen file is taken. */
  function SelectFile(images: seq<UploadedImage>, files: seq<FileRef>): (r: Selection)
    ensures |files| == 0 ==> r == Selection(images, false)
    ensures |files| > 0 ==>
      var v := UploadValidation.ValidateImageFile(files[0].size, files[0].mimeType);
      && |r.images| == |images| + 1 && r.images[..|images|] == images
      && r.startsUpload == v.valid
      && r.images[|images|].file == Some(files[0]) && r.images[|images|].url == ""
      && r.images[|images|].progress == 0 && r.images[|images|].uploading == v.valid
      && r.images[|images|].error == v.error
  {
    if |files| == 0 then Selection(images, false)
    else
      var file := files[0];
      var v := UploadValidation.ValidateImageFile(file.size, file.mimeType);
      if !v.valid then Selection(images + [UploadedImage(Some(file), "", 0, v.error, false)], false)
      else Selection(images + [UploadedImage(Some(file), "", 0, None, true)], true)
  }

  /** Applies `f` to the entries holding `file` and leaves the others alone. */
  function MapFile(images: seq<UploadedImage>, file: FileRef, f: UploadedImage -> UploadedImage): (r: seq<UploadedImage>)
    ensures |r| == |images|
    ensures forall i :: 0 <= i < |images| ==> r[i] == if images[i].file == Some(file) then f(images[i]) else images[i]
  {
    seq(|images|, i requires 0 <= i < |images| => if images[i].file == Some(file) then f(images[i]) else images[i])
  }

  /**
    The progress callback, over `snapshot`, the list it is built on: a zero
    `total` reports nothing, otherwise the file's entries show the rounded
    percentage. The source builds it on `newImages`, the list of the selection
    that started the upload (see `OnEvent`).
   */
  function Progress(snapshot: seq<UploadedImage>, file: FileRef, loaded: int, total: int): (r: Option<seq<UploadedImage>>)
    ensures total == 0 <==> r.None?
    ensures r.Some? ==> |r.value| == |snapshot| && forall i :: 0 <= i < |snapshot| ==>
      r.value[i] == if snapshot[i].file == Some(file) then snapshot[i].(progress := JsNumbers.Percent(loaded, total)) else snapshot[i]
  {
    if total == 0 then None
    else Some(MapFile(snapshot, file, (img: UploadedImage) => img.(progress := JsNumbers.Percent(loaded, total))))
  }

  /** The upload succeeded: in `snapshot` the file's entries get the stored URL, stop uploading and show 100%. */
  function Complete(snapshot: seq<UploadedImage>, file: FileRef, url: string): (r: seq<UploadedImage>)
    ensures |r| == |snapshot|
    ensures forall i :: 0 <= i < |snapshot| && snapshot[i].file == Some(file) ==>
      r[i] == snapshot[i].(url := url, uploading := false, progress := 100)
    ensures forall i :: 0 <= i < |snapshot| && snapshot[i].file != Some(file) ==> r[i] == snapshot[i]
  {
    MapFile(snapshot, file, (img: UploadedImage) => img.(url := url, uploading := false, progress := 100))
  }

  /** The error's message, or the fixed fallback when the message is empty or missing. */
  function FailureMessage(message: Option<string>): (m: string)
    ensures m != ""
    ensures Catalog.Truthy(message) ==> m == message.value
    ensures !Catalog.Truthy(message) ==> m == UPLOAD_ERROR
  {
    Catalog.OrElse(message, UPLOAD_ERROR)
  }

  /** The upload failed: in `snapshot` the file's entries get the message and stop uploading; URL and progress stay. */
  function Fail(snapshot: seq<UploadedImage>, file: FileRef, message: Option<string>): (r: seq<UploadedImage>)
    ensures |r| == |snapshot|
    ensures forall i :: 0 <= i < |snapshot| && snapshot[i].file == Some(file) ==>
      r[i] == snapshot[i].(error := Some(FailureMessage(message)), uploading := false)
    ensures forall i :: 0 <= i < |snapshot| && snapshot[i].file != Some(file) ==> r[i] == snapshot[i]
  {
    MapFile(snapshot, file, (img: UploadedImage) => img.(error := Some(FailureMessage(message)), uploading := false))
  }

  /** What an upload reports: a progress event, the stored URL, or the failure's message. */
  datatype UploadEvent = Progressed(loaded: int, total: int) | Uploaded(url: string) | UploadFailed(message: Option<string>)

  /** The update one event of the upload makes to a list; only a progress event with a zero total makes none. */
  function ApplyEvent(images: seq<UploadedImage>, file: FileRef, ev: UploadEvent): (r: Option<seq<UploadedImage>>)
    ensures r.None? <==> ev.Progressed? && ev.total == 0
    ensures r.Some? ==> |r.value| == |images|
    ensures r.Some? ==> forall i :: 0 <= i < |images| && images[i].file != Some(file) ==> r.value[i] == images[i]
  {
    match ev
    case Progressed(loaded, total) => Progress(images, file, loaded, total)
    case Uploaded(url) => Some(Complete(images, file, url))
    case UploadFailed(message) => Some(Fail(images, file, message))
  }

  /** An upload in flight: its file and `newImages`, the list its selection handed to `onChange`. */
  datatype Upload = Upload(file: FileRef, snapshot: seq<UploadedImage>)

  /** `handleFileSelect` up to the upload call, as an upload in flight: one starts exactly for a valid first file. */
  function StartUpload(images: seq<UploadedImage>, files: seq<FileRef>): (u: Option<Upload>)
    ensures u.Some? <==> |files| > 0 && UploadValidation.ValidateImageFile(files[0].size, files[0].mimeType).valid
    ensures u.Some? ==> u.value.file == files[0] && u.value.snapshot == SelectFile(images, files).images
    ensures u.Some? ==> |u.value.snapshot| == |images| + 1 && u.value.snapshot[|images|].uploading
  {
    var sel := SelectFile(images, files);
    if sel.startsUpload then Some(Upload(files[0], sel.images)) else None
  }

  /**
    An event of the upload as written: the list handed to `onChange` is built
    from the selection-time snapshot, whatever `current`, the list the form
    holds when the event arrives, has become since. The picker and the remove
    buttons of the entries not uploading stay usable during the upload.
   */
  function OnEvent(u: Upload, current: seq<UploadedImage>, ev: UploadEvent): (r: Option<seq<UploadedImage>>)
    ensures r.None? <==> ev.Progressed? && ev.total == 0
    ensures r.Some? ==> |r.value| == |u.snapshot|
    ensures r.Some? ==> forall i :: 0 <= i < |u.snapshot| && u.snapshot[i].file != Some(u.file) ==> r.value[i] == u.snapshot[i]
  {
    ApplyEvent(u.snapshot, u.file, ev)
  }

  /** An entry removed during the upload comes back with the upload's next event. */
  lemma StaleEventRestoresRemoved(u: Upload, k: int, ev: UploadEvent)
    requires 0 <= k < |u.snapshot| && u.snapshot[k].file != Some(u.file)
    requires !(ev.Progressed? && ev.total == 0)
    ensures var current := RemoveAt(u.snapshot, k);
      var r := OnEvent(u, current, ev).value;
      |r| == |current| + 1 && r[k] == u.snapshot[k]
  {
  }

  /** A file chosen during the upload is dropped again by the upload's next event. */
  lemma StaleEventDropsSelection(u: Upload, files: seq<FileRef>, ev: UploadEvent)
    requires |files| > 0 && files[0] != u.file && Fresh(u.snapshot, files[0])
    requires !(ev.Progressed? && ev.total == 0)
    ensures var current := SelectFile(u.snapshot, files).images;
      && current[|u.snapshot|].file == Some(files[0])
      && Fresh(OnEvent(u, current, ev).value, files[0])
  {
    var r := OnEvent(u, SelectFile(u.snapshot, files).images, ev).value;
    forall i | 0 <= i < |r| ensures r[i].file != Some(files[0]) {
      if u.snapshot[i].file != Some(u.file) {
        assert r[i] == u.snapshot[i];
      } else {
        EventKeepsFile(u.snapshot, u.file, ev, i);
      }
    }
  }

  /** The event's update keeps every entry's file. */
  lemma EventKeepsFile(snapshot: seq<UploadedImage>, file: FileRef, ev: UploadEvent, i: int)
    requires 0 <= i < |snapshot| && !(ev.Progressed? && ev.total == 0)
    ensures ApplyEvent(snapshot, file, ev).value[i].file == snapshot[i].file
  {
  }

  /** The corrected event: the same update made to `current`, the list as it is when the event arrives. */
  function OnEventFixed(u: Upload, current: seq<UploadedImage>, ev: UploadEvent): (r: Option<seq<UploadedImage>>)
    ensures r.None? <==> ev.Progressed? && ev.total == 0
    ensures r.Some? ==> |r.value| == |current|
    ensures r.Some? ==> forall i :: 0 <= i < |current| && current[i].file != Some(u.file) ==> r.value[i] == current[i]
  {
    ApplyEvent(current, u.file, ev)
  }

  /** With the corrected event a removal during the upload stays done and a file chosen during it stays listed. */
  lemma OnEventFixedKeepsEdits(u: Upload, k: int, files: seq<FileRef>, ev: UploadEvent)
    requires 0 <= k < |u.snapshot| && |files| > 0 && files[0] != u.file
    requires !(ev.Progressed? && ev.total == 0)
    ensures |OnEventFixed(u, RemoveAt(u.snapshot, k), ev).value| == |u.snapshot| - 1
    ensures var current := SelectFile(u.snapshot, files).images;
      OnEventFixed(u, current, ev).value[|u.snapshot|] == current[|u.snapshot|]
  {
  }

  /** When nothing changed during the upload, the written and the corrected event hand `onChange` the same list. */
  lemma OnEventFixedAgrees(u: Upload, ev: UploadEvent)
    ensures OnEventFixed(u, u.snapshot, ev) == OnEvent(u, u.snapshot, ev)
  {
  }

  /** No entry of the list was made from this file. */
  predicate Fresh(images: seq<UploadedImage>, file: FileRef) {
    forall i :: 0 <= i < |images| ==> images[i].file != Some(file)
  }

  /** A fresh valid file that uploads ends as one new, finished entry after the untouched earlier ones. */
  lemma SelectThenComplete(images: seq<UploadedImage>, file: FileRef, url: string)
    requires Fresh(images, file)
    requires UploadValidation.ValidateImageFile(file.size, file.mimeType).valid
    ensures Complete(SelectFile(images, [file]).images, file, url) ==
      images + [UploadedImage(Some(file), url, 100, None, false)]
  {
    var s := SelectFile(images, [file]).images;
    var r := Complete(s, file, url);
    assert forall i :: 0 <= i < |images| ==> r[i] == images[i];
  }

  /** A fresh valid file whose upload fails ends as one failed entry with a non-empty message. */
  lemma SelectThenFail(images: seq<UploadedImage>, file: FileRef, message: Option<string>)
    requires Fresh(images, file)
    requires UploadValidation.ValidateImageFile(file.size, file.mimeType).valid
    ensures Fail(SelectFile(images, [file]).images, file, message) ==
      images + [UploadedImage(Some(file), "", 0, Some(FailureMessage(message)), false)]
  {
    var s := SelectFile(images, [file]).images;
    var r := Fail(s, file, message);
    assert forall i :: 0 <= i < |images| ==> r[i] == images[i];
  }

  /** `handleRemove`: exactly the entry at `index` goes (nothing, for an index out of range). */
  function RemoveAt(images: seq<UploadedImage>, index: int): (r: seq<UploadedImage>)
    ensures 0 <= index < |images| ==> |r| == |images| - 1 && r == images[..index] + images[index + 1..]
    ensures !(0 <= index < |images|) ==> r == images
  {
    Seqs.RemoveIndex(images, index)
  }

  /** Removing the entry a selection appended gives back the list before the selection. */
  lemma RemoveUndoesSelect(images: seq<UploadedImage>, files: seq<FileRef>)
    requires |files| > 0
    ensures RemoveAt(SelectFile(images, files).images, |images|) == images
  {
    var s := SelectFile(images, files).images;
    assert s[..|images|] == images;
  }

  /** `handleRetry` up to the upload call: `None` when the entry has no file, else the entry restarts. */
  function Retry(images: seq<UploadedImage>, index: int): (r: Option<seq<UploadedImage>>)
    requires 0 <= index < |images|
    ensures images[index].file.None? <==> r.None?
    ensures r.Some? ==>
      && |r.value| == |images|
      && r.value[index].error.None? && r.value[index].uploading && r.value[index].progress == 0
      && r.value[index].url == images[index].url && r.value[index].file == images[index].file
      && forall i :: 0 <= i < |images| && i != index ==> r.value[i] == images[i]
  {
    if images[index].file.None? then None
    else Some(images[index := images[index].(error := None, uploading := true, progress := 0)])
  }

  /** A progress event of a retry, built from the list as it was before the retry. */
  function RetryProgress(images: seq<UploadedImage>, index: int, loaded: int, total: int): (r: Option<seq<UploadedImage>>)
    requires 0 <= index < |images|
    ensures total == 0 <==> r.None?
    ensures r.Some? ==>
      && |r.value| == |images|
      && r.value[index].progress == JsNumbers.Percent(loaded, total)
      && r.value[index].error == images[index].error && r.value[index].uploading == images[index].uploading
      && forall i :: 0 <= i < |images| && i != index ==> r.value[i] == images[i]
  {
    if total == 0 then None
    else Some(images[index := images[index].(progress := JsNumbers.Percent(loaded, total))])
  }

  /** During a retry of a failed entry, a progress event puts the old error back and clears `uploading`. */
  lemma RetryProgressRestoresError(images: seq<UploadedImage>, index: int, loaded: int, total: int)
    requires 0 <= index < |images| && images[index].file.Some? && images[index].error.Some?
    requires !images[index].uploading && total != 0
    ensures Retry(images, index).value[index].error.None? && Retry(images, index).value[index].uploading
    ensures RetryProgress(images, index, loaded, total).value[index].error == images[index].error
    ensures !RetryProgress(images, index, loaded, total).value[index].uploading
  {
  }

  /** A retry's progress event built from the list the retry produced, as the first upload's events are. */
  function RetryProgressFixed(images: seq<UploadedImage>, index: int, loaded: int, total: int): (r: Option<seq<UploadedImage>>)
    requires 0 <= index < |images|
    ensures total == 0 || images[index].file.None? <==> r.None?
    ensures r.Some? ==>
      && |r.value| == |images|
      && r.value[index].error.None? && r.value[index].uploading
      && r.value[index].progress == JsNumbers.Percent(loaded, total)
      && forall i :: 0 <= i < |images| && i != index ==> r.value[i] == images[i]
  {
    match Retry(images, index)
    case None => None
    case Some(retrying) =>
      if total == 0 then None
      else Some(retrying[index := retrying[index].(progress := JsNumbers.Percent(loaded, total))])
  }

  /** The retry succeeded: the entry gets the URL, 100%, no error, and stops uploading. */
  function RetrySucceed(images: seq<UploadedImage>, index: int, url: string): (r: seq<UploadedImage>)
    requires 0 <= index < |images|
    ensures |r| == |images|
    ensures r[index].url == url && r[index].progress == 100 && r[index].error.None? && !r[index].uploading
    ensures r[index].file == images[index].file
    ensures forall i :: 0 <= i < |images| && i != index ==> r[i] == images[i]
  {
    images[index := images[index].(url := url, uploading := false, progress := 100, error := None)]
  }

  /** The retry failed again: the entry gets the new message and stops uploading. */
  function RetryFail(images: seq<UploadedImage>, index: int, message: Option<string>): (r: seq<UploadedImage>)
    requires 0 <= index < |images|
    ensures |r| == |images|
    ensures r[index].error == Some(FailureMessage(message)) && !r[index].uploading
    ensures r[index].url == images[index].url && r[index].file == images[index].file
    ensures forall i :: 0 <= i < |images| && i != index ==> r[i] == images[i]
  {
    images[index := images[index].(error := Some(FailureMessage(message)), uploading := false)]
  }

  /** `canAddMore`: fewer entries than `maxImages`, which defaults to 4. */
  function CanAddMore(images: seq<UploadedImage>, maxImages: Option<int>): (b: bool)
    ensures maxImages.None? ==> (b <==> |images| <= 3)
    ensures maxImages.Some? ==> (b <==> |images| < maxImages.value)
  {
    |images| < maxImages.GetOr(DEFAULT_MAX_IMAGES)
  }

  /** While the picker is offered, one more selection keeps the list within `maxImages`. */
  lemma SelectWithinLimit(images: seq<UploadedImage>, files: seq<FileRef>, maxImages: Option<int>)
    requires CanAddMore(images, maxImages)
    ensures |SelectFile(images, files).images| <= maxImages.GetOr(DEFAULT_MAX_IMAGES)
  {
  }
}

=== FILE: images_handler.dfy ===
/**
  The image management handlers (`ImagesHandler`): which uploaded files no
  product uses, and deleting one file by name. The upload directory is a
  list of entries in the order `os.ReadDir` gives them; a failed `os.Stat`
  is a flag on the entry. Both handlers consult the products through
  `GetProducts` with empty filters, which is the repository's first page
  only: that is the subject of the finding recorded for this module.
 */
module ImagesHandler {
  import opened Wrappers
  import Seqs
  import Strings
  import Sets
  import opened ProductEntity
  import opened ProductRepository
  import ProductService
  import opened WebResponse

  /** An entry of the upload directory. */
  datatype FileEntry = FileEntry(name: string, isDir: bool, size: int, modTime: int, statOk: bool)

  /** `OrphanedImage`. */
  datatype OrphanedImage = OrphanedImage(filename: string, url: string, size: int, uploadedAt: int)

  /** The data of a reply; a `None` list of orphans is encoded as JSON `null`. */
  datatype ImagesPayload = Orphans(images: Option<seq<OrphanedImage>>) | Message(text: string)

  /** `path` without its trailing slashes. */
  function TrimTrailingSlashes(path: string): (r: string)
    ensures |r| <= |path| && r == path[..|r|]
    ensures |r| > 0 ==> r[|r| - 1] != '/'
    ensures forall i :: |r| <= i < |path| ==> path[i] == '/'
  {
    if |path| > 0 && path[|path| - 1] == '/' then TrimTrailingSlashes(path[..|path| - 1]) else path
  }

  /** `filepath.Base` on a slash-separated path: the last element, "." for the empty path, "/" for slashes only. */
  function Base(path: string): (b: string)
    ensures b != ""
    ensures path == "" ==> b == "."
    ensures path != "" && TrimTrailingSlashes(path) == "" ==> b == "/"
    ensures path != "" && TrimTrailingSlashes(path) != "" ==> '/' !in b && Strings.HasSuffix(TrimTrailingSlashes(path), b)
  {
    if path == "" then "."
    else
      var trimmed := TrimTrailingSlashes(path);
      if trimmed == "" then "/"
      else
        var k := Strings.LastIndexOf(trimmed, '/');
        var last := trimmed[k + 1..];
        assert Strings.HasSuffix(trimmed, last) by {
          assert trimmed[|trimmed| - |last|..] == last;
        }
        last
  }

  /** The URL under which an upload is served. */
  function UploadUrl(filename: string): string {
    "/uploads/" + filename
  }

  /** The base name of an upload's URL is its file name, for a plain name. */
  lemma BaseOfUploadUrl(filename: string)
    requires filename != "" && '/' !in filename
    ensures Base(UploadUrl(filename)) == filename
  {
    var url := UploadUrl(filename);
    assert url[|url| - 1] == filename[|filename| - 1];
    assert TrimTrailingSlashes(url) == url;
    var k := Strings.LastIndexOf(url, '/');
    assert url[8] == '/' && url[8] in url;
    assert forall i :: k < i < |url| ==> url[i] == url[k + 1..][i - k - 1];
    assert forall i :: 9 <= i < |url| ==> url[i] == filename[i - 9];
    assert k == 8;
    assert url[9..] == filename;
  }

  /** The file names some product image points to, by base name. */
  function UsedNames(products: seq<Product>): (used: set<string>)
    ensures forall p, u :: p in products && u in p.images ==> Base(u) in used
    ensures forall n :: n in used ==> exists p, u :: p in products && u in p.images && Base(u) == n
  {
    set p, u | p in products && u in p.images :: Base(u)
  }

  /** A regular file whose name no image uses and whose metadata could be read. */
  predicate IsOrphan(used: set<string>, file: FileEntry) {
    !file.isDir && file.name !in used && file.statOk
  }

  function OrphanTest(used: set<string>): FileEntry -> bool {
    (file: FileEntry) => IsOrphan(used, file)
  }

  function OrphanOf(file: FileEntry): OrphanedImage {
    OrphanedImage(file.name, UploadUrl(file.name), file.size, file.modTime)
  }

  /** The orphans, in directory order. */
  function OrphansOf(files: seq<FileEntry>, used: set<string>): (r: seq<OrphanedImage>)
    ensures |r| <= |files|
    ensures forall i :: 0 <= i < |r| ==> exists j :: 0 <= j < |files| && IsOrphan(used, files[j]) && r[i] == OrphanOf(files[j])
    ensures forall j :: 0 <= j < |files| && IsOrphan(used, files[j]) ==> OrphanOf(files[j]) in r
  {
    var kept := Seqs.Filter(files, OrphanTest(used));
    var r := Seqs.Map(kept, OrphanOf);
    forall i | 0 <= i < |r|
      ensures exists j :: 0 <= j < |files| && IsOrphan(used, files[j]) && r[i] == OrphanOf(files[j])
    {
      var j :| 0 <= j < |files| && files[j] == kept[i];
    }
    forall j | 0 <= j < |files| && IsOrphan(used, files[j])
      ensures OrphanOf(files[j]) in r
    {
      var i :| 0 <= i < |kept| && kept[i] == files[j];
      assert r[i] == OrphanOf(files[j]);
    }
    r
  }

  /** The filters `GetAllFilters{}`: page 0, limit 0, no search, no category, default sort. */
  const NO_FILTERS: GetAllFilters := GetAllFilters(0, 0, "", "", "", "")

  /** The products both handlers look at: what `GetProducts` returns for empty filters. */
  function Considered(t: Table): (ps: seq<Product>)
    requires Valid(t)
    ensures |ps| <= DEFAULT_LIMIT
  {
    ProductService.GetProducts(t, NO_FILTERS).products
  }

  /**
    `GetOrphanedImages`: 500 when the directory cannot be read, else the
    files no considered product uses, sent as `null` when there are none.
   */
  function GetOrphanedImages(t: Table, dir: Option<seq<FileEntry>>): (r: Reply<ImagesPayload>)
    requires Valid(t)
    ensures dir.None? ==> r == RespondInternalError("failed to read uploads directory")
    ensures dir.Some? ==> r == RespondOK(Orphans(NilWhenEmpty(OrphansOf(dir.value, UsedNames(Considered(t))))))
    ensures dir.Some? ==> (r.body.value.data.value.images.None? <==>
      forall j :: 0 <= j < |dir.value| ==> !IsOrphan(UsedNames(Considered(t)), dir.value[j]))
  {
    if dir.None? then RespondInternalError("failed to read uploads directory")
    else
      var orphans := OrphansOf(dir.value, UsedNames(Considered(t)));
      assert orphans != [] ==> exists j :: 0 <= j < |dir.value| && IsOrphan(UsedNames(Considered(t)), dir.value[j]) by {
        if orphans != [] {
          assert 0 < |orphans|;
        }
      }
      RespondOK(Orphans(NilWhenEmpty(orphans)))
  }

  /** A listed orphan's URL leads back to its file name. */
  lemma OrphanUrlNamesFile(files: seq<FileEntry>, used: set<string>, i: int)
    requires 0 <= i < |OrphansOf(files, used)|
    requires forall j :: 0 <= j < |files| ==> files[j].name != "" && '/' !in files[j].name
    ensures Base(OrphansOf(files, used)[i].url) == OrphansOf(files, used)[i].filename
    ensures OrphansOf(files, used)[i].filename !in used
  {
    var o := OrphansOf(files, used)[i];
    var j :| 0 <= j < |files| && IsOrphan(used, files[j]) && o == OrphanOf(files[j]);
    BaseOfUploadUrl(files[j].name);
  }

  /** Two dots in a row start at offset `i` of `s`. */
  predicate DotPairAt(s: string, i: int) {
    0 <= i < |s| - 1 && s[i] == '.' && s[i + 1] == '.'
  }

  /** The traversal guard on "..", "/" and "\": a name passes exactly when it has no slash of either kind and no two dots in a row. */
  function SafeFilename(filename: string): (b: bool)
    ensures b <==> '/' !in filename && '\\' !in filename && forall i :: !DotPairAt(filename, i)
  {
    Strings.ContainsChar(filename, '/');
    Strings.ContainsChar(filename, '\\');
    ContainsDotPair(filename);
    !Strings.Contains(filename, "..") && !Strings.Contains(filename, "/") && !Strings.Contains(filename, "\\")
  }

  /** `s` contains ".." exactly when two dots stand next to each other somewhere in it. */
  lemma ContainsDotPair(s: string)
    ensures Strings.Contains(s, "..") <==> exists i :: DotPairAt(s, i)
  {
    Strings.ContainsIff(s, "..");
    if exists i :: Strings.OccursAt(s, "..", i) {
      var i :| Strings.OccursAt(s, "..", i);
      assert s[i..i + 2][0] == s[i] && s[i..i + 2][1] == s[i + 1];
      assert DotPairAt(s, i);
    }
    if exists i :: DotPairAt(s, i) {
      var i :| DotPairAt(s, i);
      assert s[i..i + 2] == "..";
      assert Strings.OccursAt(s, "..", i);
    }
  }

  /** Some image of some product ends with the name: the plain suffix test of `DeleteImage`. */
  predicate InUse(products: seq<Product>, filename: string) {
    exists p, u :: p in products && u in p.images && Strings.HasSuffix(u, filename)
  }

  /** `os.Remove` on the directory: the first entry of that name goes, a missing name is "not exist". */
  function Remove(files: seq<FileEntry>, filename: string): (r: Option<seq<FileEntry>>)
    ensures r.None? <==> forall j :: 0 <= j < |files| ==> files[j].name != filename
    ensures r.Some? ==> |r.value| == |files| - 1
  {
    var k := Seqs.FirstIndex(files, (f: FileEntry) => f.name == filename);
    if k < 0 then None else Some(Seqs.RemoveIndex(files, k))
  }

  /** `DeleteImage` against a given list of products: guard, usage check, then removal. */
  function DeleteChecked(products: seq<Product>, files: seq<FileEntry>, filename: string): (r: (seq<FileEntry>, Reply<ImagesPayload>))
    ensures !SafeFilename(filename) ==> r == (files, RespondBadRequest("invalid filename"))
    ensures SafeFilename(filename) && InUse(products, filename) ==> r == (files, RespondBadRequest("image is being used by a product"))
    ensures SafeFilename(filename) && !InUse(products, filename) ==>
      var removed := Remove(files, filename);
      && (removed.None? ==> r == (files, RespondNotFound("image not found")))
      && (removed.Some? ==> r == (removed.value, RespondOK(Message("image deleted successfully"))))
    ensures r.1.status == STATUS_OK ==> SafeFilename(filename) && !InUse(products, filename)
  {
    if !SafeFilename(filename) then (files, RespondBadRequest("invalid filename"))
    else if InUse(products, filename) then (files, RespondBadRequest("image is being used by a product"))
    else
      var removed := Remove(files, filename);
      if removed.None? then (files, RespondNotFound("image not found"))
      else (removed.value, RespondOK(Message("image deleted successfully")))
  }

  /** `DeleteImage` as written: the usage check sees only the considered products. */
  function DeleteImage(t: Table, files: seq<FileEntry>, filename: string): (r: (seq<FileEntry>, Reply<ImagesPayload>))
    requires Valid(t)
    ensures r.1.status == STATUS_OK ==> SafeFilename(filename) && !InUse(Considered(t), filename)
  {
    DeleteChecked(Considered(t), files, filename)
  }

  /** Every product that is not deleted. */
  function AllVisible(t: Table): (ps: seq<Product>)
    ensures forall p :: p in ps <==> exists j :: 0 <= j < |t| && Visible(t[j]) && p == Scan(t[j])
  {
    var vis := Seqs.Filter(t, Visible);
    var ps := Seqs.Map(vis, Scan);
    forall p | p in ps
      ensures exists j :: 0 <= j < |t| && Visible(t[j]) && p == Scan(t[j])
    {
      var i :| 0 <= i < |ps| && ps[i] == p;
      var j :| 0 <= j < |t| && t[j] == vis[i];
    }
    forall j | 0 <= j < |t| && Visible(t[j])
      ensures Scan(t[j]) in ps
    {
      var i :| 0 <= i < |vis| && vis[i] == t[j];
      assert ps[i] == Scan(t[j]);
    }
    ps
  }

  /** `DeleteImage` as evidently intended: the usage check sees every product that is not deleted. */
  function DeleteImageFixed(t: Table, files: seq<FileEntry>, filename: string): (r: (seq<FileEntry>, Reply<ImagesPayload>))
    ensures r.1.status == STATUS_OK ==> SafeFilename(filename) && !InUse(AllVisible(t), filename)
  {
    DeleteChecked(AllVisible(t), files, filename)
  }

  /** The corrected delete never removes a file an image of a live product ends with. */
  lemma DeleteImageFixedSpares(t: Table, files: seq<FileEntry>, filename: string, j: int, u: string)
    requires 0 <= j < |t| && Visible(t[j]) && u in Scan(t[j]).images && Strings.HasSuffix(u, filename)
    ensures DeleteImageFixed(t, files, filename).0 == files
    ensures DeleteImageFixed(t, files, filename).1.status != STATUS_OK
  {
    assert Scan(t[j]) in AllVisible(t);
  }

  /** The ids of a list of products. */
  function IdsOf(ps: seq<Product>): (ids: set<int>)
    ensures |ids| <= |ps|
    ensures forall p :: p in ps ==> p.id in ids
  {
    if |ps| == 0 then {} else IdsOf(ps[..|ps| - 1]) + {ps[|ps| - 1].id}
  }

  /** The ids of some rows. */
  function RowIds(rows: seq<Row>): set<int> {
    if |rows| == 0 then {} else RowIds(rows[..|rows| - 1]) + {rows[|rows| - 1].id}
  }

  /** Every id collected is the id of one of the rows. */
  lemma {:induction false} RowIdsMember(rows: seq<Row>, id: int)
    requires id in RowIds(rows)
    ensures exists i :: 0 <= i < |rows| && rows[i].id == id
  {
    var init := rows[..|rows| - 1];
    if id != rows[|rows| - 1].id {
      RowIdsMember(init, id);
      var i :| 0 <= i < |init| && init[i].id == id;
      assert rows[i] == init[i];
    }
  }

  /** An id above every row's id is not among them. */
  lemma {:induction false} RowIdsBelow(rows: seq<Row>, bound: int)
    requires forall i :: 0 <= i < |rows| ==> rows[i].id < bound
    ensures bound !in RowIds(rows)
  {
    if |rows| > 0 {
      var init := rows[..|rows| - 1];
      assert forall i :: 0 <= i < |init| ==> init[i] == rows[i];
      RowIdsBelow(init, bound);
    }
  }

  /** Rows with strictly increasing ids have as many ids as rows. */
  lemma {:induction false} RowIdsCount(rows: seq<Row>)
    requires forall i, j :: 0 <= i < j < |rows| ==> rows[i].id < rows[j].id
    ensures |RowIds(rows)| == |rows|
  {
    if |rows| > 0 {
      var init := rows[..|rows| - 1];
      var last := rows[|rows| - 1];
      assert forall i :: 0 <= i < |init| ==> init[i] == rows[i];
      RowIdsCount(init);
      RowIdsBelow(init, last.id);
    }
  }

  /** More rows of a valid table than products: some row's id is no product's id. */
  lemma MoreRowsThanProducts(m: seq<Row>, c: seq<Product>)
    requires Valid(m) && |m| > |c|
    ensures exists i :: 0 <= i < |m| && m[i].id !in IdsOf(c)
  {
    RowIdsCount(m);
    var id := Sets.LargerNotSubset(RowIds(m), IdsOf(c));
    RowIdsMember(m, id);
  }

  /** More live rows than products: some live row is not among the products. */
  lemma SomeRowMissing(t: Table, m: seq<Row>, c: seq<Product>)
    requires Valid(m) && |m| > |c|
    requires forall i :: 0 <= i < |m| ==> m[i] in t && Visible(m[i])
    ensures exists j :: 0 <= j < |t| && Visible(t[j]) && Scan(t[j]) !in c
  {
    MoreRowsThanProducts(m, c);
    var i :| 0 <= i < |m| && m[i].id !in IdsOf(c);
    var j :| 0 <= j < |t| && t[j] == m[i];
    assert Scan(t[j]).id !in IdsOf(c);
  }

  /** With more than one page of live products, some live product is not considered at all. */
  lemma SomeProductUnconsidered(t: Table)
    requires Valid(t) && |Matching(t, NO_FILTERS)| > DEFAULT_LIMIT
    ensures exists j :: 0 <= j < |t| && Visible(t[j]) && Scan(t[j]) !in Considered(t)
  {
    SomeRowMissing(t, Matching(t, NO_FILTERS), Considered(t));
  }

  /** The consequence: an image that only an unconsidered product uses is deleted although a live product still shows it. */
  lemma DeletesImageInUse(t: Table, files: seq<FileEntry>, filename: string, j: int, u: string)
    requires Valid(t) && 0 <= j < |t| && Visible(t[j])
    requires u in Scan(t[j]).images && Strings.HasSuffix(u, filename)
    requires SafeFilename(filename) && !InUse(Considered(t), filename)
    requires exists k :: 0 <= k < |files| && files[k].name == filename
    ensures InUse(AllVisible(t), filename)
    ensures DeleteImage(t, files, filename).1.status == STATUS_OK
    ensures |DeleteImage(t, files, filename).0| == |files| - 1
  {
    assert Scan(t[j]) in AllVisible(t);
  }

  /** While every live product fits on the first page, the handler as written and the corrected one agree. */
  lemma DeleteImageFixedAgrees(t: Table, files: seq<FileEntry>, filename: string)
    requires Valid(t) && |Matching(t, NO_FILTERS)| <= DEFAULT_LIMIT
    ensures DeleteImageFixed(t, files, filename) == DeleteImage(t, files, filename)
  {
    SameProducts(t);
    assert InUse(AllVisible(t), filename) == InUse(Considered(t), filename);
  }

  /** With no filters, the matches are the rows that are not deleted. */
  lemma NoFiltersMatchVisible(t: Table)
    requires Valid(t)
    ensures Matching(t, NO_FILTERS) == Seqs.Filter(t, Visible)
  {
    forall i | 0 <= i < |t|
      ensures MatchTest(NO_FILTERS)(t[i]) == Visible(t[i])
    {
    }
    Seqs.FilterCongruent(t, MatchTest(NO_FILTERS), Visible);
  }

  /** With at most one page of matches, the first page is all of them. */
  lemma FirstPageIsAll(t: Table)
    requires Valid(t) && |Matching(t, NO_FILTERS)| <= DEFAULT_LIMIT
    ensures Considered(t) == Seqs.Map(Ordered(t, NO_FILTERS), Scan)
  {
    var o := Ordered(t, NO_FILTERS);
    assert PageOf(o, 0, DEFAULT_LIMIT) == o;
  }

  /** Two sequences with the same elements map to sequences with the same elements. */
  lemma MapPermMember(a: seq<Row>, b: seq<Row>, p: Product)
    requires multiset(a) == multiset(b) && p in Seqs.Map(a, Scan)
    ensures p in Seqs.Map(b, Scan)
  {
    var i :| 0 <= i < |a| && Seqs.Map(a, Scan)[i] == p;
    MultisetMember(a, b, a[i]);
    var j :| 0 <= j < |b| && b[j] == a[i];
    assert Seqs.Map(b, Scan)[j] == p;
  }

  /** With at most one page of live products, the considered products are exactly the live ones. */
  lemma SameProducts(t: Table)
    requires Valid(t) && |Matching(t, NO_FILTERS)| <= DEFAULT_LIMIT
    ensures forall p :: p in Considered(t) <==> p in AllVisible(t)
  {
    var m := Matching(t, NO_FILTERS);
    var o := Ordered(t, NO_FILTERS);
    NoFiltersMatchVisible(t);
    FirstPageIsAll(t);
    assert AllVisible(t) == Seqs.Map(m, Scan);
    forall p
      ensures p in Seqs.Map(o, Scan) <==> p in Seqs.Map(m, Scan)
    {
      if p in Seqs.Map(o, Scan) {
        MapPermMember(o, m, p);
      }
      if p in Seqs.Map(m, Scan) {
        MapPermMember(m, o, p);
      }
    }
  }

  /** A name an image uses by base name also ends that image's URL: whatever is listed as used is refused deletion. */
  lemma BaseImpliesSuffix(u: string, filename: string)
    requires u != "" && TrimTrailingSlashes(u) == u && Base(u) == filename
    ensures Strings.HasSuffix(u, filename)
  {
  }

  /** The converse fails: the suffix test also refuses a file whose name merely ends another file's name. */
  lemma SuffixIsNotBase()
    ensures Strings.HasSuffix(UploadUrl("ba.jpg"), "a.jpg") && Base(UploadUrl("ba.jpg")) != "a.jpg"
  {
    BaseOfUploadUrl("ba.jpg");
    assert UploadUrl("ba.jpg")[|UploadUrl("ba.jpg")| - 5..] == "a.jpg";
  }
}

=== FILE: js_numbers.dfy ===
/**
  The few pieces of JavaScript number semantics the storefront relies on:
  `Math.round` and the falsiness of zero in `x || fallback`.
 */
module JsNumbers {

  /** `Math.round`: the nearest integer, halves rounded up (towards +infinity). */
  function Round(x: real): (n: int)
    ensures n as real - 0.5 <= x < n as real + 0.5
  {
    (x + 0.5).Floor
  }

  /** Rounding an integer-valued number gives it back. */
  lemma RoundInt(n: int)
    ensures Round(n as real) == n
  {
  }

  /** Rounding is monotone, so it keeps bounds that are integers. */
  lemma RoundMonotone(x: real, y: real)
    requires x <= y
    ensures Round(x) <= Round(y)
  {
  }

  /** The rounded percentage of an upload from its loaded and total byte counts. */
  function Percent(loaded: int, total: int): (p: int)
    requires total != 0
    ensures p as real - 0.5 <= (loaded * 100) as real / total as real < p as real + 0.5
  {
    Round((loaded * 100) as real / total as real)
  }

  /** With `0 <= loaded <= total` the percentage lies in [0, 100], and it reaches 100 exactly at the end. */
  lemma PercentInRange(loaded: int, total: int)
    requires 0 <= loaded <= total && total > 0
    ensures 0 <= Percent(loaded, total) <= 100
    ensures loaded == total ==> Percent(loaded, total) == 100
    ensures loaded == 0 ==> Percent(loaded, total) == 0
  {
    var q := (loaded * 100) as real / total as real;
    assert 0.0 <= q;
    assert q <= 100.0 by {
      assert (loaded * 100) as real <= (total * 100) as real;
    }
    RoundMonotone(0.0, q);
    RoundMonotone(q, 100.0);
    if loaded == total {
      var y := total as real;
      assert (loaded * 100) as real == 100.0 * y;
      DivCancel(100.0, y);
    }
  }

  /** Multiplying by a non-zero number and dividing by it again is the identity. */
  lemma DivCancel(a: real, y: real)
    requires y != 0.0
    ensures (a * y) / y == a
  {
  }
}

=== FILE: migrations.dfy ===
/**
  The schema migration runner (package `database`): the versions recorded
  in `schema_migrations` say how far the schema has come; every listed
  migration above the highest of them is applied and recorded in list
  order, each in its own transaction, and the first one that fails stops
  the run. The SQL itself is not interpreted: which steps fail is a
  parameter.
 */
module Migrations {
  import opened Wrappers

  datatype Migration = Migration(version: int, description: string)

  /** The migrations in the order they are applied. */
  const MIGRATIONS: seq<Migration> := [
    Migration(1, "Create products table"),
    Migration(2, "Create admins table"),
    Migration(3, "Create schema_migrations table"),
    Migration(4, "Add sizes, colors, gender, oversize, and featured to products")
  ]

  /** The step of one migration's transaction that went wrong; the transaction is not committed. */
  datatype Step = Begin | Execute | Record | Commit

  /** Why a run stopped: before any migration, or at one of them. */
  datatype MigrateError =
    | CreateTableFailed
    | VersionQueryFailed
    | MigrationFailed(version: int, step: Step)

  /** Versions are listed in strictly increasing order. */
  predicate Increasing(ms: seq<Migration>) {
    forall i, j :: 0 <= i < j < |ms| ==> ms[i].version < ms[j].version
  }

  lemma ListIsIncreasing()
    ensures Increasing(MIGRATIONS)
  {
  }

  /** `COALESCE(MAX(version), 0)`. */
  function CurrentVersion(recorded: seq<int>): (v: int)
    ensures recorded == [] ==> v == 0
    ensures recorded != [] ==> v in recorded && forall x :: x in recorded ==> x <= v
  {
    if |recorded| == 0 then 0
    else if |recorded| == 1 then recorded[0]
    else
      var rest := CurrentVersion(recorded[1..]);
      assert recorded == [recorded[0]] + recorded[1..];
      if recorded[0] >= rest then recorded[0] else rest
  }

  /** The migrations above `current`, in list order. */
  function Pending(ms: seq<Migration>, current: int): (p: seq<Migration>)
    ensures |p| <= |ms|
  {
    if |ms| == 0 then []
    else (if ms[0].version > current then [ms[0]] else []) + Pending(ms[1..], current)
  }

  lemma {:induction false} PendingNone(ms: seq<Migration>, current: int)
    requires forall i :: 0 <= i < |ms| ==> ms[i].version <= current
    ensures Pending(ms, current) == []
  {
    if |ms| > 0 {
      PendingNone(ms[1..], current);
    }
  }

  lemma {:induction false} PendingAll(ms: seq<Migration>, current: int)
    requires forall i :: 0 <= i < |ms| ==> ms[i].version > current
    ensures Pending(ms, current) == ms
  {
    if |ms| > 0 {
      PendingAll(ms[1..], current);
      assert ms == [ms[0]] + ms[1..];
    }
  }

  function Versions(ms: seq<Migration>): (vs: seq<int>)
    ensures |vs| == |ms| && forall i :: 0 <= i < |ms| ==> vs[i] == ms[i].version
  {
    seq(|ms|, i requires 0 <= i < |ms| => ms[i].version)
  }

  lemma {:induction false} PendingAppend(a: seq<Migration>, b: seq<Migration>, current: int)
    ensures Pending(a + b, current) == Pending(a, current) + Pending(b, current)
    decreases |a|
  {
    if |a| == 0 {
      assert a + b == b;
    } else {
      assert (a + b)[1..] == a[1..] + b;
      PendingAppend(a[1..], b, current);
    }
  }

  lemma VersionsAppend(a: seq<Migration>, b: seq<Migration>)
    ensures Versions(a + b) == Versions(a) + Versions(b)
  {
  }

  /** `Migrate` with the store's answers as parameters: the versions already recorded, whether the two preliminary queries fail, and which step, if any, fails for each version. */
  method Migrate(recorded: seq<int>, setup: Option<MigrateError>, failures: map<int, Step>)
    returns (after: seq<int>, applied: seq<int>, err: Option<MigrateError>)
    requires setup.Some? ==> setup.value.CreateTableFailed? || setup.value.VersionQueryFailed?
    ensures after == recorded + applied
    ensures setup.Some? ==> applied == [] && err == setup
    ensures setup.None? ==> Outcome(applied, err, Versions(Pending(MIGRATIONS, CurrentVersion(recorded))), failures)
  {
    if setup.Some? {
      after, applied, err := recorded, [], setup;
      return;
    }
    applied, err := ApplyPending(MIGRATIONS, CurrentVersion(recorded), failures);
    after := recorded + applied;
  }

  /** What a run over the pending versions reports: the longest prefix free of failures is applied, and the run fails exactly when it stopped short, naming the version and step that stopped it. */
  predicate Outcome(applied: seq<int>, err: Option<MigrateError>, pending: seq<int>, failures: map<int, Step>) {
    && |applied| <= |pending| && applied == pending[..|applied|]
    && (forall v :: v in applied ==> v !in failures)
    && (err.None? <==> applied == pending)
    && (err.Some? ==>
          && |applied| < |pending|
          && pending[|applied|] in failures
          && err == Some(MigrationFailed(pending[|applied|], failures[pending[|applied|]])))
  }

  /** The loop of `Migrate`: skip what is not above `current`, apply the rest until one fails. */
  method ApplyPending(ms: seq<Migration>, current: int, failures: map<int, Step>)
    returns (applied: seq<int>, err: Option<MigrateError>)
    ensures Outcome(applied, err, Versions(Pending(ms, current)), failures)
  {
    applied := [];
    var i := 0;
    while i < |ms|
      invariant 0 <= i <= |ms|
      invariant applied == Versions(Pending(ms[..i], current))
      invariant forall v :: v in applied ==> v !in failures
    {
      var m := ms[i];
      PendingAppend(ms[..i], [m], current);
      assert ms[..i + 1] == ms[..i] + [m];
      if m.version > current {
        if m.version in failures {
          StopsAt(ms, i, current);
          err := Some(MigrationFailed(m.version, failures[m.version]));
          return;
        }
        VersionsAppend(Pending(ms[..i], current), [m]);
        applied := applied + [m.version];
      }
      i := i + 1;
    }
    assert ms[..i] == ms;
    err := None;
  }

  /** Where the loop stops at a pending migration, what it applied so far is the part of the pending versions before that one. */
  lemma StopsAt(ms: seq<Migration>, i: int, current: int)
    requires 0 <= i < |ms| && ms[i].version > current
    ensures var before := Versions(Pending(ms[..i], current));
      var pending := Versions(Pending(ms, current));
      |before| < |pending| && pending[..|before|] == before && pending[|before|] == ms[i].version
  {
    PendingAppend(ms[..i], ms[i..], current);
    assert ms[..i] + ms[i..] == ms;
    PendingAppend([ms[i]], ms[i + 1..], current);
    assert [ms[i]] + ms[i + 1..] == ms[i..];
    assert Pending([ms[i]], current) == [ms[i]];
    var before := Pending(ms[..i], current);
    VersionsAppend(before, [ms[i]] + Pending(ms[i + 1..], current));
  }

  /** With increasing versions, what is pending above `current` is a suffix of the list. */
  lemma PendingIsSuffix(ms: seq<Migration>, current: int, k: int)
    requires 0 <= k <= |ms|
    requires forall i :: 0 <= i < k ==> ms[i].version <= current
    requires forall i :: k <= i < |ms| ==> ms[i].version > current
    ensures Pending(ms, current) == ms[k..]
  {
    var front, back := ms[..k], ms[k..];
    assert front + back == ms;
    assert forall i :: 0 <= i < |front| ==> front[i] == ms[i];
    assert forall i :: 0 <= i < |back| ==> back[i] == ms[k + i];
    PendingNone(front, current);
    PendingAll(back, current);
    PendingAppend(front, back, current);
  }

  /** The highest recorded version once some increasing versions above everything recorded are appended is the last of them. */
  lemma CurrentAfterApplied(recorded: seq<int>, applied: seq<int>)
    requires applied != []
    requires forall v :: v in applied ==> v > CurrentVersion(recorded)
    requires forall i, j :: 0 <= i < j < |applied| ==> applied[i] < applied[j]
    ensures CurrentVersion(recorded + applied) == applied[|applied| - 1]
  {
    var last := applied[|applied| - 1];
    var v := CurrentVersion(recorded + applied);
    assert last in recorded + applied;
    forall x | x in recorded + applied
      ensures x <= last
    {
      if x in recorded {
        assert x <= CurrentVersion(recorded) < last;
      } else {
        var i :| 0 <= i < |applied| && applied[i] == x;
        assert i == |applied| - 1 || applied[i] < last;
      }
    }
  }

  /** A run that applied the first `n` pending migrations leaves exactly the rest pending for the next run. */
  lemma ResumeWhereStopped(ms: seq<Migration>, recorded: seq<int>, n: int)
    requires Increasing(ms)
    requires 0 <= n <= |Pending(ms, CurrentVersion(recorded))|
    ensures var current := CurrentVersion(recorded);
      var applied := Versions(Pending(ms, current))[..n];
      Pending(ms, CurrentVersion(recorded + applied)) == Pending(ms, current)[n..]
  {
    var current := CurrentVersion(recorded);
    var k := FirstAbove(ms, current);
    PendingIsSuffix(ms, current, k);
    var applied := Versions(Pending(ms, current))[..n];
    if n == 0 {
      assert recorded + applied == recorded;
    } else {
      assert applied == Versions(ms[k..])[..n];
      ResumeAfterSome(ms, recorded, current, k, n);
      assert Pending(ms, current)[n..] == ms[k + n..];
    }
  }

  lemma ResumeAfterSome(ms: seq<Migration>, recorded: seq<int>, current: int, k: int, n: int)
    requires Increasing(ms) && current == CurrentVersion(recorded)
    requires 0 <= k && 0 < n && k + n <= |ms|
    requires forall i :: k <= i < |ms| ==> ms[i].version > current
    ensures Pending(ms, CurrentVersion(recorded + Versions(ms[k..])[..n])) == ms[k + n..]
  {
    var applied := Versions(ms[k..])[..n];
    AppliedRun(ms, current, k, n);
    CurrentAfterApplied(recorded, applied);
    SuffixAfter(ms, k + n - 1);
  }

  /** The first `n` versions of an increasing suffix above `current` are increasing and above `current`. */
  lemma AppliedRun(ms: seq<Migration>, current: int, k: int, n: int)
    requires Increasing(ms) && 0 <= k && 0 < n && k + n <= |ms|
    requires forall i :: k <= i < |ms| ==> ms[i].version > current
    ensures var applied := Versions(ms[k..])[..n];
      && (forall v :: v in applied ==> v > current)
      && (forall i, j :: 0 <= i < j < |applied| ==> applied[i] < applied[j])
      && applied[n - 1] == ms[k + n - 1].version
  {
    var applied := Versions(ms[k..])[..n];
    assert forall i :: 0 <= i < n ==> applied[i] == ms[k + i].version;
  }

  /** In an increasing list, what lies above the version at `j` is everything after `j`. */
  lemma SuffixAfter(ms: seq<Migration>, j: int)
    requires Increasing(ms) && 0 <= j < |ms|
    ensures Pending(ms, ms[j].version) == ms[j + 1..]
  {
    PendingIsSuffix(ms, ms[j].version, j + 1);
  }

  /** The index of the first migration above `current` in an increasing list, or the length. */
  function FirstAbove(ms: seq<Migration>, current: int): (k: int)
    requires Increasing(ms)
    ensures 0 <= k <= |ms|
    ensures forall i :: 0 <= i < k ==> ms[i].version <= current
    ensures forall i :: k <= i < |ms| ==> ms[i].version > current
  {
    if |ms| == 0 then 0
    else if ms[|ms| - 1].version <= current then |ms|
    else FirstAbove(ms[..|ms| - 1], current)
  }

  /** After a run that went through, a second run has nothing to apply. */
  lemma SecondRunAppliesNothing(recorded: seq<int>)
    ensures var applied := Versions(Pending(MIGRATIONS, CurrentVersion(recorded)));
      Pending(MIGRATIONS, CurrentVersion(recorded + applied)) == []
  {
    ListIsIncreasing();
    var pending := Pending(MIGRATIONS, CurrentVersion(recorded));
    ResumeWhereStopped(MIGRATIONS, recorded, |pending|);
    assert Versions(pending)[..|pending|] == Versions(pending);
  }

  /** A fresh database gets all four migrations, in order. */
  lemma FreshDatabase()
    ensures Versions(Pending(MIGRATIONS, CurrentVersion([]))) == [1, 2, 3, 4]
  {
    var ms := MIGRATIONS;
    assert forall i :: 0 <= i < |ms| ==> ms[i].version == i + 1;
    PendingAll(ms, 0);
  }
}

=== FILE: mock_data.dfy ===
/**
  The frontend's built-in sample catalogue (`mock.ts`): twenty-two products
  and the three queries over them, `getFeaturedProducts`,
  `getFilteredProducts` and `getProductById`. The queries are stated over any
  product list and applied to the sample one.
 */
module MockData {
  import opened Wrappers
  import Seqs
  import Catalog

  /** A sample product: every optional field the samples set is present; tags and timestamps are absent. */
  function Mock(id: string, name: string, description: string, price: real, images: seq<string>,
                sizes: seq<string>, colors: seq<string>, gender: string, category: string,
                oversize: bool, featured: bool): (p: Catalog.Product)
    ensures p.id == id && p.images == images && p.gender == Some(gender) && p.category == category
    ensures p.oversize == Some(oversize) && p.featured == Some(featured)
  {
    Catalog.Product(id, name, description, price, category, images, None, Some(sizes), Some(colors),
      Some(gender), Some(oversize), Some(featured), None, None)
  }

  /** `MOCK_PRODUCTS`. */
  const MOCK_PRODUCTS: seq<Catalog.Product> := [
    Mock("1", "Remera Oversize Negra",
      "Remera oversize 100% algodón, perfecta para un look casual y cómodo.",
      15000.0, ["https://images.unsplash.com/photo-1521572163474-6864f9cf17ab?w=800", "https://images.unsplash.com/photo-1583743814966-8936f5b7be1a?w=800"],
      ["M", "L", "XL", "XXL"], ["Negro", "Gris"], "Hombre", "Casual", true, true),
    Mock("2", "Remera Deportiva Running",
      "Tecnología Dri-FIT para máxima transpiración durante el ejercicio.",
      18000.0, ["https://images.unsplash.com/photo-1556821840-3a63f95609a7?w=800"],
      ["S", "M", "L", "XL"], ["Azul", "Negro", "Rojo"], "Hombre", "Deportivo", false, true),
    Mock("3", "Remera Cruz Minimalista",
      "Diseño religioso sutil y elegante, perfecta para el día a día.",
      16000.0, ["https://images.unsplash.com/photo-1618354691373-d851c5c3a990?w=800"],
      ["S", "M", "L"], ["Blanco", "Beige"], "Mujer", "Religioso", false, true),
    Mock("4", "Remera Básica Rosa",
      "Remera básica de corte clásico, ideal para combinar con todo.",
      12000.0, ["https://images.unsplash.com/photo-1562157873-818bc0726f68?w=800"],
      ["XS", "S", "M", "L"], ["Rosa", "Lila"], "Mujer", "Casual", false, true),
    Mock("5", "Remera Estampada Niño",
      "Divertida remera con estampado colorido, 100% algodón.",
      10000.0, ["https://images.unsplash.com/photo-1503944583220-79d8926ad5e2?w=800"],
      ["S", "M", "L"], ["Multicolor"], "Niño", "Casual", false, false),
    Mock("6", "Remera Gym Pro",
      "Diseño ergonómico para máximo rendimiento en el gimnasio.",
      20000.0, ["https://images.unsplash.com/photo-1571455786673-9d9d6c194f90?w=800"],
      ["M", "L", "XL"], ["Negro", "Gris oscuro"], "Hombre", "Deportivo", false, false),
    Mock("7", "Remera Versículo Juan 3:16",
      "Remera con versículo bíblico bordado, confección premium.",
      17000.0, ["https://images.unsplash.com/photo-1622445272461-c6580cab8755?w=800"],
      ["S", "M", "L", "XL"], ["Blanco", "Negro"], "Hombre", "Religioso", false, false),
    Mock("8", "Remera Oversize Mujer Beige",
      "Corte oversize moderno, tela suave y liviana.",
      16500.0, ["https://images.unsplash.com/photo-1618354691373-d851c5c3a990?w=800"],
      ["S", "M", "L", "XL"], ["Beige", "Crema"], "Mujer", "Casual", true, false),
    Mock("9", "Remera Yoga Flow",
      "Ultra cómoda y flexible para prácticas de yoga y pilates.",
      15000.0, ["https://images.unsplash.com/photo-1591195853828-11db59a44f6b?w=800"],
      ["XS", "S", "M", "L"], ["Verde agua", "Rosa suave"], "Mujer", "Deportivo", false, false),
    Mock("10", "Remera Infantil Dinosaurio",
      "Estampado de dinosaurio, ideal para los más pequeños.",
      9500.0, ["https://images.unsplash.com/photo-1503944583220-79d8926ad5e2?w=800"],
      ["XS", "S", "M"], ["Verde", "Azul"], "Niño", "Casual", false, false),
    Mock("11", "Remera Blanca Premium",
      "Remera blanca de corte clásico, algodón pima de alta calidad.",
      14000.0, ["https://images.unsplash.com/photo-1581655353564-df123a1eb820?w=800"],
      ["S", "M", "L", "XL"], ["Blanco"], "Hombre", "Casual", false, false),
    Mock("12", "Remera CrossFit Extreme",
      "Diseñada para entrenamientos de alta intensidad.",
      22000.0, ["https://images.unsplash.com/photo-1556821840-3a63f95609a7?w=800"],
      ["M", "L", "XL", "XXL"], ["Negro", "Rojo"], "Hombre", "Deportivo", false, false),
    Mock("13", "Remera Fe y Esperanza",
      "Mensaje inspirador con diseño moderno.",
      15500.0, ["https://images.unsplash.com/photo-1622445272461-c6580cab8755?w=800"],
      ["S", "M", "L"], ["Gris claro", "Azul marino"], "Mujer", "Religioso", false, false),
    Mock("14", "Remera Rayas Marinera",
      "Estilo marinero clásico con rayas horizontales.",
      13500.0, ["https://images.unsplash.com/photo-1562157873-818bc0726f68?w=800"],
      ["XS", "S", "M", "L"], ["Blanco/Azul", "Blanco/Rojo"], "Mujer", "Casual", false, false),
    Mock("15", "Remera Fútbol Kids",
      "Remera deportiva para pequeños futbolistas.",
      11000.0, ["https://images.unsplash.com/photo-1503944583220-79d8926ad5e2?w=800"],
      ["XS", "S", "M", "L"], ["Azul", "Rojo", "Verde"], "Niño", "Deportivo", false, false),
    Mock("16", "Remera Oversize Gris",
      "Gris melange, corte oversize relajado.",
      15500.0, ["https://images.unsplash.com/photo-1583743814966-8936f5b7be1a?w=800"],
      ["M", "L", "XL", "XXL"], ["Gris melange"], "Hombre", "Casual", true, false),
    Mock("17", "Remera Running Reflectiva",
      "Con detalles reflectivos para correr de noche.",
      19000.0, ["https://images.unsplash.com/photo-1556821840-3a63f95609a7?w=800"],
      ["S", "M", "L", "XL"], ["Negro", "Gris"], "Hombre", "Deportivo", false, false),
    Mock("18", "Remera Salmo 23",
      "Diseño elegante con texto del Salmo 23.",
      16000.0, ["https://images.unsplash.com/photo-1618354691373-d851c5c3a990?w=800"],
      ["S", "M", "L", "XL"], ["Blanco", "Gris"], "Mujer", "Religioso", false, false),
    Mock("19", "Remera Tie-Dye Niña",
      "Estampado tie-dye artesanal, cada pieza es única.",
      12000.0, ["https://images.unsplash.com/photo-1562157873-818bc0726f68?w=800"],
      ["XS", "S", "M"], ["Multicolor"], "Niño", "Casual", false, false),
    Mock("20", "Remera Básica Verde Militar",
      "Color verde militar, corte regular fit.",
      13000.0, ["https://images.unsplash.com/photo-1521572163474-6864f9cf17ab?w=800"],
      ["S", "M", "L", "XL"], ["Verde militar"], "Hombre", "Casual", false, false),
    Mock("21", "Remera Pilates Essential",
      "Tela suave y elastizada para movimientos fluidos.",
      16000.0, ["https://images.unsplash.com/photo-1591195853828-11db59a44f6b?w=800"],
      ["XS", "S", "M", "L"], ["Negro", "Lavanda"], "Mujer", "Deportivo", false, false),
    Mock("22", "Remera Psalm 46:5 Mujer",
      "Versículo inspirador con tipografía moderna.",
      15000.0, ["https://images.unsplash.com/photo-1622445272461-c6580cab8755?w=800"],
      ["S", "M", "L"], ["Rosa palo", "Gris perla"], "Mujer", "Religioso", false, false)
  ]

  /** The ids of a product list are pairwise distinct. */
  predicate DistinctIds(ps: seq<Catalog.Product>) {
    forall i, j :: 0 <= i < j < |ps| ==> ps[i].id != ps[j].id
  }

  /** Every product of the list has at least one image. */
  predicate AllHaveImages(ps: seq<Catalog.Product>) {
    forall i :: 0 <= i < |ps| ==> |ps[i].images| > 0
  }

  /** The ids of the sample products, in catalogue order. */
  const MOCK_IDS: seq<string> := ["1", "2", "3", "4", "5", "6", "7", "8", "9", "10", "11",
    "12", "13", "14", "15", "16", "17", "18", "19", "20", "21", "22"]

  lemma MockIdsDistinct()
    ensures forall i, j :: 0 <= i < j < |MOCK_IDS| ==> MOCK_IDS[i] != MOCK_IDS[j]
  {
  }

  lemma MockIdsListed()
    ensures |MOCK_PRODUCTS| == |MOCK_IDS|
    ensures forall i :: 0 <= i < |MOCK_PRODUCTS| ==> MOCK_PRODUCTS[i].id == MOCK_IDS[i]
  {
  }

  /** The sample catalogue: twenty-two products with ids "1" to "22", all distinct, each with an image. */
  lemma MockInvariants()
    ensures |MOCK_PRODUCTS| == 22
    ensures DistinctIds(MOCK_PRODUCTS)
    ensures AllHaveImages(MOCK_PRODUCTS)
  {
    MockIdsDistinct();
    MockIdsListed();
    MockImages();
  }

  lemma MockImages()
    ensures AllHaveImages(MOCK_PRODUCTS)
  {
    var ps := MOCK_PRODUCTS;
    forall i | 0 <= i < |ps|
      ensures |ps[i].images| > 0
    {
    }
  }

  /** `p.featured` as a JavaScript condition. */
  predicate IsFeatured(p: Catalog.Product) {
    p.featured == Some(true)
  }

  /** `getFeaturedProducts`: the featured products, in catalogue order. */
  function Featured(ps: seq<Catalog.Product>): (r: seq<Catalog.Product>)
    ensures Seqs.IsSubsequence(r, ps)
    ensures forall i :: 0 <= i < |r| ==> IsFeatured(r[i])
    ensures forall i :: 0 <= i < |ps| && IsFeatured(ps[i]) ==> ps[i] in r
  {
    Seqs.Filter(ps, IsFeatured)
  }

  /** A filter that holds exactly on the first `k` elements keeps that prefix. */
  lemma {:induction false} FilterPrefix(s: seq<Catalog.Product>, p: Catalog.Product -> bool, k: int)
    requires 0 <= k <= |s|
    requires forall i :: 0 <= i < k ==> p(s[i])
    requires forall i :: k <= i < |s| ==> !p(s[i])
    ensures Seqs.Filter(s, p) == s[..k]
  {
    if |s| > 0 {
      if k > 0 {
        FilterPrefix(s[1..], p, k - 1);
        assert s[..k] == [s[0]] + s[1..][..k - 1];
      } else {
        FilterPrefix(s[1..], p, 0);
      }
    }
  }

  /** The sample catalogue features exactly its first four products. */
  lemma MockFeaturedAreFirstFour()
    ensures Featured(MOCK_PRODUCTS) == MOCK_PRODUCTS[..4]
  {
    MockFeaturedFlags();
    FilterPrefix(MOCK_PRODUCTS, IsFeatured, 4);
  }

  lemma MockFeaturedFlags()
    ensures |MOCK_PRODUCTS| >= 4
    ensures forall i :: 0 <= i < 4 ==> IsFeatured(MOCK_PRODUCTS[i])
    ensures forall i :: 4 <= i < |MOCK_PRODUCTS| ==> !IsFeatured(MOCK_PRODUCTS[i])
  {
  }

  /** The optional filters of `getFilteredProducts`; `None` is an absent key. */
  datatype MockFilters = MockFilters(gender: Option<string>, category: Option<string>, oversize: Option<bool>)

  /** A product passes every filter that is given: gender and category when truthy, oversize whenever defined. */
  predicate Passes(f: MockFilters, p: Catalog.Product) {
    && (Catalog.Truthy(f.gender) ==> p.gender == f.gender)
    && (Catalog.Truthy(f.category) ==> p.category == f.category.value)
    && (f.oversize.Some? ==> p.oversize == f.oversize)
  }

  function GenderTest(f: MockFilters): Catalog.Product -> bool {
    (p: Catalog.Product) => p.gender == f.gender
  }

  function CategoryTest(f: MockFilters): Catalog.Product -> bool {
    (p: Catalog.Product) => Some(p.category) == f.category
  }

  function OversizeTest(f: MockFilters): Catalog.Product -> bool {
    (p: Catalog.Product) => p.oversize == f.oversize
  }

  function PassesTest(f: MockFilters): Catalog.Product -> bool {
    (p: Catalog.Product) => Passes(f, p)
  }

  /** One optional step: filter by `test` when `applies`, else keep the list. */
  function Step(ps: seq<Catalog.Product>, applies: bool, test: Catalog.Product -> bool): seq<Catalog.Product> {
    if applies then Seqs.Filter(ps, test) else ps
  }

  /** `getFilteredProducts`: the gender, category and oversize steps in turn; one filter by all given tests. */
  function Filtered(ps: seq<Catalog.Product>, f: MockFilters): (r: seq<Catalog.Product>)
    ensures r == Seqs.Filter(ps, PassesTest(f))
    ensures Seqs.IsSubsequence(r, ps)
    ensures forall i :: 0 <= i < |r| ==> Passes(f, r[i])
    ensures forall i :: 0 <= i < |ps| && Passes(f, ps[i]) ==> ps[i] in r
  {
    FilterSteps(ps, f);
    Step(Step(Step(ps, Catalog.Truthy(f.gender), GenderTest(f)), Catalog.Truthy(f.category), CategoryTest(f)),
         f.oversize.Some?, OversizeTest(f))
  }

  /** The test of two optional steps together. */
  function Both(a: bool, p: Catalog.Product -> bool, b: bool, q: Catalog.Product -> bool): Catalog.Product -> bool {
    (x: Catalog.Product) => (a ==> p(x)) && (b ==> q(x))
  }

  /** A chain of two optional steps is one filter by the conjunction of the steps that apply. */
  lemma StepStep(ps: seq<Catalog.Product>, a: bool, p: Catalog.Product -> bool, b: bool, q: Catalog.Product -> bool)
    ensures Step(Step(ps, a, p), b, q) == Seqs.Filter(ps, Both(a, p, b, q))
  {
    var both := Both(a, p, b, q);
    if a && b {
      Seqs.FilterFilter(ps, p, q);
      Seqs.FilterCongruent(ps, Seqs.And(p, q), both);
    } else if a {
      Seqs.FilterCongruent(ps, p, both);
    } else if b {
      Seqs.FilterCongruent(ps, q, both);
    } else {
      Seqs.FilterAll(ps, both);
    }
  }

  lemma FilterSteps(ps: seq<Catalog.Product>, f: MockFilters)
    ensures Step(Step(Step(ps, Catalog.Truthy(f.gender), GenderTest(f)), Catalog.Truthy(f.category), CategoryTest(f)),
                 f.oversize.Some?, OversizeTest(f)) == Seqs.Filter(ps, PassesTest(f))
  {
    var g, c, o := Catalog.Truthy(f.gender), Catalog.Truthy(f.category), f.oversize.Some?;
    var gc := Both(g, GenderTest(f), c, CategoryTest(f));
    StepStep(ps, g, GenderTest(f), c, CategoryTest(f));
    StepStep(ps, true, gc, o, OversizeTest(f));
    forall i | 0 <= i < |ps|
      ensures Both(true, gc, o, OversizeTest(f))(ps[i]) == PassesTest(f)(ps[i])
    {
      PassesSplit(f, ps[i]);
    }
    Seqs.FilterCongruent(ps, Both(true, gc, o, OversizeTest(f)), PassesTest(f));
  }

  /** Passing every given filter is passing the gender and category steps and, when defined, the oversize step. */
  lemma PassesSplit(f: MockFilters, x: Catalog.Product)
    ensures PassesTest(f)(x)
        == (Both(Catalog.Truthy(f.gender), GenderTest(f), Catalog.Truthy(f.category), CategoryTest(f))(x)
            && (f.oversize.Some? ==> OversizeTest(f)(x)))
  {
  }

  /** With no filter given, every product is returned, in order. */
  lemma NoFiltersReturnsAll(ps: seq<Catalog.Product>)
    ensures Filtered(ps, MockFilters(None, None, None)) == ps
  {
    Seqs.FilterAll(ps, PassesTest(MockFilters(None, None, None)));
  }

  /** `oversize: false` is a filter too: it keeps exactly the products that are not oversize. */
  lemma OversizeFalseFilters(ps: seq<Catalog.Product>, i: int)
    requires 0 <= i < |ps|
    ensures ps[i].oversize == Some(false) <==> ps[i] in Filtered(ps, MockFilters(None, None, Some(false)))
  {
  }

  /** `getProductById`: the first product with that id, or nothing. */
  function ProductById(ps: seq<Catalog.Product>, id: string): (r: Option<Catalog.Product>)
    ensures r.Some? ==> r.value.id == id && r.value in ps
    ensures r.None? <==> forall i :: 0 <= i < |ps| ==> ps[i].id != id
  {
    var k := Seqs.FirstIndex(ps, (p: Catalog.Product) => p.id == id);
    if k < 0 then None else Some(ps[k])
  }

  /** The product found is the first one carrying the id, even when a later one carries it too. */
  lemma ProductByIdFirst(ps: seq<Catalog.Product>, id: string, k: int)
    requires 0 <= k < |ps| && ps[k].id == id
    requires forall j :: 0 <= j < k ==> ps[j].id != id
    ensures ProductById(ps, id) == Some(ps[k])
  {
  }

  /** With distinct ids every product is found by its own id. */
  lemma ProductByOwnId(ps: seq<Catalog.Product>, i: int)
    requires DistinctIds(ps) && 0 <= i < |ps|
    ensures ProductById(ps, ps[i].id) == Some(ps[i])
  {
    var k := Seqs.FirstIndex(ps, (p: Catalog.Product) => p.id == ps[i].id);
    assert k >= 0 && k <= i;
  }
}

=== FILE: orphaned_images.dfy ===
/**
  The list of uploaded images no product uses (`OrphanedImagesList`): a
  selection of file names with select-one and select-all toggles, single
  and bulk deletion behind a confirmation step, and the size label of each
  image. The deletions themselves are the parent's callbacks; here a
  confirmed deletion yields the request it would make and, where the outcome
  matters to the list, whether it succeeded.
 */
module OrphanedImages {
  import opened Wrappers
  import Catalog
  import Sets

  datatype OrphanedImage = OrphanedImage(filename: string, url: string, size: int, uploadedAt: string)

  /** The component's state; `deleting` is the name being deleted, or `"bulk"`. */
  datatype ListState = ListState(
    selected: set<string>,
    deleting: Option<string>,
    confirmingDelete: Option<string>,
    confirmingBulkDelete: bool)

  const INITIAL: ListState := ListState({}, None, None, false)

  /** The file names of the listed images. */
  function Names(images: seq<OrphanedImage>): (r: set<string>)
    ensures forall i :: 0 <= i < |images| ==> images[i].filename in r
    ensures forall n :: n in r ==> exists i :: 0 <= i < |images| && images[i].filename == n
  {
    if |images| == 0 then {}
    else Names(images[..|images| - 1]) + {images[|images| - 1].filename}
  }

  /** No two listed images share a file name. */
  predicate DistinctNames(images: seq<OrphanedImage>) {
    forall i, j :: 0 <= i < j < |images| ==> images[i].filename != images[j].filename
  }

  /** With distinct file names there are as many names as images. */
  lemma {:induction false} NamesCount(images: seq<OrphanedImage>)
    requires DistinctNames(images)
    ensures |Names(images)| == |images|
  {
    if |images| > 0 {
      var init := images[..|images| - 1];
      NamesCount(init);
      var last := images[|images| - 1].filename;
      assert forall i :: 0 <= i < |init| ==> init[i].filename != last;
      assert last !in Names(init);
    }
  }

  /** `handleSelectAll`: when the selection is as large as the list it is cleared, otherwise every name is selected. */
  function SelectAll(s: ListState, images: seq<OrphanedImage>): (r: ListState)
    ensures |s.selected| == |images| ==> r.selected == {}
    ensures |s.selected| != |images| ==> r.selected == Names(images)
    ensures r == s.(selected := r.selected)
  {
    s.(selected := if |s.selected| == |images| then {} else Names(images))
  }

  /** With distinct names, select-all twice from a partial selection clears it, and clearing then selecting all selects all. */
  lemma SelectAllTwice(s: ListState, images: seq<OrphanedImage>)
    requires DistinctNames(images)
    ensures |s.selected| != |images| ==> SelectAll(SelectAll(s, images), images).selected == {}
    ensures |images| > 0 && |s.selected| == |images| ==> SelectAll(SelectAll(s, images), images).selected == Names(images)
  {
    NamesCount(images);
  }

  /**
    A selection that still holds a name deleted from the list can match the
    list's length without covering it: select-all then clears it. Such a
    selection needs a caller that keeps the list mounted while `images`
    changes. The admin page does not: it replaces the list with its loading
    state on every reload, and a bulk delete always clears the selection.
   */
  lemma StaleSelectionClears()
    ensures var images := [OrphanedImage("a.png", "/uploads/a.png", 1, ""), OrphanedImage("c.png", "/uploads/c.png", 1, "")];
      var s := INITIAL.(selected := {"a.png", "b.png"});
      && "c.png" !in s.selected && "c.png" in Names(images)
      && SelectAll(s, images).selected == {}
  {
    var images := [OrphanedImage("a.png", "/uploads/a.png", 1, ""), OrphanedImage("c.png", "/uploads/c.png", 1, "")];
    assert |{"a.png", "b.png"}| == 2 by {
      assert "a.png" != "b.png";
    }
  }

  /** Select-all as its toggle evidently means it: clear when every listed name is selected, otherwise select them all. */
  function SelectAllFixed(s: ListState, images: seq<OrphanedImage>): (r: ListState)
    ensures Names(images) <= s.selected ==> r.selected == {}
    ensures !(Names(images) <= s.selected) ==> r.selected == Names(images)
    ensures r == s.(selected := r.selected)
  {
    s.(selected := if Names(images) <= s.selected then {} else Names(images))
  }

  /** The corrected toggle never clears a selection that misses a listed image, and agrees with the original on a selection of listed names. */
  lemma SelectAllFixedAgrees(s: ListState, images: seq<OrphanedImage>)
    requires DistinctNames(images) && s.selected <= Names(images)
    ensures SelectAllFixed(s, images) == SelectAll(s, images)
  {
    NamesCount(images);
    Sets.CoversIffFull(s.selected, Names(images), |images|);
    var covered := Names(images) <= s.selected;
    assert SelectAllFixed(s, images).selected == (if covered then {} else Names(images));
    assert SelectAll(s, images).selected == (if covered then {} else Names(images));
  }

  /** `handleSelect`: a selected name is deselected, any other name selected. */
  function Select(s: ListState, filename: string): (r: ListState)
    ensures filename in r.selected <==> filename !in s.selected
    ensures forall n :: n != filename ==> (n in r.selected <==> n in s.selected)
    ensures r == s.(selected := r.selected)
  {
    s.(selected := if filename in s.selected then s.selected - {filename} else s.selected + {filename})
  }

  /** Clicking a checkbox twice gives back the selection. */
  lemma SelectTwice(s: ListState, filename: string)
    ensures Select(Select(s, filename), filename) == s
  {
  }

  /** `handleDeleteClick`: the confirmation dialog opens for that name. */
  function DeleteClick(s: ListState, filename: string): (r: ListState)
    ensures r.confirmingDelete == Some(filename)
    ensures r == s.(confirmingDelete := r.confirmingDelete)
  {
    s.(confirmingDelete := Some(filename))
  }

  /** `handleCancelDelete`. */
  function CancelDelete(s: ListState): (r: ListState)
    ensures r.confirmingDelete.None?
    ensures r == s.(confirmingDelete := None)
  {
    s.(confirmingDelete := None)
  }

  /** What a confirmation did: the state once the deletion settled, and the name(s) handed to the callback. */
  datatype Confirmed<T> = Confirmed(state: ListState, request: Option<T>)

  /** `handleConfirmDelete`: nothing without a (truthy) name; otherwise that name is deleted and the dialog closes, whatever the outcome. */
  function ConfirmDelete(s: ListState): (r: Confirmed<string>)
    ensures !Catalog.Truthy(s.confirmingDelete) ==> r == Confirmed(s, None)
    ensures Catalog.Truthy(s.confirmingDelete) ==>
      && r.request == s.confirmingDelete
      && r.state == s.(deleting := None, confirmingDelete := None)
  {
    if !Catalog.Truthy(s.confirmingDelete) then Confirmed(s, None)
    else Confirmed(s.(deleting := None, confirmingDelete := None), s.confirmingDelete)
  }

  /** A name the user clicked and confirmed is the one deleted. */
  lemma ClickThenConfirmDeletes(s: ListState, filename: string)
    requires filename != ""
    ensures ConfirmDelete(DeleteClick(s, filename)).request == Some(filename)
    ensures ConfirmDelete(DeleteClick(s, filename)).state.selected == s.selected
  {
  }

  /** `handleBulkDeleteClick`: the bulk dialog opens only when something is selected. */
  function BulkDeleteClick(s: ListState): (r: ListState)
    ensures |s.selected| == 0 ==> r == s
    ensures |s.selected| > 0 ==> r == s.(confirmingBulkDelete := true)
  {
    if |s.selected| == 0 then s else s.(confirmingBulkDelete := true)
  }

  /** `handleCancelBulkDelete`. */
  function CancelBulkDelete(s: ListState): (r: ListState)
    ensures !r.confirmingBulkDelete
    ensures r == s.(confirmingBulkDelete := false)
  {
    s.(confirmingBulkDelete := false)
  }

  /** `handleConfirmBulkDelete`: the whole selection goes to the callback; it is cleared only when the deletion succeeded. */
  function ConfirmBulkDelete(s: ListState, succeeded: bool): (r: Confirmed<set<string>>)
    ensures r.request == Some(s.selected)
    ensures !r.state.confirmingBulkDelete && r.state.deleting.None?
    ensures succeeded ==> r.state.selected == {}
    ensures !succeeded ==> r.state.selected == s.selected
    ensures r.state.confirmingDelete == s.confirmingDelete
  {
    Confirmed(s.(deleting := None, confirmingBulkDelete := false, selected := if succeeded then {} else s.selected), Some(s.selected))
  }

  /** The bulk dialog can only have been opened over a non-empty selection, so a bulk request is never empty. */
  lemma BulkRequestNonEmpty(s: ListState, succeeded: bool)
    requires !s.confirmingBulkDelete && BulkDeleteClick(s).confirmingBulkDelete
    ensures ConfirmBulkDelete(BulkDeleteClick(s), succeeded).request.value != {}
  {
  }

  datatype SizeUnit = B | KB | MB

  /** `formatSize` before `toFixed`: the unit and the number shown in it. */
  datatype SizeLabel = SizeLabel(amount: real, unit: SizeUnit)

  const KIB: int := 1024
  const MIB: int := 1024 * 1024

  function FormatSize(bytes: int): (l: SizeLabel)
    ensures l.unit == B <==> bytes < KIB
    ensures l.unit == KB <==> KIB <= bytes < MIB
    ensures l.unit == MB <==> MIB <= bytes
    ensures l.unit == B ==> l.amount == bytes as real
    ensures l.unit == KB ==> 1.0 <= l.amount < 1024.0 && l.amount * 1024.0 == bytes as real
    ensures l.unit == MB ==> 1.0 <= l.amount && l.amount * 1048576.0 == bytes as real
  {
    if bytes < KIB then SizeLabel(bytes as real, B)
    else if bytes < MIB then SizeLabel(bytes as real / 1024.0, KB)
    else SizeLabel(bytes as real / 1048576.0, MB)
  }

  /** The units in increasing order of size. */
  function UnitRank(u: SizeUnit): nat {
    match u
    case B => 0
    case KB => 1
    case MB => 2
  }

  /** A larger file never gets a smaller unit, and in the same unit never a smaller number. */
  lemma FormatSizeMonotone(a: int, b: int)
    requires a <= b
    ensures UnitRank(FormatSize(a).unit) <= UnitRank(FormatSize(b).unit)
    ensures FormatSize(a).unit == FormatSize(b).unit ==> FormatSize(a).amount <= FormatSize(b).amount
  {
  }

  /** Before rounding the label loses nothing: two sizes with the same label are the same size. */
  lemma FormatSizeInjective(a: int, b: int)
    requires FormatSize(a) == FormatSize(b)
    ensures a == b
  {
  }
}

=== FILE: product.dfy ===
/**
  The backend's product entity (package `product`): the product record, the
  inputs of create and update, the creation check, and how a stored row
  becomes a product. Timestamps are opaque integers supplied by the caller;
  the list columns hold JSON text, modelled by what that text decodes to.
 */
module ProductEntity {
  import opened Wrappers

  /** The errors of the product package. */
  datatype ProductError = NotFound | InvalidInput(reason: string)

  /** The text of an error, as `Error()` renders it. */
  function ErrorText(e: ProductError): (t: string)
    ensures e.InvalidInput? ==> t == "invalid input: " + e.reason
    ensures e.NotFound? ==> t == "product not found"
  {
    match e
    case NotFound => "product not found"
    case InvalidInput(reason) => "invalid input: " + reason
  }

  /** `Product`; prices are integer cents. */
  datatype Product = Product(
    id: int,
    name: string,
    description: string,
    price: int,
    category: string,
    images: seq<string>,
    tags: seq<string>,
    sizes: seq<string>,
    colors: seq<string>,
    gender: string,
    oversize: bool,
    featured: bool,
    createdAt: int,
    updatedAt: int,
    deletedAt: Option<int>)

  /** `CreateProductInput`; a missing JSON list decodes to the empty list. */
  datatype CreateProductInput = CreateProductInput(
    name: string,
    description: string,
    price: int,
    category: string,
    images: seq<string>,
    tags: seq<string>,
    sizes: seq<string>,
    colors: seq<string>,
    gender: string,
    oversize: bool,
    featured: bool)

  /** `UpdateProductInput`: `None` is a field the request left out. */
  datatype UpdateProductInput = UpdateProductInput(
    name: Option<string>,
    description: Option<string>,
    price: Option<int>,
    category: Option<string>,
    images: Option<seq<string>>,
    tags: Option<seq<string>>,
    sizes: Option<seq<string>>,
    colors: Option<seq<string>>,
    gender: Option<string>,
    oversize: Option<bool>,
    featured: Option<bool>)

  const NAME_REQUIRED: string := "name is required"
  const PRICE_POSITIVE: string := "price must be greater than 0"

  /** `CreateProductInput.Validate`: a name is required, then a positive price; `None` is success. */
  function Validate(input: CreateProductInput): (r: Option<ProductError>)
    ensures r.None? <==> input.name != "" && input.price > 0
    ensures input.name == "" ==> r == Some(InvalidInput(NAME_REQUIRED))
    ensures input.name != "" && input.price <= 0 ==> r == Some(InvalidInput(PRICE_POSITIVE))
  {
    if input.name == "" then Some(InvalidInput(NAME_REQUIRED))
    else if input.price <= 0 then Some(InvalidInput(PRICE_POSITIVE))
    else None
  }

  /** A list column: SQL NULL, empty text, a JSON list of strings, JSON `null`, or text that is not a list of strings. */
  datatype ListColumn = SqlNull | EmptyText | JsonList(items: seq<string>) | JsonNull | Malformed

  /** A row of the `products` table; NULL-able columns are options. */
  datatype Row = Row(
    id: int,
    name: string,
    description: string,
    price: int,
    category: string,
    images: ListColumn,
    tags: ListColumn,
    sizes: ListColumn,
    colors: ListColumn,
    gender: Option<string>,
    oversize: Option<int>,
    featured: Option<int>,
    createdAt: int,
    updatedAt: int,
    deletedAt: Option<int>)

  /** A list column as `scanProduct` reads it: the decoded list, and the empty list for anything else. */
  function DecodeList(c: ListColumn): (items: seq<string>)
    ensures c.JsonList? ==> items == c.items
    ensures !c.JsonList? ==> items == []
  {
    if c.JsonList? then c.items else []
  }

  /** A flag column: true exactly when it holds 1; NULL and every other number read as false. */
  function DecodeFlag(c: Option<int>): (b: bool)
    ensures b <==> c == Some(1)
  {
    c.Some? && c.value == 1
  }

  /** How a flag is written: 1 or 0. */
  function EncodeFlag(b: bool): (c: Option<int>)
    ensures DecodeFlag(c) == b
  {
    Some(if b then 1 else 0)
  }

  /** `scanProduct` on a row that scans: lists default to empty, a NULL gender to "", flags from their integers. */
  function Scan(row: Row): (p: Product)
    ensures p.id == row.id && p.name == row.name && p.price == row.price
    ensures p.description == row.description && p.category == row.category
    ensures p.createdAt == row.createdAt && p.updatedAt == row.updatedAt
    ensures p.images == DecodeList(row.images) && p.tags == DecodeList(row.tags)
    ensures p.sizes == DecodeList(row.sizes) && p.colors == DecodeList(row.colors)
    ensures p.gender == row.gender.GetOr("")
    ensures p.oversize == DecodeFlag(row.oversize) && p.featured == DecodeFlag(row.featured)
    ensures p.deletedAt == row.deletedAt
  {
    Product(row.id, row.name, row.description, row.price, row.category,
      DecodeList(row.images), DecodeList(row.tags), DecodeList(row.sizes), DecodeList(row.colors),
      row.gender.GetOr(""), DecodeFlag(row.oversize), DecodeFlag(row.featured),
      row.createdAt, row.updatedAt, row.deletedAt)
  }

  /** The row the repository's `Create` inserts for an input, under a given id and time. */
  function NewRow(input: CreateProductInput, id: int, now: int): (row: Row)
    ensures row.id == id && row.deletedAt.None? && row.createdAt == now && row.updatedAt == now
  {
    Row(id, input.name, input.description, input.price, input.category,
      JsonList(input.images), JsonList(input.tags), JsonList(input.sizes), JsonList(input.colors),
      Some(input.gender), EncodeFlag(input.oversize), EncodeFlag(input.featured), now, now, None)
  }

  /** The product carries exactly the input's fields. */
  predicate HasInput(p: Product, input: CreateProductInput) {
    && p.name == input.name && p.description == input.description && p.price == input.price
    && p.category == input.category && p.images == input.images && p.tags == input.tags
    && p.sizes == input.sizes && p.colors == input.colors && p.gender == input.gender
    && p.oversize == input.oversize && p.featured == input.featured
  }

  /** Writing an input and scanning the row back gives the input's fields unchanged. */
  lemma ScanNewRow(input: CreateProductInput, id: int, now: int)
    ensures var p := Scan(NewRow(input, id, now));
      HasInput(p, input) && p.id == id && p.createdAt == now && p.updatedAt == now && p.deletedAt.None?
  {
  }

  /** Rows written before the later columns existed still scan: no lists, no gender, no flags. */
  lemma ScanLegacyRow(row: Row)
    requires row.images.SqlNull? && row.tags.SqlNull? && row.sizes.SqlNull? && row.colors.SqlNull?
    requires row.gender.None? && row.oversize.None? && row.featured.None?
    ensures var p := Scan(row);
      p.images == [] && p.tags == [] && p.sizes == [] && p.colors == [] && p.gender == ""
      && !p.oversize && !p.featured
  {
  }
}

=== FILE: product_form.dfy ===
/**
  The admin product form (`ProductForm`): the upload list it starts from,
  the editable colour list, the size checkboxes, and the cleaning done on
  submit before the data reaches the caller. Form state handling and
  rendering belong to the form library and are not modelled.
 */
module ProductForm {
  import opened Wrappers
  import Seqs
  import Strings
  import Catalog
  import ImageUpload

  /** The form's default values when no initial data is given. */
  const DEFAULT_FORM_DATA: Catalog.ProductFormData :=
    Catalog.ProductFormData("", "", 0.0, [""], None, [], [""], "Hombre", "Casual", false, false)

  /** `useForm`'s `defaultValues`: the initial data when given, else the defaults. */
  function DefaultValues(initialData: Option<Catalog.ProductFormData>): (r: Catalog.ProductFormData)
    ensures initialData.Some? ==> r == initialData.value
    ensures initialData.None? ==> r.gender == "Hombre" && r.category == "Casual" && r.colors == [""] && r.sizes == []
  {
    initialData.GetOr(DEFAULT_FORM_DATA)
  }

  /** The upload list the form starts with: one finished entry per stored URL, without a file. */
  function InitialImages(initialData: Option<Catalog.ProductFormData>): (r: seq<ImageUpload.UploadedImage>)
    ensures initialData.None? ==> r == []
    ensures initialData.Some? ==> |r| == |initialData.value.images| && forall i :: 0 <= i < |r| ==>
      r[i] == ImageUpload.UploadedImage(None, initialData.value.images[i], 100, None, false)
  {
    if initialData.None? then []
    else Seqs.Map(initialData.value.images, (url: string) => ImageUpload.UploadedImage(None, url, 100, None, false))
  }

  /** `addColorField`: one more, empty, colour input at the end. */
  function AddColorField(colors: seq<string>): (r: seq<string>)
    ensures |r| == |colors| + 1 && r[..|colors|] == colors && r[|colors|] == ""
  {
    colors + [""]
  }

  /** `removeColorField`: drops the input at `index`; the list never becomes empty. */
  function RemoveColorField(colors: seq<string>, index: int): (r: seq<string>)
    ensures |r| >= 1
    ensures 0 <= index < |colors| && |colors| > 1 ==> r == colors[..index] + colors[index + 1..]
    ensures 0 <= index < |colors| && |colors| == 1 ==> r == [""]
    ensures !(0 <= index < |colors|) && |colors| > 0 ==> r == colors
  {
    var rest := Seqs.RemoveIndex(colors, index);
    if |rest| > 0 then rest else [""]
  }

  /** Removing the input just added restores a non-empty colour list. */
  lemma RemoveUndoesAddColor(colors: seq<string>)
    requires |colors| > 0
    ensures RemoveColorField(AddColorField(colors), |colors|) == colors
  {
    assert AddColorField(colors)[..|colors|] == colors;
  }

  /** A size checkbox: checking appends the size, unchecking removes every copy of it. */
  function ToggleSize(sizes: seq<string>, size: string, checked: bool): (r: seq<string>)
    ensures checked ==> r == sizes + [size]
    ensures !checked ==> size !in r && Seqs.IsSubsequence(r, sizes)
    ensures !checked ==> forall i :: 0 <= i < |sizes| && sizes[i] != size ==> sizes[i] in r
    ensures !checked ==> forall x :: multiset(r)[x] == if x == size then 0 else multiset(sizes)[x]
  {
    if checked then sizes + [size]
    else
      var keep := (s: string) => s != size;
      Seqs.FilterCounts(sizes, keep);
      Seqs.Filter(sizes, keep)
  }

  /** Unchecking a size that was not selected before it was checked gives back the earlier list. */
  lemma UncheckUndoesCheck(sizes: seq<string>, size: string)
    requires size !in sizes
    ensures ToggleSize(ToggleSize(sizes, size, true), size, false) == sizes
  {
    var p := (s: string) => s != size;
    assert ToggleSize(sizes + [size], size, false) == Seqs.Filter(sizes + [size], p);
    Seqs.FilterSnoc(sizes, size, p);
    Seqs.FilterAll(sizes, p);
  }

  /** An upload entry the form submits: it has a URL and no error message. */
  predicate Usable(img: ImageUpload.UploadedImage) {
    img.url != "" && !Catalog.Truthy(img.error)
  }

  function Url(img: ImageUpload.UploadedImage): string {
    img.url
  }

  /** The URLs the form submits: those of the usable entries, in list order. */
  function ImageUrls(images: seq<ImageUpload.UploadedImage>): (urls: seq<string>)
    ensures |urls| == Seqs.CountIf(images, Usable)
    ensures forall i :: 0 <= i < |urls| ==> urls[i] != ""
    ensures forall i :: 0 <= i < |images| && Usable(images[i]) ==> images[i].url in urls
  {
    var kept := Seqs.Filter(images, Usable);
    var urls := Seqs.Map(kept, Url);
    assert forall i :: 0 <= i < |kept| ==> kept[i].url in urls by {
      forall i | 0 <= i < |kept| ensures kept[i].url in urls {
        assert urls[i] == kept[i].url;
      }
    }
    urls
  }

  /** A colour field is kept on submit when it is not blank. */
  predicate KeepColor(color: string) {
    Strings.Trim(color) != ""
  }

  /** One more entry at the end adds its URL at the end exactly when it is usable, so the URLs keep the entries' order. */
  lemma ImageUrlsSnoc(images: seq<ImageUpload.UploadedImage>, img: ImageUpload.UploadedImage)
    ensures ImageUrls(images + [img]) == ImageUrls(images) + (if Usable(img) then [img.url] else [])
  {
    Seqs.FilterSnoc(images, img, Usable);
    var kept := Seqs.Filter(images, Usable);
    var more := kept + (if Usable(img) then [img] else []);
    assert Seqs.Map(more, Url) == Seqs.Map(kept, Url) + (if Usable(img) then [img.url] else []);
  }

  /** The colours submitted: the entries that are not blank, in order. */
  function CleanColors(colors: seq<string>): (r: seq<string>)
    ensures forall i :: 0 <= i < |r| ==> !Strings.IsBlank(r[i])
    ensures forall i :: 0 <= i < |colors| && !Strings.IsBlank(colors[i]) ==> colors[i] in r
    ensures Seqs.IsSubsequence(r, colors)
    ensures forall x :: multiset(r)[x] == if Strings.IsBlank(x) then 0 else multiset(colors)[x]
  {
    var r := Seqs.Filter(colors, KeepColor);
    forall i | 0 <= i < |r| ensures !Strings.IsBlank(r[i]) {
      Strings.TrimEmptyIffBlank(r[i]);
    }
    forall i | 0 <= i < |colors| && !Strings.IsBlank(colors[i]) ensures colors[i] in r {
      Strings.TrimEmptyIffBlank(colors[i]);
    }
    Seqs.FilterCounts(colors, KeepColor);
    forall x ensures multiset(r)[x] == if Strings.IsBlank(x) then 0 else multiset(colors)[x] {
      Strings.TrimEmptyIffBlank(x);
    }
    r
  }

  /** `handleFormSubmit`: `None` when no usable image is left (nothing is submitted), else the cleaned data. */
  function Submit(data: Catalog.ProductFormData, uploaded: seq<ImageUpload.UploadedImage>): (r: Option<Catalog.ProductFormData>)
    ensures r.None? <==> forall i :: 0 <= i < |uploaded| ==> !Usable(uploaded[i])
    ensures r.Some? ==>
      && r.value.images == ImageUrls(uploaded)
      && r.value.colors == CleanColors(data.colors)
      && r.value == data.(images := r.value.images, colors := r.value.colors)
  {
    var urls := ImageUrls(uploaded);
    if |urls| == 0 then
      assert forall i :: 0 <= i < |uploaded| ==> !Usable(uploaded[i]);
      None
    else
      assert urls[0] in urls;
      Some(data.(images := urls, colors := CleanColors(data.colors)))
  }

  /**
    Editing a product and saving it unchanged submits the product as it was:
    its stored URLs come back as finished entries, and colours none of which
    is blank are kept as they are.
   */
  lemma EditResubmit(p: Catalog.ProductFormData)
    requires |p.images| > 0 && forall i :: 0 <= i < |p.images| ==> p.images[i] != ""
    requires forall i :: 0 <= i < |p.colors| ==> !Strings.IsBlank(p.colors[i])
    ensures Submit(DefaultValues(Some(p)), InitialImages(Some(p))) == Some(p)
  {
    var imgs := InitialImages(Some(p));
    assert Usable(imgs[0]);
    Seqs.FilterAll(imgs, Usable);
    assert Seqs.Map(imgs, Url) == p.images;
    forall i | 0 <= i < |p.colors| ensures KeepColor(p.colors[i]) {
      Strings.TrimEmptyIffBlank(p.colors[i]);
    }
    Seqs.FilterAll(p.colors, KeepColor);
  }
}

=== FILE: product_grid.dfy ===
/**
  The catalogue grid (`ProductGrid`): it shows the first `displayCount`
  products and a "load more" button naming how many remain; each press
  shows up to `productsPerPage` more. The count starts at
  `productsPerPage`, which defaults to 12.
 */
module ProductGrid {
  import opened Wrappers

  const DEFAULT_PER_PAGE: int := 12

  function Min(a: int, b: int): int {
    if a <= b then a else b
  }

  /** The end index `Array.prototype.slice(0, end)` uses: negative ends count from the back, and both are clamped. */
  function SliceEnd(end: int, len: nat): (e: nat)
    ensures e <= len
    ensures 0 <= end <= len ==> e == end
    ensures end > len ==> e == len
    ensures end < 0 ==> e == if len + end < 0 then 0 else len + end
  {
    if end < 0 then (if len + end < 0 then 0 else len + end)
    else Min(end, len)
  }

  /** What the grid renders: the empty state, or the shown products and, while some are hidden, how many. */
  datatype View<T> = EmptyState | Page(shown: seq<T>, remaining: Option<int>)

  /** `hasMore`. */
  predicate HasMore(displayCount: int, len: nat) {
    displayCount < len
  }

  /** The rendered grid for a list of products and the current count. */
  function Render<T>(products: seq<T>, displayCount: int): (v: View<T>)
    ensures |products| == 0 <==> v.EmptyState?
    ensures v.Page? ==> v.shown == products[..SliceEnd(displayCount, |products|)]
    ensures v.Page? && 0 <= displayCount ==> |v.shown| == Min(displayCount, |products|)
    ensures v.Page? ==> (v.remaining.Some? <==> displayCount < |products|)
    ensures v.Page? && v.remaining.Some? ==> v.remaining.value == |products| - displayCount
  {
    if |products| == 0 then EmptyState
    else
      Page(products[..SliceEnd(displayCount, |products|)],
           if HasMore(displayCount, |products|) then Some(|products| - displayCount) else None)
  }

  /** `loadMore`: up to a page more, never past the end. */
  function LoadMore(displayCount: int, perPage: int, len: nat): (r: int)
    ensures r <= len
    ensures r <= displayCount + perPage
    ensures r == displayCount + perPage || r == len
  {
    Min(displayCount + perPage, len)
  }

  /** While products are hidden, a press with a positive page size shows more, and the earlier ones stay first. */
  lemma LoadMoreExtends<T>(products: seq<T>, displayCount: int, perPage: int)
    requires 0 <= displayCount < |products| && perPage > 0
    ensures var r := LoadMore(displayCount, perPage, |products|);
      && displayCount < r <= |products|
      && Render(products, displayCount).shown <= Render(products, r).shown
  {
  }

  /** The count after `clicks` presses of the button, starting from one page. */
  function AfterClicks(perPage: int, len: nat, clicks: nat): (r: int)
    ensures clicks > 0 ==> r <= len
  {
    if clicks == 0 then perPage else LoadMore(AfterClicks(perPage, len, clicks - 1), perPage, len)
  }

  /** After `k` presses the grid shows `(k + 1)` pages, or everything. */
  lemma {:induction false} AfterClicksPages(perPage: int, len: nat, clicks: nat)
    requires 0 < perPage <= len
    ensures AfterClicks(perPage, len, clicks) == Min((clicks + 1) * perPage, len)
  {
    if clicks > 0 {
      AfterClicksPages(perPage, len, clicks - 1);
      assert (clicks + 1) * perPage == clicks * perPage + perPage;
    }
  }

  /** Once `k + 1` pages cover the list, the button is gone and every product is shown. */
  lemma AllShownAfter<T>(products: seq<T>, perPage: int, clicks: nat)
    requires 0 < perPage <= |products|
    requires (clicks + 1) * perPage >= |products|
    ensures Render(products, AfterClicks(perPage, |products|, clicks)) == Page(products, None)
  {
    AfterClicksPages(perPage, |products|, clicks);
  }
}

=== FILE: product_handler.dfy ===
/**
  The product HTTP handlers (`ProductHandler`): query and path parsing, the
  pagination block of the list reply, and how each outcome of the service
  becomes a status. A request body is given already decoded, `None` standing
  for a body that does not decode.
 */
module ProductHandler {
  import opened Wrappers
  import Strings
  import opened ProductEntity
  import opened ProductRepository
  import ProductService
  import opened WebResponse

  const DEFAULT_LIMIT: int := 20
  const MAX_LIMIT: int := 100

  /** The `page` parameter: Go's `Atoi` value, dropping its error; anything below 1 is 1. */
  function ParsePage(raw: string): (page: int)
    ensures page >= 1
    ensures Strings.Atoi(raw).Value() >= 1 ==> page == Strings.Atoi(raw).Value()
    ensures Strings.Atoi(raw).Value() < 1 ==> page == 1
  {
    var p := Strings.Atoi(raw).Value();
    if p < 1 then 1 else p
  }

  /** The `limit` parameter: nothing or a non-positive value gives 20, anything above 100 is 100. */
  function ParseLimit(raw: string): (limit: int)
    ensures 1 <= limit <= MAX_LIMIT
    ensures Strings.Atoi(raw).Value() <= 0 ==> limit == DEFAULT_LIMIT
    ensures Strings.Atoi(raw).Value() > MAX_LIMIT ==> limit == MAX_LIMIT
    ensures 1 <= Strings.Atoi(raw).Value() <= MAX_LIMIT ==> limit == Strings.Atoi(raw).Value()
  {
    var l := Strings.Atoi(raw).Value();
    if l <= 0 then DEFAULT_LIMIT else if l > MAX_LIMIT then MAX_LIMIT else l
  }

  /** The page count: the ceiling of `total / limit`, with Go's truncating division on a non-negative total. */
  function Pages(total: nat, limit: int): (pages: nat)
    requires limit >= 1
    ensures total == 0 ==> pages == 0
    ensures total > 0 ==> (pages - 1) * limit < total <= pages * limit
  {
    CeilDiv(total, limit);
    (total + limit - 1) / limit
  }

  /** `(total + limit - 1) / limit` is the least number of pages of `limit` that hold `total`. */
  lemma CeilDiv(total: nat, limit: int)
    requires limit >= 1
    ensures var pages := (total + limit - 1) / limit;
      && pages >= 0
      && (total == 0 ==> pages == 0)
      && (total > 0 ==> (pages - 1) * limit < total <= pages * limit)
  {
    var n := total + limit - 1;
    var q := n / limit;
    var r := n % limit;
    assert n == q * limit + r && 0 <= r < limit;
    assert q * limit == n - r;
    assert (q - 1) * limit == n - r - limit;
  }

  /** The query string of `GET /api/products`; an absent parameter reads as "". */
  datatype ListQuery = ListQuery(page: string, limit: string, search: string, category: string, sort: string, order: string)

  /** The `pagination` object of the list reply. */
  datatype Pagination = Pagination(page: int, limit: int, total: int, pages: int)

  /** The data of a reply; a `None` product list is encoded as JSON `null`. */
  datatype Payload = ProductList(products: Option<seq<Product>>, pagination: Pagination) | OneProduct(product: Product)

  /** The filters the handler hands to the service. */
  function ListFilters(q: ListQuery): (f: GetAllFilters)
    ensures f.page >= 1 && 1 <= f.limit <= MAX_LIMIT
    ensures f.search == q.search && f.category == q.category && f.sort == q.sort && f.order == q.order
  {
    GetAllFilters(ParsePage(q.page), ParseLimit(q.limit), q.search, q.category, q.sort, q.order)
  }

  /** `GetProducts`: one page of the listing and its pagination figures. */
  function GetProducts(t: Table, q: ListQuery): (r: Reply<Payload>)
    requires Valid(t)
    ensures r.status == STATUS_OK && r.body.Some? && r.body.value.data.Some?
    ensures var d := r.body.value.data.value;
      && d.ProductList?
      && d.products == NilWhenEmpty(GetAll(t, ListFilters(q)).products)
      && d.pagination.total == |Matching(t, ListFilters(q))|
      && d.pagination.page == ParsePage(q.page) && d.pagination.limit == ParseLimit(q.limit)
      && d.pagination.pages == Pages(d.pagination.total, d.pagination.limit)
  {
    var f := ListFilters(q);
    var listing := ProductService.GetProducts(t, f);
    RespondOK(ProductList(NilWhenEmpty(listing.products), Pagination(f.page, f.limit, listing.total, Pages(listing.total, f.limit))))
  }

  /** The limit the handler reports is the one the repository pages by, so `pages` counts the pages the listing really has: a page exists exactly when its first row does. */
  lemma ListPagesAgree(t: Table, q: ListQuery)
    requires Valid(t)
    ensures var f := ListFilters(q);
      var d := GetProducts(t, q).body.value.data.value;
      && NormalizeLimit(f.limit) == d.pagination.limit
      && (d.pagination.page <= d.pagination.pages <==> Offset(f.page, f.limit) < d.pagination.total)
  {
    var f := ListFilters(q);
    PageExists(f.page, f.limit, |Matching(t, f)|);
  }

  /** Page `page` of `limit` rows starts inside `total` rows exactly when it is among the first `Pages(total, limit)`. */
  lemma PageExists(page: int, limit: int, total: nat)
    requires page >= 1 && limit >= 1
    ensures page <= Pages(total, limit) <==> Offset(page, limit) < total
  {
    var pages := Pages(total, limit);
    if total > 0 {
      if page <= pages {
        MulMonotone(page - 1, pages - 1, limit);
      } else {
        MulMonotone(pages, page - 1, limit);
      }
    }
  }

  lemma MulMonotone(a: int, b: int, c: int)
    requires 0 <= a <= b && c >= 0
    ensures a * c <= b * c
  {
  }

  /** A path id as `strconv.ParseInt(s, 10, 64)` reads it. */
  function ParseId(raw: string): (id: Option<int>)
    ensures id.Some? <==> Strings.Atoi(raw).Parsed?
    ensures id.Some? ==> id.value == Strings.Atoi(raw).n
  {
    var p := Strings.Atoi(raw);
    if p.Parsed? then Some(p.n) else None
  }

  /** The handler that met a service error. */
  datatype Operation = GetOne | CreateOne | UpdateOne | DeleteOne

  /** How a service error becomes a reply: a missing product is 404 except on create; other errors are 500 on reads and deletes and 400 with the error's text on writes. */
  function ErrorReply(op: Operation, e: ProductError): (r: Reply<Payload>)
    ensures e.NotFound? && op != CreateOne ==> r == RespondNotFound("product not found")
    ensures op == CreateOne ==> r == RespondBadRequest(ErrorText(e))
    ensures op == UpdateOne && !e.NotFound? ==> r == RespondBadRequest(ErrorText(e))
    ensures op == GetOne && !e.NotFound? ==> r == RespondInternalError("failed to get product")
    ensures op == DeleteOne && !e.NotFound? ==> r == RespondInternalError("failed to delete product")
  {
    if e.NotFound? && op != CreateOne then RespondNotFound("product not found")
    else match op
      case CreateOne => RespondBadRequest(ErrorText(e))
      case UpdateOne => RespondBadRequest(ErrorText(e))
      case GetOne => RespondInternalError("failed to get product")
      case DeleteOne => RespondInternalError("failed to delete product")
  }

  /** The table after a handler ran and the reply it wrote. */
  datatype Handled = Handled(table: Table, reply: Reply<Payload>)

  const INVALID_ID: string := "invalid product ID"
  const INVALID_BODY: string := "invalid request body"

  /** `GetProduct`. */
  function GetProduct(t: Table, rawId: string): (r: Reply<Payload>)
    ensures ParseId(rawId).None? ==> r == RespondBadRequest(INVALID_ID)
    ensures ParseId(rawId).Some? ==>
      var found := GetByID(t, ParseId(rawId).value);
      && (found.Ok? ==> r == RespondOK(OneProduct(found.value)))
      && (found.Err? ==> r == ErrorReply(GetOne, found.error))
  {
    var id := ParseId(rawId);
    if id.None? then RespondBadRequest(INVALID_ID)
    else
      var found := ProductService.GetProduct(t, id.value);
      if found.Err? then ErrorReply(GetOne, found.error) else RespondOK(OneProduct(found.value))
  }

  /** `CreateProduct`: 400 for a body that does not decode or an input that fails validation, else 201. */
  function CreateProduct(t: Table, body: Option<CreateProductInput>, now: int): (h: Handled)
    requires Valid(t)
    ensures Valid(h.table)
    ensures body.None? ==> h == Handled(t, RespondBadRequest(INVALID_BODY))
    ensures body.Some? ==>
      var w := ProductService.CreateProduct(t, body.value, now);
      && h.table == w.table
      && (w.result.Ok? ==> h.reply == RespondCreated(OneProduct(w.result.value)))
      && (w.result.Err? ==> h.reply == ErrorReply(CreateOne, w.result.error))
  {
    if body.None? then Handled(t, RespondBadRequest(INVALID_BODY))
    else
      var w := ProductService.CreateProduct(t, body.value, now);
      Handled(w.table, if w.result.Ok? then RespondCreated(OneProduct(w.result.value)) else ErrorReply(CreateOne, w.result.error))
  }

  /** `UpdateProduct`: the id is checked before the body. */
  function UpdateProduct(t: Table, rawId: string, body: Option<UpdateProductInput>, now: int): (h: Handled)
    requires Valid(t)
    ensures Valid(h.table)
    ensures ParseId(rawId).None? ==> h == Handled(t, RespondBadRequest(INVALID_ID))
    ensures ParseId(rawId).Some? && body.None? ==> h == Handled(t, RespondBadRequest(INVALID_BODY))
    ensures ParseId(rawId).Some? && body.Some? ==>
      var w := ProductService.UpdateProduct(t, ParseId(rawId).value, body.value, now);
      && h.table == w.table
      && (w.result.Ok? ==> h.reply == RespondOK(OneProduct(w.result.value)))
      && (w.result.Err? ==> h.reply == ErrorReply(UpdateOne, w.result.error))
  {
    var id := ParseId(rawId);
    if id.None? then Handled(t, RespondBadRequest(INVALID_ID))
    else if body.None? then Handled(t, RespondBadRequest(INVALID_BODY))
    else
      var w := ProductService.UpdateProduct(t, id.value, body.value, now);
      Handled(w.table, if w.result.Ok? then RespondOK(OneProduct(w.result.value)) else ErrorReply(UpdateOne, w.result.error))
  }

  /** `DeleteProduct`: 204 with no body on success. */
  function DeleteProduct(t: Table, rawId: string, now: int): (h: Handled)
    requires Valid(t)
    ensures Valid(h.table)
    ensures ParseId(rawId).None? ==> h == Handled(t, RespondBadRequest(INVALID_ID))
    ensures ParseId(rawId).Some? ==>
      var w := ProductService.DeleteProduct(t, ParseId(rawId).value, now);
      && h.table == w.table
      && (w.result.Ok? ==> h.reply == RespondNoContent())
      && (w.result.Err? ==> h.reply == ErrorReply(DeleteOne, w.result.error))
  {
    var id := ParseId(rawId);
    if id.None? then Handled(t, RespondBadRequest(INVALID_ID))
    else
      var w := ProductService.DeleteProduct(t, id.value, now);
      Handled(w.table, if w.result.Ok? then RespondNoContent() else ErrorReply(DeleteOne, w.result.error))
  }

  /** The status of each handler, by what went wrong: a rejected request changes nothing. */
  lemma StatusTable(t: Table, rawId: string, c: Option<CreateProductInput>, u: Option<UpdateProductInput>, now: int)
    requires Valid(t)
    ensures ParseId(rawId).None? ==>
      && GetProduct(t, rawId).status == STATUS_BAD_REQUEST
      && UpdateProduct(t, rawId, u, now) == Handled(t, RespondBadRequest(INVALID_ID))
      && DeleteProduct(t, rawId, now) == Handled(t, RespondBadRequest(INVALID_ID))
    ensures ParseId(rawId).Some? && GetByID(t, ParseId(rawId).value).Err? ==>
      && GetProduct(t, rawId).status == STATUS_NOT_FOUND
      && DeleteProduct(t, rawId, now) == Handled(t, RespondNotFound("product not found"))
    ensures c.Some? ==> (CreateProduct(t, c, now).reply.status == STATUS_CREATED <==> Validate(c.value).None?)
    ensures c.Some? && Validate(c.value).Some? ==> CreateProduct(t, c, now).table == t && CreateProduct(t, c, now).reply.status == STATUS_BAD_REQUEST
  {
  }

  /** A product created over HTTP is served back by `GET` on its decimal id, as long as the id fits in 64 bits. */
  lemma CreateThenGet(t: Table, input: CreateProductInput, now: int)
    requires Valid(t) && Validate(input).None? && NextId(t) <= Strings.INT64_MAX
    ensures var h := CreateProduct(t, Some(input), now);
      && h.reply.status == STATUS_CREATED
      && h.reply.body.value.data.value.OneProduct?
      && var p := h.reply.body.value.data.value.product;
      && HasInput(p, input)
      && GetProduct(h.table, Strings.IntToString(p.id)) == RespondOK(OneProduct(p))
  {
    Strings.AtoiIntToString(NextId(t));
  }

  /** After a `DELETE` answered 204, `GET`, `PUT` and `DELETE` on that id answer 404; a `PUT` with a non-positive price is turned away with 400 first. */
  lemma DeleteThenGone(t: Table, rawId: string, now: int, u: UpdateProductInput, later: int)
    requires Valid(t) && DeleteProduct(t, rawId, now).reply.status == STATUS_NO_CONTENT
    ensures var t' := DeleteProduct(t, rawId, now).table;
      && GetProduct(t', rawId).status == STATUS_NOT_FOUND
      && UpdateProduct(t', rawId, Some(u), later).reply.status
         == (if u.price.Some? && u.price.value <= 0 then STATUS_BAD_REQUEST else STATUS_NOT_FOUND)
      && DeleteProduct(t', rawId, later).reply.status == STATUS_NOT_FOUND
  {
    var id := ParseId(rawId).value;
    SoftDeleteHides(t, id, now, u, later);
  }

  /**
    A page with no product on it (an empty catalogue, a search without a
    match, a page past the end) is sent as `"products": null`, not as an
    empty array; every other page is sent as the array of its products.
   */
  lemma EmptyPageIsNull(t: Table, q: ListQuery)
    requires Valid(t)
    ensures var f := ListFilters(q);
      var d := GetProducts(t, q).body.value.data.value;
      d.products.None? <==> Offset(f.page, NormalizeLimit(f.limit)) >= |Matching(t, f)|
  {
  }
}

=== FILE: products_service.dfy ===
/**
  The frontend's product service (`productsService`): how a product record
  of the backend's JSON becomes the frontend's `Product`, the client-side
  narrowing of the listing endpoint's answer, the query it sends, the
  treatment of a missing product, and the payloads of create and update.
  The HTTP exchange itself is an input: each operation receives the
  response body, or the failure, it would have awaited.
 */
module ProductsService {
  import opened Wrappers
  import Seqs
  import Strings
  import Catalog

  /** A product record as the backend sends it; `None` is a null or absent JSON value. */
  datatype BackendProduct = BackendProduct(
    id: int,
    name: string,
    description: Option<string>,
    price: real,
    category: Option<string>,
    images: Option<seq<string>>,
    tags: Option<seq<string>>,
    sizes: Option<seq<string>>,
    colors: Option<seq<string>>,
    gender: Option<string>,
    oversize: Option<bool>,
    featured: Option<bool>,
    createdAt: Option<string>,
    updatedAt: Option<string>)

  /** The gender a product without one is given. */
  const DEFAULT_GENDER: string := "unisex"
  /** The page size `getAll` and `getFeatured` ask for. */
  const LIST_LIMIT: int := 100

  /** `transformProduct`: falsy strings and missing lists and flags get their defaults. */
  function Transform(b: BackendProduct): (p: Catalog.Product)
    ensures p.id == Strings.IntToString(b.id) && p.name == b.name && p.price == b.price
    ensures p.description == Catalog.OrElse(b.description, "") && p.category == Catalog.OrElse(b.category, "")
    ensures p.images == b.images.GetOr([])
    ensures p.tags == Some(b.tags.GetOr([])) && p.sizes == Some(b.sizes.GetOr([])) && p.colors == Some(b.colors.GetOr([]))
    ensures p.gender == Some(Catalog.OrElse(b.gender, DEFAULT_GENDER)) && p.gender.value != ""
    ensures p.oversize == Some(b.oversize == Some(true)) && p.featured == Some(b.featured == Some(true))
    ensures p.createdAt == b.createdAt && p.updatedAt == b.updatedAt
  {
    Catalog.Product(
      Strings.IntToString(b.id), b.name, Catalog.OrElse(b.description, ""), b.price,
      Catalog.OrElse(b.category, ""), b.images.GetOr([]), Some(b.tags.GetOr([])),
      Some(b.sizes.GetOr([])), Some(b.colors.GetOr([])), Some(Catalog.OrElse(b.gender, DEFAULT_GENDER)),
      Some(b.oversize == Some(true)), Some(b.featured == Some(true)), b.createdAt, b.updatedAt)
  }

  /** A complete record loses nothing: every field survives, and the numeric id is read back from its text. */
  lemma TransformKeepsCompleteRecord(b: BackendProduct)
    requires Strings.INT64_MIN <= b.id <= Strings.INT64_MAX
    requires Catalog.Truthy(b.description) && Catalog.Truthy(b.category) && Catalog.Truthy(b.gender)
    requires b.images.Some? && b.tags.Some? && b.sizes.Some? && b.colors.Some?
    requires b.oversize.Some? && b.featured.Some?
    ensures var p := Transform(b);
      && Strings.Atoi(p.id) == Strings.Parsed(b.id)
      && p.description == b.description.value && p.category == b.category.value
      && p.images == b.images.value && p.tags == b.tags && p.sizes == b.sizes && p.colors == b.colors
      && p.gender == b.gender && p.oversize == b.oversize && p.featured == b.featured
  {
    Strings.AtoiIntToString(b.id);
    assert (b.oversize == Some(true)) == b.oversize.value;
    assert (b.featured == Some(true)) == b.featured.value;
  }

  /** Every record of a non-null answer, transformed, in order. */
  function TransformAll(records: seq<BackendProduct>): (r: seq<Catalog.Product>)
    ensures |r| == |records|
    ensures forall i :: 0 <= i < |records| ==> r[i] == Transform(records[i])
  {
    Seqs.Map(records, Transform)
  }

  /** `p.featured` as a JavaScript condition. */
  predicate IsFeatured(p: Catalog.Product) {
    p.featured == Some(true)
  }

  /** `getFeatured`: the transformed products whose flag is set, in order. */
  function Featured(records: seq<BackendProduct>): (r: seq<Catalog.Product>)
    ensures forall i :: 0 <= i < |r| ==> IsFeatured(r[i])
    ensures Seqs.IsSubsequence(r, TransformAll(records))
  {
    Seqs.Filter(TransformAll(records), IsFeatured)
  }

  /** The record arrived with `featured: true`. */
  predicate IsFlagged(b: BackendProduct) {
    b.featured == Some(true)
  }

  /** `getFeatured` returns exactly the records that arrived with `featured: true`, transformed. */
  lemma FeaturedAreFlaggedRecords(records: seq<BackendProduct>)
    ensures Featured(records) == TransformAll(Seqs.Filter(records, IsFlagged))
  {
    Seqs.FilterMap(records, Transform, IsFeatured);
    Seqs.FilterCongruent(records, Seqs.Compose(Transform, IsFeatured), IsFlagged);
  }

  /** The filters a caller of `getFiltered` may give; `None` is an absent key. */
  datatype ServiceFilters = ServiceFilters(
    gender: Option<string>,
    category: Option<string>,
    oversize: Option<bool>,
    search: Option<string>,
    page: Option<int>,
    limit: Option<int>)

  /** The query string of the request; `None` is a parameter that is not sent. */
  datatype QueryParams = QueryParams(
    category: Option<string>,
    search: Option<string>,
    page: Option<int>,
    limit: Option<int>)

  /** A number given as a JavaScript condition: present and non-zero. */
  function TruthyNumber(n: Option<int>): (r: Option<int>)
    ensures r.Some? <==> n.Some? && n.value != 0
    ensures r.Some? ==> r == n
  {
    if n.Some? && n.value != 0 then n else None
  }

  /** A string given as a JavaScript condition: present and non-empty. */
  function TruthyString(s: Option<string>): (r: Option<string>)
    ensures r.Some? <==> Catalog.Truthy(s)
    ensures r.Some? ==> r == s
  {
    if Catalog.Truthy(s) then s else None
  }

  /** The parameters `getFiltered` sends: category, search, page and limit, each only when truthy; gender and oversize never. */
  function Params(f: ServiceFilters): (q: QueryParams)
    ensures q.category.Some? <==> Catalog.Truthy(f.category)
    ensures q.search.Some? <==> Catalog.Truthy(f.search)
    ensures q.page.Some? <==> f.page.Some? && f.page.value != 0
    ensures q.limit.Some? <==> f.limit.Some? && f.limit.value != 0
    ensures q.category.Some? ==> q.category == f.category
    ensures q.search.Some? ==> q.search == f.search
    ensures q.page.Some? ==> q.page == f.page
    ensures q.limit.Some? ==> q.limit == f.limit
  {
    QueryParams(TruthyString(f.category), TruthyString(f.search), TruthyNumber(f.page), TruthyNumber(f.limit))
  }

  /** The pagination block of the listing answer, which may be missing. */
  datatype Pagination = Pagination(total: int, pages: int)

  /** The `data` of the listing answer; `products` is `None` when the backend sent `null`. */
  datatype ListResponse = ListResponse(products: Option<seq<BackendProduct>>, pagination: Option<Pagination>)

  /**
    `getAll`, `getFeatured` and `search` once the answer is in: the records
    transformed in order, or `None` when `.map` is called on a `null` list
    and the call rejects with a type error.
   */
  function ListAll(response: ListResponse): (r: Option<seq<Catalog.Product>>)
    ensures r.None? <==> response.products.None?
    ensures r.Some? ==> |r.value| == |response.products.value|
    ensures r.Some? ==> forall i :: 0 <= i < |r.value| ==> r.value[i] == Transform(response.products.value[i])
  {
    match response.products
    case None => None
    case Some(records) => Some(TransformAll(records))
  }

  datatype FilteredResult = FilteredResult(products: seq<Catalog.Product>, total: Option<int>, pages: Option<int>)

  /** A transformed product passes the client-side filters: gender when truthy, oversize whenever given. */
  predicate ClientPasses(f: ServiceFilters, p: Catalog.Product) {
    && (Catalog.Truthy(f.gender) ==> p.gender == f.gender)
    && (f.oversize.Some? ==> p.oversize == f.oversize)
  }

  /** The gender step on the transformed answer. */
  function ByGender(ps: seq<Catalog.Product>, f: ServiceFilters): seq<Catalog.Product> {
    if Catalog.Truthy(f.gender) then Seqs.Filter(ps, GenderIs(f)) else ps
  }

  /** The oversize step on the transformed answer. */
  function ByOversize(ps: seq<Catalog.Product>, f: ServiceFilters): seq<Catalog.Product> {
    if f.oversize.Some? then Seqs.Filter(ps, OversizeIs(f)) else ps
  }

  /** The client-side narrowing of a list of records, with the pagination numbers of the answer. */
  function Narrow(f: ServiceFilters, records: seq<BackendProduct>, pagination: Option<Pagination>): (r: FilteredResult)
    ensures Seqs.IsSubsequence(r.products, TransformAll(records))
    ensures forall i :: 0 <= i < |r.products| ==> ClientPasses(f, r.products[i])
    ensures forall i :: 0 <= i < |records| && ClientPasses(f, Transform(records[i]))
              ==> Transform(records[i]) in r.products
    ensures r.total.Some? <==> pagination.Some?
    ensures pagination.Some? ==> r.total == Some(pagination.value.total) && r.pages == Some(pagination.value.pages)
  {
    var all := TransformAll(records);
    var filtered := ByOversize(ByGender(all, f), f);
    ClientSteps(all, f);
    FilteredResult(filtered,
      if pagination.Some? then Some(pagination.value.total) else None,
      if pagination.Some? then Some(pagination.value.pages) else None)
  }

  /**
    `getFiltered` once the answer is in, as written: the transformed products
    narrowed client-side and the pagination numbers, or `None` when the list
    is `null` and `.map` throws.
   */
  function Filtered(f: ServiceFilters, response: ListResponse): (r: Option<FilteredResult>)
    ensures r.None? <==> response.products.None?
    ensures r.Some? ==>
      && Seqs.IsSubsequence(r.value.products, TransformAll(response.products.value))
      && (forall i :: 0 <= i < |r.value.products| ==> ClientPasses(f, r.value.products[i]))
      && (forall i :: 0 <= i < |response.products.value| && ClientPasses(f, Transform(response.products.value[i]))
            ==> Transform(response.products.value[i]) in r.value.products)
      && (r.value.total.Some? <==> response.pagination.Some?)
      && (response.pagination.Some? ==>
            r.value.total == Some(response.pagination.value.total) && r.value.pages == Some(response.pagination.value.pages))
  {
    match response.products
    case None => None
    case Some(records) => Some(Narrow(f, records, response.pagination))
  }

  /**
    `getFiltered` reading a `null` list as the empty list it stands for:
    the same result as before on every array, and no products, with the
    answer's pagination, on `null`.
   */
  function FilteredFixed(f: ServiceFilters, response: ListResponse): (r: FilteredResult)
    ensures response.products.Some? ==> Filtered(f, response) == Some(r)
    ensures response.products.None? ==> r.products == [] && (r.total.Some? <==> response.pagination.Some?)
  {
    Narrow(f, response.products.GetOr([]), response.pagination)
  }

  /**
    The listing answer for a page with no product carries `"products": null`;
    as written, every listing call rejects on it instead of showing an empty
    page, while the corrected reading shows no products and keeps the
    pagination.
   */
  lemma NullListingRejected(f: ServiceFilters, total: int, pages: int)
    ensures var response := ListResponse(None, Some(Pagination(total, pages)));
      && Filtered(f, response).None? && ListAll(response).None?
      && FilteredFixed(f, response) == FilteredResult([], Some(total), Some(pages))
  {
    assert TransformAll([]) == [];
    ClientSteps([], f);
    Seqs.FilterAll([], ClientTest(f));
  }

  /** The test of both client-side steps. */
  function ClientTest(f: ServiceFilters): Catalog.Product -> bool {
    (p: Catalog.Product) => ClientPasses(f, p)
  }

  /** The test of the gender step. */
  function GenderIs(f: ServiceFilters): Catalog.Product -> bool {
    (p: Catalog.Product) => p.gender == f.gender
  }

  /** The test of the oversize step. */
  function OversizeIs(f: ServiceFilters): Catalog.Product -> bool {
    (p: Catalog.Product) => p.oversize == f.oversize
  }

  /** The two client-side steps are one filter by both tests. */
  lemma ClientSteps(ps: seq<Catalog.Product>, f: ServiceFilters)
    ensures ByOversize(ByGender(ps, f), f) == Seqs.Filter(ps, ClientTest(f))
  {
    if Catalog.Truthy(f.gender) && f.oversize.Some? {
      ClientBothSteps(ps, f);
    } else if Catalog.Truthy(f.gender) {
      SameTest(ps, GenderIs(f), ClientTest(f));
    } else if f.oversize.Some? {
      SameTest(ps, OversizeIs(f), ClientTest(f));
    } else {
      Seqs.FilterAll(ps, ClientTest(f));
    }
  }

  lemma ClientBothSteps(ps: seq<Catalog.Product>, f: ServiceFilters)
    requires Catalog.Truthy(f.gender) && f.oversize.Some?
    ensures Seqs.Filter(Seqs.Filter(ps, GenderIs(f)), OversizeIs(f)) == Seqs.Filter(ps, ClientTest(f))
  {
    Seqs.FilterFilter(ps, GenderIs(f), OversizeIs(f));
    SameTest(ps, Seqs.And(GenderIs(f), OversizeIs(f)), ClientTest(f));
  }

  /** Filters by two tests that agree everywhere are equal. */
  lemma SameTest(ps: seq<Catalog.Product>, p: Catalog.Product -> bool, q: Catalog.Product -> bool)
    requires forall x :: p(x) == q(x)
    ensures Seqs.Filter(ps, p) == Seqs.Filter(ps, q)
  {
    Seqs.FilterCongruent(ps, p, q);
  }

  /** A gender filter the backend never sees still narrows the answer: records without a gender only pass `unisex`. */
  lemma MissingGenderOnlyMatchesUnisex(f: ServiceFilters, b: BackendProduct)
    requires Catalog.Truthy(f.gender) && !Catalog.Truthy(b.gender)
    ensures ClientPasses(f, Transform(b)) ==> f.gender == Some(DEFAULT_GENDER)
  {
  }

  /** What the request for one product came back with. */
  datatype Fetch = Fetched(record: BackendProduct) | FetchFailed(status: Option<int>)

  /** `getById`: a 404 is "no such product"; any other failure is passed on unchanged. */
  function ById(outcome: Fetch): (r: Result<Option<Catalog.Product>, Option<int>>)
    ensures outcome.Fetched? ==> r == Ok(Some(Transform(outcome.record)))
    ensures outcome.FetchFailed? && outcome.status == Some(404) ==> r == Ok(None)
    ensures outcome.FetchFailed? && outcome.status != Some(404) ==> r == Err(outcome.status)
  {
    match outcome
    case Fetched(record) => Ok(Some(Transform(record)))
    case FetchFailed(status) => if status == Some(404) then Ok(None) else Err(status)
  }

  /** The body of a create or update request; `None` is a key left out of the JSON. */
  datatype Payload = Payload(
    name: string,
    description: string,
    price: real,
    category: string,
    images: seq<string>,
    tags: Option<seq<string>>,
    sizes: seq<string>,
    colors: seq<string>,
    gender: string,
    oversize: bool,
    featured: bool)

  /** The gender sent on create, with `unisex` for an empty one. */
  function GenderOrDefault(gender: string): (g: string)
    ensures g != ""
    ensures gender != "" ==> g == gender
  {
    if gender == "" then DEFAULT_GENDER else gender
  }

  /** The payload of `create`: missing tags become an empty list, an empty gender becomes `unisex`. */
  function CreatePayload(data: Catalog.ProductFormData): (p: Payload)
    ensures p.tags == Some(data.tags.GetOr([]))
    ensures p.gender == GenderOrDefault(data.gender)
    ensures p.name == data.name && p.description == data.description && p.price == data.price
    ensures p.category == data.category && p.images == data.images
    ensures p.sizes == data.sizes && p.colors == data.colors
    ensures p.oversize == data.oversize && p.featured == data.featured
  {
    Payload(data.name, data.description, data.price, data.category, data.images, Some(data.tags.GetOr([])),
      data.sizes, data.colors, GenderOrDefault(data.gender), data.oversize, data.featured)
  }

  /** The payload of `update`: like `create`, but the tags are sent only when the form has them. */
  function UpdatePayload(data: Catalog.ProductFormData): (p: Payload)
    ensures p.tags == data.tags
    ensures p.gender == GenderOrDefault(data.gender)
    ensures p.name == data.name && p.description == data.description && p.price == data.price
    ensures p.category == data.category && p.images == data.images
    ensures p.sizes == data.sizes && p.colors == data.colors
    ensures p.oversize == data.oversize && p.featured == data.featured
  {
    Payload(data.name, data.description, data.price, data.category, data.images, data.tags,
      data.sizes, data.colors, GenderOrDefault(data.gender), data.oversize, data.featured)
  }

  /** The two payloads differ only in the tags, and only when the form has none. */
  lemma PayloadsDifferOnlyInTags(data: Catalog.ProductFormData)
    ensures CreatePayload(data) == UpdatePayload(data).(tags := Some(data.tags.GetOr([])))
    ensures data.tags.Some? <==> CreatePayload(data) == UpdatePayload(data)
  {
  }

  /** `getById` yields a product exactly when the request succeeded, and hides only the 404 among failures. */
  lemma ByIdOutcomes(outcome: Fetch)
    ensures ById(outcome).Ok? && ById(outcome).value.Some? <==> outcome.Fetched?
    ensures ById(outcome).Ok? <==> outcome.Fetched? || outcome.status == Some(404)
  {
  }
}

=== FILE: repository.dfy ===
/**
  The SQLite product repository (`SQLiteRepository`) over an abstract table:
  the rows in rowid order, soft-deleted rows kept with their deletion time.
  Every query of the source is a function of the table; the statements that
  write return the new table with the result. `LIKE` is read as an ASCII
  case-insensitive substring test, and `ORDER BY` ties, which SQL leaves
  open, are broken by ascending id.
 */
module ProductRepository {
  import opened Wrappers
  import Seqs
  import Strings
  import opened ProductEntity

  type Table = seq<Row>

  /** Rowids are positive and strictly increasing, as SQLite keeps them. */
  predicate Valid(t: Table) {
    && (forall i :: 0 <= i < |t| ==> t[i].id > 0)
    && (forall i, j :: 0 <= i < j < |t| ==> t[i].id < t[j].id)
  }

  /** Not soft-deleted: `deleted_at IS NULL`. */
  predicate Visible(row: Row) {
    row.deletedAt.None?
  }

  /** The index of the visible row with that id, or -1. */
  function FindVisible(t: Table, id: int): (k: int)
    ensures -1 <= k < |t|
    ensures k >= 0 ==> t[k].id == id && Visible(t[k])
    ensures k == -1 ==> forall i :: 0 <= i < |t| ==> !(t[i].id == id && Visible(t[i]))
  {
    Seqs.FirstIndex(t, (row: Row) => row.id == id && Visible(row))
  }

  /** `GetByID`: the visible product with that id, or `ErrNotFound`. */
  function GetByID(t: Table, id: int): (r: Result<Product, ProductError>)
    ensures r.Ok? <==> exists i :: 0 <= i < |t| && t[i].id == id && Visible(t[i])
    ensures r.Err? ==> r.error == NotFound
    ensures r.Ok? ==> r.value.id == id && r.value.deletedAt.None?
  {
    var k := FindVisible(t, id);
    if k < 0 then Err(NotFound) else Ok(Scan(t[k]))
  }

  /** The rowid SQLite gives the next insert: one past the largest, since rows are never removed. */
  function NextId(t: Table): (id: int)
    requires Valid(t)
    ensures id > 0
    ensures forall i :: 0 <= i < |t| ==> t[i].id < id
  {
    if |t| == 0 then 1 else t[|t| - 1].id + 1
  }

  /** The table after a write and what the call returned. */
  datatype Written<T> = Written(table: Table, result: Result<T, ProductError>)

  /** `Create`: the row is appended under the next id and read back. */
  function Create(t: Table, input: CreateProductInput, now: int): (w: Written<Product>)
    requires Valid(t)
    ensures Valid(w.table)
    ensures |w.table| == |t| + 1 && w.table[..|t|] == t
    ensures w.result.Ok? && HasInput(w.result.value, input) && w.result.value.id == NextId(t)
    ensures w.result == GetByID(w.table, NextId(t))
  {
    var row := NewRow(input, NextId(t), now);
    var t' := t + [row];
    ScanNewRow(input, NextId(t), now);
    assert forall i :: 0 <= i < |t| ==> t'[i] == t[i] && t[i].id < row.id;
    assert t'[|t|] == row;
    Written(t', Ok(Scan(row)))
  }

  /** The row after an update: each given field replaced, `updated_at` set to the time of the update. */
  function ApplyUpdate(row: Row, input: UpdateProductInput, now: int): (r: Row)
    ensures r.id == row.id && r.createdAt == row.createdAt && r.deletedAt == row.deletedAt
  {
    Row(
      row.id,
      input.name.GetOr(row.name),
      input.description.GetOr(row.description),
      input.price.GetOr(row.price),
      input.category.GetOr(row.category),
      if input.images.Some? then JsonList(input.images.value) else row.images,
      if input.tags.Some? then JsonList(input.tags.value) else row.tags,
      if input.sizes.Some? then JsonList(input.sizes.value) else row.sizes,
      if input.colors.Some? then JsonList(input.colors.value) else row.colors,
      if input.gender.Some? then input.gender else row.gender,
      if input.oversize.Some? then EncodeFlag(input.oversize.value) else row.oversize,
      if input.featured.Some? then EncodeFlag(input.featured.value) else row.featured,
      row.createdAt,
      now,
      row.deletedAt)
  }

  /** `Update`: `ErrNotFound` for a missing or deleted id, otherwise the given fields change and the row is read back. */
  function Update(t: Table, id: int, input: UpdateProductInput, now: int): (w: Written<Product>)
    requires Valid(t)
    ensures Valid(w.table) && |w.table| == |t|
    ensures GetByID(t, id).Err? ==> w == Written(t, Err(NotFound))
    ensures GetByID(t, id).Ok? ==>
      var k := FindVisible(t, id);
      && w.table == t[k := ApplyUpdate(t[k], input, now)]
      && w.result == GetByID(w.table, id)
      && w.result == Ok(Scan(ApplyUpdate(t[k], input, now)))
  {
    var k := FindVisible(t, id);
    if k < 0 then Written(t, Err(NotFound))
    else
      var row := ApplyUpdate(t[k], input, now);
      var t' := t[k := row];
      assert forall i :: 0 <= i < |t| ==> t'[i].id == t[i].id;
      assert forall i :: 0 <= i < |t| && i != k ==> t'[i] == t[i];
      Written(t', Ok(Scan(row)))
  }

  /** `SoftDelete`: `ErrNotFound` for a missing or deleted id, otherwise the row gets its deletion time. */
  function SoftDelete(t: Table, id: int, now: int): (w: Written<()>)
    requires Valid(t)
    ensures Valid(w.table) && |w.table| == |t|
    ensures GetByID(t, id).Err? ==> w == Written(t, Err(NotFound))
    ensures GetByID(t, id).Ok? ==>
      var k := FindVisible(t, id);
      w == Written(t[k := t[k].(deletedAt := Some(now))], Ok(()))
  {
    var k := FindVisible(t, id);
    if k < 0 then Written(t, Err(NotFound))
    else Written(t[k := t[k].(deletedAt := Some(now))], Ok(()))
  }

  /** Reading back an updated product: each field the request gave has its new value, every other field its old one. */
  lemma UpdateThenGet(t: Table, id: int, input: UpdateProductInput, now: int)
    requires Valid(t) && GetByID(t, id).Ok?
    ensures var before := GetByID(t, id).value;
      var after := GetByID(Update(t, id, input, now).table, id);
      && after.Ok? && after.value.id == id
      && after.value.createdAt == before.createdAt && after.value.updatedAt == now
      && after.value.name == input.name.GetOr(before.name)
      && after.value.description == input.description.GetOr(before.description)
      && after.value.price == input.price.GetOr(before.price)
      && after.value.category == input.category.GetOr(before.category)
      && after.value.images == input.images.GetOr(before.images)
      && after.value.tags == input.tags.GetOr(before.tags)
      && after.value.sizes == input.sizes.GetOr(before.sizes)
      && after.value.colors == input.colors.GetOr(before.colors)
      && after.value.gender == input.gender.GetOr(before.gender)
      && after.value.oversize == input.oversize.GetOr(before.oversize)
      && after.value.featured == input.featured.GetOr(before.featured)
  {
  }

  /** After a soft delete the product is gone for reads, updates and deletes alike. */
  lemma SoftDeleteHides(t: Table, id: int, now: int, input: UpdateProductInput, later: int)
    requires Valid(t) && GetByID(t, id).Ok?
    ensures var t' := SoftDelete(t, id, now).table;
      && GetByID(t', id) == Err(NotFound)
      && Update(t', id, input, later) == Written(t', Err(NotFound))
      && SoftDelete(t', id, later) == Written(t', Err(NotFound))
  {
    var k := FindVisible(t, id);
    var t' := SoftDelete(t, id, now).table;
    forall i | 0 <= i < |t'|
      ensures !(t'[i].id == id && Visible(t'[i]))
    {
      if i != k {
        assert t'[i] == t[i];
        assert t[i].id != t[k].id;
      }
    }
  }

  /** A soft-deleted id is never handed out again. */
  lemma DeletedIdNotReused(t: Table, id: int, now: int, input: CreateProductInput, later: int)
    requires Valid(t) && GetByID(t, id).Ok?
    ensures var t' := SoftDelete(t, id, now).table;
      Create(t', input, later).result.value.id != id
  {
  }

  /** Writing one product leaves every other product as it was. */
  lemma WritesAreLocal(t: Table, id: int, other: int, input: UpdateProductInput, now: int)
    requires Valid(t) && other != id
    ensures GetByID(Update(t, id, input, now).table, other) == GetByID(t, other)
    ensures GetByID(SoftDelete(t, id, now).table, other) == GetByID(t, other)
  {
    var k := FindVisible(t, id);
    if k >= 0 {
      var t1 := Update(t, id, input, now).table;
      var t2 := SoftDelete(t, id, now).table;
      assert forall i :: 0 <= i < |t| && i != k ==> t1[i] == t[i] && t2[i] == t[i];
      assert t1[k].id == id && t2[k].id == id;
      LookupAgrees(t, t1, other, k);
      LookupAgrees(t, t2, other, k);
    }
  }

  /** Two tables that differ only at a row whose id is not `other` answer the same for `other`. */
  lemma LookupAgrees(t: Table, t': Table, other: int, k: int)
    requires |t| == |t'| && 0 <= k < |t| && t[k].id != other && t'[k].id != other
    requires forall i :: 0 <= i < |t| && i != k ==> t'[i] == t[i]
    ensures GetByID(t', other) == GetByID(t, other)
  {
    var a := FindVisible(t, other);
    var b := FindVisible(t', other);
    if a >= 0 && b >= 0 {
      assert a == b;
    }
  }

  // ---------------------------------------------------------------- listing

  /** `GetAllFilters`. */
  datatype GetAllFilters = GetAllFilters(page: int, limit: int, search: string, category: string, sort: string, order: string)

  datatype SortKey = ByName | ByPrice | ByCreatedAt

  /** The `ORDER BY` column: one of the three whitelisted names, anything else `created_at`. */
  function SortKeyOf(sort: string): (k: SortKey)
    ensures sort == "name" <==> k == ByName
    ensures sort == "price" <==> k == ByPrice
    ensures sort != "name" && sort != "price" ==> k == ByCreatedAt
  {
    if sort == "name" then ByName else if sort == "price" then ByPrice else ByCreatedAt
  }

  /** `ASC` only for exactly "asc"; `DESC` otherwise. */
  function Ascending(order: string): (asc: bool)
    ensures asc <==> order == "asc"
  {
    order == "asc"
  }

  const DEFAULT_LIMIT: int := 20
  const MAX_LIMIT: int := 100

  /** The page size: a limit outside 1..100 becomes 20. */
  function NormalizeLimit(limit: int): (l: int)
    ensures 1 <= l <= MAX_LIMIT
    ensures 1 <= limit <= MAX_LIMIT ==> l == limit
    ensures !(1 <= limit <= MAX_LIMIT) ==> l == DEFAULT_LIMIT
  {
    if limit <= 0 || limit > MAX_LIMIT then DEFAULT_LIMIT else limit
  }

  /** The rows skipped: `(page - 1) * limit` for pages after the first, 0 otherwise. */
  function Offset(page: int, limit: int): (o: int)
    requires limit >= 1
    ensures o >= 0
    ensures page <= 1 ==> o == 0
    ensures page > 1 ==> o == (page - 1) * limit && o >= limit
  {
    if page > 1 then (page - 1) * limit else 0
  }

  /** `name LIKE '%s%' OR description LIKE '%s%'`, case-insensitive for ASCII letters. */
  predicate SearchMatches(row: Row, search: string) {
    var needle := Strings.AsciiLower(search);
    Strings.Contains(Strings.AsciiLower(row.name), needle) || Strings.Contains(Strings.AsciiLower(row.description), needle)
  }

  /** The `WHERE` clause of both listing queries. */
  predicate Matches(row: Row, f: GetAllFilters) {
    && Visible(row)
    && (f.search != "" ==> SearchMatches(row, f.search))
    && (f.category != "" ==> row.category == f.category)
  }

  /** Lexicographic order on strings by character code, SQLite's default collation. */
  predicate StrLess(a: string, b: string)
    decreases |a|
  {
    if |a| == 0 then |b| > 0
    else if |b| == 0 then false
    else a[0] < b[0] || (a[0] == b[0] && StrLess(a[1..], b[1..]))
  }

  lemma {:induction false} StrLessIrreflexive(a: string)
    ensures !StrLess(a, a)
    decreases |a|
  {
    if |a| > 0 {
      StrLessIrreflexive(a[1..]);
    }
  }

  lemma {:induction false} StrLessTransitive(a: string, b: string, c: string)
    requires StrLess(a, b) && StrLess(b, c)
    ensures StrLess(a, c)
    decreases |a|
  {
    if |a| > 0 && |b| > 0 && |c| > 0 && a[0] == b[0] && b[0] == c[0] {
      StrLessTransitive(a[1..], b[1..], c[1..]);
    }
  }

  lemma {:induction false} StrLessTotal(a: string, b: string)
    ensures a == b || StrLess(a, b) || StrLess(b, a)
    decreases |a|
  {
    if |a| > 0 && |b| > 0 && a[0] == b[0] {
      StrLessTotal(a[1..], b[1..]);
      if a[1..] == b[1..] {
        assert a == [a[0]] + a[1..] && b == [b[0]] + b[1..];
      }
    }
  }

  lemma StrLessAsymmetric(a: string, b: string)
    requires StrLess(a, b)
    ensures !StrLess(b, a)
  {
    if StrLess(b, a) {
      StrLessTransitive(a, b, a);
      StrLessIrreflexive(a);
    }
  }

  /** The sort column of `a` is below that of `b`. */
  predicate KeyLess(k: SortKey, a: Row, b: Row) {
    match k
    case ByName => StrLess(a.name, b.name)
    case ByPrice => a.price < b.price
    case ByCreatedAt => a.createdAt < b.createdAt
  }

  /** The sort column of `a` equals that of `b`. */
  predicate KeySame(k: SortKey, a: Row, b: Row) {
    match k
    case ByName => a.name == b.name
    case ByPrice => a.price == b.price
    case ByCreatedAt => a.createdAt == b.createdAt
  }

  /** `a` comes before `b` in the listing: by the column in the requested direction, then by id. */
  predicate Precedes(k: SortKey, asc: bool, a: Row, b: Row) {
    || (asc && KeyLess(k, a, b))
    || (!asc && KeyLess(k, b, a))
    || (KeySame(k, a, b) && a.id < b.id)
  }

  lemma KeyFacts(k: SortKey, a: Row, b: Row, c: Row)
    ensures !KeyLess(k, a, a) && KeySame(k, a, a)
    ensures KeyLess(k, a, b) ==> !KeyLess(k, b, a) && !KeySame(k, a, b)
    ensures KeyLess(k, a, b) && KeyLess(k, b, c) ==> KeyLess(k, a, c)
    ensures KeyLess(k, a, b) && KeySame(k, b, c) ==> KeyLess(k, a, c)
    ensures KeySame(k, a, b) && KeyLess(k, b, c) ==> KeyLess(k, a, c)
    ensures KeySame(k, a, b) && KeySame(k, b, c) ==> KeySame(k, a, c)
    ensures KeySame(k, a, b) ==> KeySame(k, b, a)
    ensures KeyLess(k, a, b) || KeyLess(k, b, a) || KeySame(k, a, b)
  {
    if k == ByName {
      StrLessIrreflexive(a.name);
      StrLessTotal(a.name, b.name);
      if StrLess(a.name, b.name) {
        StrLessAsymmetric(a.name, b.name);
      }
      if StrLess(a.name, b.name) && StrLess(b.name, c.name) {
        StrLessTransitive(a.name, b.name, c.name);
      }
    }
  }

  lemma PrecedesTransitive(k: SortKey, asc: bool, a: Row, b: Row, c: Row)
    requires Precedes(k, asc, a, b) && Precedes(k, asc, b, c)
    ensures Precedes(k, asc, a, c)
  {
    KeyFacts(k, a, b, c);
    KeyFacts(k, c, b, a);
  }

  lemma PrecedesTotal(k: SortKey, asc: bool, a: Row, b: Row)
    requires a.id != b.id
    ensures Precedes(k, asc, a, b) || Precedes(k, asc, b, a)
  {
    KeyFacts(k, a, b, b);
  }

  /** Strictly ordered by `Precedes`. */
  predicate SortedBy(k: SortKey, asc: bool, s: seq<Row>) {
    forall i, j :: 0 <= i < j < |s| ==> Precedes(k, asc, s[i], s[j])
  }

  /** No two rows share an id. */
  predicate DistinctIds(s: seq<Row>) {
    forall i, j :: 0 <= i < j < |s| ==> s[i].id != s[j].id
  }

  /** Puts `x` in its place in a sorted list. */
  function Insert(k: SortKey, asc: bool, x: Row, s: seq<Row>): (r: seq<Row>)
    requires SortedBy(k, asc, s)
    requires forall i :: 0 <= i < |s| ==> s[i].id != x.id
    ensures SortedBy(k, asc, r)
    ensures multiset(r) == multiset(s) + multiset{x}
    ensures |r| == |s| + 1
  {
    if |s| == 0 then [x]
    else if Precedes(k, asc, x, s[0]) then
      PrecedesSorted(k, asc, x, s);
      SortedCons(k, asc, x, s);
      [x] + s
    else
      PrecedesTotal(k, asc, x, s[0]);
      var rest := Insert(k, asc, x, s[1..]);
      HeadPrecedesRest(k, asc, x, s, rest);
      SortedCons(k, asc, s[0], rest);
      assert s == [s[0]] + s[1..];
      [s[0]] + rest
  }

  /** A row before the head of a sorted list is before all of it. */
  lemma PrecedesSorted(k: SortKey, asc: bool, x: Row, s: seq<Row>)
    requires SortedBy(k, asc, s) && |s| > 0 && Precedes(k, asc, x, s[0])
    ensures forall y | y in multiset(s) :: Precedes(k, asc, x, y)
  {
    forall y | y in multiset(s)
      ensures Precedes(k, asc, x, y)
    {
      var j :| 0 <= j < |s| && s[j] == y;
      if j > 0 {
        PrecedesTransitive(k, asc, x, s[0], s[j]);
      }
    }
  }

  /** The head of a sorted list precedes its tail with a later row added. */
  lemma HeadPrecedesRest(k: SortKey, asc: bool, x: Row, s: seq<Row>, rest: seq<Row>)
    requires SortedBy(k, asc, s) && |s| > 0 && Precedes(k, asc, s[0], x)
    requires multiset(rest) == multiset(s[1..]) + multiset{x}
    ensures forall y | y in multiset(rest) :: Precedes(k, asc, s[0], y)
  {
    forall y | y in multiset(rest)
      ensures Precedes(k, asc, s[0], y)
    {
      if y != x {
        assert y in multiset(s[1..]);
        var j :| 0 <= j < |s[1..]| && s[1..][j] == y;
        assert s[j + 1] == y;
      }
    }
  }

  /** A row before every element of a sorted list keeps it sorted. */
  lemma SortedCons(k: SortKey, asc: bool, x: Row, s: seq<Row>)
    requires SortedBy(k, asc, s)
    requires forall y | y in multiset(s) :: Precedes(k, asc, x, y)
    ensures SortedBy(k, asc, [x] + s)
  {
    forall i, j | 0 <= i < j < |[x] + s|
      ensures Precedes(k, asc, ([x] + s)[i], ([x] + s)[j])
    {
      if i == 0 {
        assert ([x] + s)[j] == s[j - 1];
        assert s[j - 1] in multiset(s);
      }
    }
  }

  /** The rows of `s`, ordered for the listing. */
  function Sort(k: SortKey, asc: bool, s: seq<Row>): (r: seq<Row>)
    requires DistinctIds(s)
    ensures SortedBy(k, asc, r)
    ensures multiset(r) == multiset(s)
    ensures |r| == |s|
  {
    if |s| == 0 then []
    else
      var init := s[..|s| - 1];
      var x := s[|s| - 1];
      var sorted := Sort(k, asc, init);
      LastIdFresh(s, sorted);
      assert s == init + [x];
      Insert(k, asc, x, sorted)
  }

  /** A permutation of all but the last row holds no row with the last row's id. */
  lemma LastIdFresh(s: seq<Row>, perm: seq<Row>)
    requires DistinctIds(s) && |s| > 0
    requires multiset(perm) == multiset(s[..|s| - 1])
    ensures forall i :: 0 <= i < |perm| ==> perm[i].id != s[|s| - 1].id
  {
    forall i | 0 <= i < |perm|
      ensures perm[i].id != s[|s| - 1].id
    {
      assert perm[i] in multiset(s[..|s| - 1]);
      var j :| 0 <= j < |s| - 1 && s[..|s| - 1][j] == perm[i];
      assert s[j] == perm[i];
    }
  }

  /** A subsequence of a table keeps its ids increasing. */
  lemma {:induction false} FilterKeepsIncreasing(t: Table, p: Row -> bool)
    requires Valid(t)
    ensures Valid(Seqs.Filter(t, p))
  {
    if |t| > 0 {
      var tail := t[1..];
      assert Valid(tail) by {
        assert forall i :: 0 <= i < |tail| ==> tail[i] == t[i + 1];
      }
      FilterKeepsIncreasing(tail, p);
      var rest := Seqs.Filter(tail, p);
      if p(t[0]) {
        assert Seqs.Filter(t, p) == [t[0]] + rest;
        forall i | 0 <= i < |rest|
          ensures rest[i].id > t[0].id
        {
          AboveHead(t, rest[i]);
        }
        ConsValid(t[0], rest);
      } else {
        assert Seqs.Filter(t, p) == rest;
      }
    }
  }

  /** In a valid table, every row after the first has a larger id. */
  lemma AboveHead(t: Table, x: Row)
    requires Valid(t) && |t| > 0 && x in t[1..]
    ensures x.id > t[0].id
  {
    var j :| 0 <= j < |t[1..]| && t[1..][j] == x;
    assert t[j + 1] == x;
  }

  /** A row below every id of a valid table can go in front of it. */
  lemma ConsValid(x: Row, rest: Table)
    requires Valid(rest) && x.id > 0
    requires forall i :: 0 <= i < |rest| ==> rest[i].id > x.id
    ensures Valid([x] + rest)
  {
    var r := [x] + rest;
    forall i, j | 0 <= i < j < |r|
      ensures r[i].id < r[j].id
    {
      assert r[j] == rest[j - 1];
      if i > 0 {
        assert r[i] == rest[i - 1];
      }
    }
  }

  /** The `WHERE` clause as a test. */
  function MatchTest(f: GetAllFilters): Row -> bool {
    (row: Row) => Matches(row, f)
  }

  /** The visible rows that pass the filters, in table order. */
  function Matching(t: Table, f: GetAllFilters): (r: seq<Row>)
    requires Valid(t)
    ensures Valid(r)
    ensures forall i :: 0 <= i < |r| ==> Matches(r[i], f) && r[i] in t
    ensures forall i :: 0 <= i < |t| && Matches(t[i], f) ==> t[i] in r
  {
    FilterKeepsIncreasing(t, MatchTest(f));
    Seqs.Filter(t, MatchTest(f))
  }

  /** Increasing ids are distinct. */
  lemma ValidDistinct(t: Table)
    requires Valid(t)
    ensures DistinctIds(t)
  {
  }

  /** All matches in listing order. */
  function Ordered(t: Table, f: GetAllFilters): (r: seq<Row>)
    requires Valid(t)
    ensures SortedBy(SortKeyOf(f.sort), Ascending(f.order), r)
    ensures multiset(r) == multiset(Matching(t, f))
    ensures |r| == |Matching(t, f)|
  {
    ValidDistinct(Matching(t, f));
    Sort(SortKeyOf(f.sort), Ascending(f.order), Matching(t, f))
  }

  /** What `GetAll` returns: one page of products and the number of all matches. */
  datatype Listing = Listing(products: seq<Product>, total: int)

  /** `LIMIT limit OFFSET offset` over an ordered result. */
  function PageOf<T>(s: seq<T>, offset: int, limit: int): (r: seq<T>)
    requires offset >= 0 && limit >= 0
    ensures |r| <= limit
    ensures offset >= |s| ==> r == []
    ensures offset < |s| ==> |r| == (if offset + limit <= |s| then limit else |s| - offset)
    ensures forall i :: 0 <= i < |r| ==> offset + i < |s| && r[i] == s[offset + i]
  {
    if offset >= |s| then [] else s[offset..if offset + limit <= |s| then offset + limit else |s|]
  }

  /** `GetAll`: count the matches, order them, and return the requested page. */
  function GetAll(t: Table, f: GetAllFilters): (l: Listing)
    requires Valid(t)
    ensures l.total == |Matching(t, f)|
    ensures var o := Offset(f.page, NormalizeLimit(f.limit));
      && |l.products| <= NormalizeLimit(f.limit)
      && (o >= l.total ==> l.products == [])
      && (o + NormalizeLimit(f.limit) <= l.total ==> |l.products| == NormalizeLimit(f.limit))
      && (o < l.total < o + NormalizeLimit(f.limit) ==> |l.products| == l.total - o)
  {
    var l := NormalizeLimit(f.limit);
    Listing(Seqs.Map(PageOf(Ordered(t, f), Offset(f.page, l), l), Scan), |Matching(t, f)|)
  }

  /** An ordered match is a visible row of the table that passes the filters. */
  lemma OrderedAreMatches(t: Table, f: GetAllFilters, row: Row)
    requires Valid(t) && row in Ordered(t, f)
    ensures row in t && Matches(row, f)
  {
    var m := Matching(t, f);
    MultisetMember(Ordered(t, f), m, row);
    var k :| 0 <= k < |m| && m[k] == row;
    assert Matches(m[k], f) && m[k] in t;
  }

  /** Membership carries over between sequences with the same elements. */
  lemma MultisetMember<T>(a: seq<T>, b: seq<T>, x: T)
    requires multiset(a) == multiset(b) && x in a
    ensures x in b
  {
    assert x in multiset(a);
  }

  /** Every listed product is a visible row that passes the filters, read by `scanProduct`. */
  lemma GetAllListsMatches(t: Table, f: GetAllFilters, i: int)
    requires Valid(t) && 0 <= i < |GetAll(t, f).products|
    ensures exists j :: 0 <= j < |t| && Matches(t[j], f) && GetAll(t, f).products[i] == Scan(t[j])
  {
    var o := Offset(f.page, NormalizeLimit(f.limit));
    var sorted := Ordered(t, f);
    var row := sorted[o + i];
    assert GetAll(t, f).products[i] == Scan(row);
    OrderedAreMatches(t, f, row);
    var j :| 0 <= j < |t| && t[j] == row;
  }

  /** The listing is in order: of two listed products, the earlier one precedes by the requested column and direction. */
  lemma GetAllIsOrdered(t: Table, f: GetAllFilters, i: int, j: int)
    requires Valid(t)
    requires 0 <= i < j < |GetAll(t, f).products|
    ensures var sorted := Ordered(t, f);
      var o := Offset(f.page, NormalizeLimit(f.limit));
      && GetAll(t, f).products[i] == Scan(sorted[o + i])
      && GetAll(t, f).products[j] == Scan(sorted[o + j])
      && Precedes(SortKeyOf(f.sort), Ascending(f.order), sorted[o + i], sorted[o + j])
  {
    GetAllElement(t, f, i);
    GetAllElement(t, f, j);
    var sorted := Ordered(t, f);
    var o := Offset(f.page, NormalizeLimit(f.limit));
    assert SortedBy(SortKeyOf(f.sort), Ascending(f.order), sorted);
    assert Precedes(SortKeyOf(f.sort), Ascending(f.order), sorted[o + i], sorted[o + j]);
  }

  /** Filters that differ only in page and limit select and order the same rows. */
  lemma SameQuery(t: Table, f: GetAllFilters, g: GetAllFilters)
    requires Valid(t)
    requires g.search == f.search && g.category == f.category && g.sort == f.sort && g.order == f.order
    ensures Matching(t, g) == Matching(t, f)
    ensures Ordered(t, g) == Ordered(t, f)
  {
    forall i | 0 <= i < |t|
      ensures MatchTest(g)(t[i]) == MatchTest(f)(t[i])
    {
      assert Matches(t[i], g) == Matches(t[i], f);
    }
    Seqs.FilterCongruent(t, MatchTest(g), MatchTest(f));
  }

  /** The next page starts where this one ends, over the same ordered matches. */
  lemma PagesAreConsecutive(t: Table, f: GetAllFilters, i: int)
    requires Valid(t) && f.page >= 1
    requires 0 <= i < |GetAll(t, f.(page := f.page + 1)).products|
    ensures var l := NormalizeLimit(f.limit);
      var o := Offset(f.page, l) + l;
      && o + i < |Ordered(t, f)|
      && GetAll(t, f.(page := f.page + 1)).products[i] == Scan(Ordered(t, f)[o + i])
  {
    var l := NormalizeLimit(f.limit);
    var next := f.(page := f.page + 1);
    GetAllElement(t, next, i);
    OffsetNext(f.page, l);
    SameQuery(t, f, next);
  }

  /** The `i`-th product of a page is the ordered match at the page's offset plus `i`. */
  lemma GetAllElement(t: Table, f: GetAllFilters, i: int)
    requires Valid(t)
    requires 0 <= i < |GetAll(t, f).products|
    ensures var o := Offset(f.page, NormalizeLimit(f.limit));
      o + i < |Ordered(t, f)| && GetAll(t, f).products[i] == Scan(Ordered(t, f)[o + i])
  {
    var l := NormalizeLimit(f.limit);
    var page := PageOf(Ordered(t, f), Offset(f.page, l), l);
    assert GetAll(t, f).products == Seqs.Map(page, Scan);
    assert GetAll(t, f).products[i] == Scan(page[i]);
  }

  /** Each page starts one page size after the one before it. */
  lemma OffsetNext(page: int, limit: int)
    requires page >= 1 && limit >= 1
    ensures Offset(page + 1, limit) == Offset(page, limit) + limit
  {
    assert page * limit == (page - 1) * limit + limit;
  }

  /** A soft-deleted product is never listed, whatever the filters. */
  lemma DeletedNeverListed(t: Table, f: GetAllFilters, id: int, now: int, i: int)
    requires Valid(t) && GetByID(t, id).Ok?
    requires 0 <= i < |GetAll(SoftDelete(t, id, now).table, f).products|
    ensures GetAll(SoftDelete(t, id, now).table, f).products[i].id != id
  {
    var t' := SoftDelete(t, id, now).table;
    var k := FindVisible(t, id);
    GetAllListsMatches(t', f, i);
    assert forall j :: 0 <= j < |t'| && t'[j].id == id ==> j == k;
  }
}

=== FILE: seqs.dfy ===
/**
  Order-preserving filtering of sequences: the `Array.prototype.filter` of the
  frontend and the `WHERE` clauses of the backend queries.
 */
module Seqs {

  /** `s` can be obtained from `t` by deleting elements, without reordering. */
  predicate IsSubsequence<T(==)>(s: seq<T>, t: seq<T>)
    decreases |t|
  {
    |s| == 0 ||
    (|t| > 0 && ((s[0] == t[0] && IsSubsequence(s[1..], t[1..])) || IsSubsequence(s, t[1..])))
  }

  /** Every sequence is a subsequence of itself. */
  lemma {:induction false} SubsequenceRefl<T>(s: seq<T>)
    ensures IsSubsequence(s, s)
  {
    if |s| > 0 {
      SubsequenceRefl(s[1..]);
    }
  }

  /** Number of elements of `s` that satisfy `p`. */
  function CountIf<T>(s: seq<T>, p: T -> bool): (n: nat)
    ensures n <= |s|
  {
    if |s| == 0 then 0 else (if p(s[0]) then 1 else 0) + CountIf(s[1..], p)
  }

  /** The elements of `s` that satisfy `p`, in their original order. */
  function Filter<T(==)>(s: seq<T>, p: T -> bool): (r: seq<T>)
    ensures |r| == CountIf(s, p)
    ensures forall i :: 0 <= i < |r| ==> p(r[i])
    ensures forall i :: 0 <= i < |r| ==> r[i] in s
    ensures forall i :: 0 <= i < |s| && p(s[i]) ==> s[i] in r
    ensures IsSubsequence(r, s)
  {
    if |s| == 0 then []
    else if p(s[0]) then [s[0]] + Filter(s[1..], p)
    else Filter(s[1..], p)
  }

  /** A filter keeps each passing value exactly as often as it occurs, and no other value. */
  lemma {:induction false} FilterCounts<T>(s: seq<T>, p: T -> bool)
    ensures forall x :: multiset(Filter(s, p))[x] == if p(x) then multiset(s)[x] else 0
  {
    if |s| > 0 {
      FilterCounts(s[1..], p);
      assert s == [s[0]] + s[1..];
      assert multiset(s) == multiset([s[0]]) + multiset(s[1..]);
      if p(s[0]) {
        assert multiset(Filter(s, p)) == multiset([s[0]]) + multiset(Filter(s[1..], p));
      }
    }
  }

  /** A filter whose predicate holds everywhere keeps the whole sequence. */
  lemma {:induction false} FilterAll<T>(s: seq<T>, p: T -> bool)
    requires forall i :: 0 <= i < |s| ==> p(s[i])
    ensures Filter(s, p) == s
  {
    if |s| > 0 {
      FilterAll(s[1..], p);
    }
  }

  /** Filtering a sequence extended at the end extends the filtered sequence by that element when it passes. */
  lemma {:induction false} FilterSnoc<T>(s: seq<T>, x: T, p: T -> bool)
    ensures Filter(s + [x], p) == Filter(s, p) + (if p(x) then [x] else [])
  {
    if |s| == 0 {
      assert s + [x] == [x];
    } else {
      assert (s + [x])[1..] == s[1..] + [x];
      FilterSnoc(s[1..], x, p);
    }
  }

  /** Both tests at once. */
  function And<T>(p: T -> bool, q: T -> bool): T -> bool {
    x => p(x) && q(x)
  }

  /** Filtering twice is filtering once by the conjunction. */
  lemma {:induction false} FilterFilter<T>(s: seq<T>, p: T -> bool, q: T -> bool)
    ensures Filter(Filter(s, p), q) == Filter(s, And(p, q))
  {
    if |s| > 0 {
      FilterFilter(s[1..], p, q);
      if p(s[0]) {
        assert Filter(s, p) == [s[0]] + Filter(s[1..], p);
        assert ([s[0]] + Filter(s[1..], p))[1..] == Filter(s[1..], p);
      }
    }
  }

  /** Two filters by pointwise-equal predicates agree. */
  lemma {:induction false} FilterCongruent<T>(s: seq<T>, p: T -> bool, q: T -> bool)
    requires forall i :: 0 <= i < |s| ==> p(s[i]) == q(s[i])
    ensures Filter(s, p) == Filter(s, q)
  {
    if |s| > 0 {
      FilterCongruent(s[1..], p, q);
    }
  }

  /** Index of the first element satisfying `p`, if any (`Array.prototype.findIndex`). */
  function FirstIndex<T>(s: seq<T>, p: T -> bool): (r: int)
    ensures -1 <= r < |s|
    ensures r >= 0 ==> p(s[r]) && forall j :: 0 <= j < r ==> !p(s[j])
    ensures r == -1 ==> forall j :: 0 <= j < |s| ==> !p(s[j])
  {
    if |s| == 0 then -1
    else if p(s[0]) then 0
    else var k := FirstIndex(s[1..], p); if k == -1 then -1 else k + 1
  }

  /** Drops the element at `index`, if there is one. */
  function RemoveIndex<T>(s: seq<T>, index: int): (r: seq<T>)
    ensures 0 <= index < |s| ==> r == s[..index] + s[index + 1..]
    ensures !(0 <= index < |s|) ==> r == s
  {
    if |s| == 0 then []
    else (if index == 0 then [] else [s[0]]) + RemoveIndex(s[1..], index - 1)
  }

  /** `Array.prototype.map`. */
  function Map<T, U>(s: seq<T>, f: T -> U): (r: seq<U>)
    ensures |r| == |s|
    ensures forall i :: 0 <= i < |s| ==> r[i] == f(s[i])
  {
    seq(|s|, i requires 0 <= i < |s| => f(s[i]))
  }

  /** The test `p` applied after `f`. */
  function Compose<T, U>(f: T -> U, p: U -> bool): T -> bool {
    x => p(f(x))
  }

  /** Filtering mapped elements is mapping the elements whose image passes. */
  lemma {:induction false} FilterMap<T, U>(s: seq<T>, f: T -> U, p: U -> bool)
    ensures Filter(Map(s, f), p) == Map(Filter(s, Compose(f, p)), f)
  {
    if |s| > 0 {
      FilterMap(s[1..], f, p);
      MapSplit(s, f);
      var rest := Filter(s[1..], Compose(f, p));
      if p(f(s[0])) {
        MapCons(s[0], rest, f);
      }
    } else {
      assert Map(s, f) == [];
    }
  }

  lemma MapSplit<T, U>(s: seq<T>, f: T -> U)
    requires |s| > 0
    ensures Map(s, f)[0] == f(s[0]) && Map(s, f)[1..] == Map(s[1..], f)
  {
  }

  lemma MapCons<T, U>(x: T, s: seq<T>, f: T -> U)
    ensures Map([x] + s, f) == [f(x)] + Map(s, f)
  {
  }
}

=== FILE: service.dfy ===
/**
  The product service (`product.Service`): the validation gates in front of
  the repository. Reads and deletes pass straight through; a create is
  checked in full, an update only for a non-positive price.
 */
module ProductService {
  import opened Wrappers
  import opened ProductEntity
  import opened ProductRepository

  /** `GetProducts`. */
  function GetProducts(t: Table, f: GetAllFilters): (l: Listing)
    requires Valid(t)
    ensures l == GetAll(t, f)
  {
    GetAll(t, f)
  }

  /** `GetProduct`. */
  function GetProduct(t: Table, id: int): (r: Result<Product, ProductError>)
    ensures r == GetByID(t, id)
  {
    GetByID(t, id)
  }

  /** `CreateProduct`: the repository is reached only with an input that passes `Validate`. */
  function CreateProduct(t: Table, input: CreateProductInput, now: int): (w: Written<Product>)
    requires Valid(t)
    ensures Valid(w.table)
    ensures Validate(input).Some? ==> w == Written(t, Err(Validate(input).value))
    ensures Validate(input).None? ==> w == Create(t, input, now)
  {
    var check := Validate(input);
    if check.Some? then Written(t, Err(check.value)) else Create(t, input, now)
  }

  /** `UpdateProduct`: a given price must be positive; nothing else is checked here. */
  function UpdateProduct(t: Table, id: int, input: UpdateProductInput, now: int): (w: Written<Product>)
    requires Valid(t)
    ensures Valid(w.table)
    ensures input.price.Some? && input.price.value <= 0 ==> w == Written(t, Err(InvalidInput(PRICE_POSITIVE)))
    ensures !(input.price.Some? && input.price.value <= 0) ==> w == Update(t, id, input, now)
  {
    if input.price.Some? && input.price.value <= 0 then Written(t, Err(InvalidInput(PRICE_POSITIVE)))
    else Update(t, id, input, now)
  }

  /** `DeleteProduct`. */
  function DeleteProduct(t: Table, id: int, now: int): (w: Written<()>)
    requires Valid(t)
    ensures Valid(w.table)
    ensures w == SoftDelete(t, id, now)
  {
    SoftDelete(t, id, now)
  }

  /** Every stored product has a positive price. */
  predicate PricesPositive(t: Table) {
    forall i :: 0 <= i < |t| ==> t[i].price > 0
  }

  /** A create either stores a valid product or leaves the table alone, and reports which. */
  lemma CreateGate(t: Table, input: CreateProductInput, now: int)
    requires Valid(t)
    ensures var w := CreateProduct(t, input, now);
      && (w.result.Ok? <==> input.name != "" && input.price > 0)
      && (w.result.Err? ==> w.table == t && w.result.error.InvalidInput?)
      && (w.result.Ok? ==> w.result.value.name != "" && w.result.value.price > 0 && |w.table| == |t| + 1)
  {
  }

  /** Products are only ever stored with a positive price through the service. */
  lemma ServiceKeepsPricesPositive(t: Table, id: int, c: CreateProductInput, u: UpdateProductInput, now: int)
    requires Valid(t) && PricesPositive(t)
    ensures PricesPositive(CreateProduct(t, c, now).table)
    ensures PricesPositive(UpdateProduct(t, id, u, now).table)
    ensures PricesPositive(DeleteProduct(t, id, now).table)
  {
    if Validate(c).None? {
      AppendKeepsPrices(t, NewRow(c, NextId(t), now));
    }
    var k := FindVisible(t, id);
    if k >= 0 && !(u.price.Some? && u.price.value <= 0) {
      ReplaceKeepsPrices(t, k, ApplyUpdate(t[k], u, now));
    }
    if k >= 0 {
      ReplaceKeepsPrices(t, k, t[k].(deletedAt := Some(now)));
    }
  }

  lemma AppendKeepsPrices(t: Table, row: Row)
    requires PricesPositive(t) && row.price > 0
    ensures PricesPositive(t + [row])
  {
  }

  lemma ReplaceKeepsPrices(t: Table, k: int, row: Row)
    requires PricesPositive(t) && 0 <= k < |t| && row.price > 0
    ensures PricesPositive(t[k := row])
  {
  }

  /** An update without a price is never turned away by the service, whatever else it carries, even an empty name. */
  lemma UpdateWithoutPriceIsUnchecked(t: Table, id: int, input: UpdateProductInput, now: int)
    requires Valid(t) && input.price.None?
    ensures UpdateProduct(t, id, input, now) == Update(t, id, input, now)
    ensures GetByID(t, id).Ok? ==> UpdateProduct(t, id, input, now).result.Ok?
  {
  }
}

=== FILE: sets.dfy ===
/**
  Cardinality facts about finite sets, shared by the selection and the
  image-usage proofs.
 */
module Sets {

  /** A subset is no larger than its superset, and one as large is the superset. */
  lemma {:induction false} SubsetCard<T>(a: set<T>, b: set<T>)
    requires a <= b
    ensures |a| <= |b|
    ensures |a| == |b| ==> a == b
    decreases |a|
  {
    if a != {} {
      var x :| x in a;
      SubsetCard(a - {x}, b - {x});
      assert a == (a - {x}) + {x};
      assert b == (b - {x}) + {x};
    }
  }

  /** A larger set has an element outside a smaller one. */
  lemma LargerNotSubset<T>(a: set<T>, b: set<T>) returns (x: T)
    requires |a| > |b|
    ensures x in a && x !in b
  {
    SubsetCard(a * b, b);
    assert a == (a - b) + (a * b);
    x :| x in a - b;
  }

  /** Inside a set of `n` elements, a subset covers the whole set exactly when it has `n` elements. */
  lemma CoversIffFull<T>(a: set<T>, b: set<T>, n: int)
    requires a <= b && |b| == n
    ensures (b <= a) <==> |a| == n
  {
    SubsetCard(a, b);
  }
}

=== FILE: strings.dfy ===
/**
  String primitives used by both halves of the storefront: substring tests
  (`includes`, `strings.Contains`, `strings.HasSuffix`), single-character
  `strings.Split`, JavaScript whitespace and `trim`, ASCII lower-casing, and
  decimal formatting and parsing (`toString`/`%d` and Go's `strconv.Atoi`).
 */
module Strings {

  predicate IsPrefix(p: string, s: string) {
    |p| <= |s| && s[..|p|] == p
  }

  /** Go `strings.HasSuffix`, JavaScript `endsWith`. */
  predicate HasSuffix(s: string, suffix: string) {
    |suffix| <= |s| && s[|s| - |suffix|..] == suffix
  }

  /** Go `strings.Contains`, JavaScript `includes`: `t` occurs in `s` at some offset. */
  predicate Contains(s: string, t: string)
    decreases |s|
  {
    IsPrefix(t, s) || (|s| > 0 && Contains(s[1..], t))
  }

  /** `t` occurs in `s` starting at offset `i`. */
  predicate OccursAt(s: string, t: string, i: int) {
    0 <= i <= |s| - |t| && s[i..i + |t|] == t
  }

  /** `Contains` agrees with the occurrence-at-an-offset reading of a substring test. */
  lemma {:induction false} ContainsIff(s: string, t: string)
    ensures Contains(s, t) <==> exists i :: OccursAt(s, t, i)
    decreases |s|
  {
    if Contains(s, t) {
      if IsPrefix(t, s) {
        assert OccursAt(s, t, 0);
      } else {
        ContainsIff(s[1..], t);
        var i :| OccursAt(s[1..], t, i);
        assert s[1..][i..i + |t|] == s[i + 1..i + 1 + |t|];
        assert OccursAt(s, t, i + 1);
      }
    }
    if exists i :: OccursAt(s, t, i) {
      var i :| OccursAt(s, t, i);
      if i > 0 {
        assert s[1..][i - 1..i - 1 + |t|] == s[i..i + |t|];
        assert OccursAt(s[1..], t, i - 1);
        ContainsIff(s[1..], t);
      } else {
        assert IsPrefix(t, s);
      }
    }
  }

  /** A one-character needle occurs exactly when that character does. */
  lemma ContainsChar(s: string, c: char)
    ensures Contains(s, [c]) <==> c in s
  {
    ContainsIff(s, [c]);
    if c in s {
      var i :| 0 <= i < |s| && s[i] == c;
      assert s[i..i + 1] == [c];
      assert OccursAt(s, [c], i);
    }
    if Contains(s, [c]) {
      var i :| OccursAt(s, [c], i);
      assert s[i] == s[i..i + 1][0];
    }
  }

  /** Number of occurrences of `c` in `s`. */
  function Count(s: string, c: char): (n: nat)
    ensures n <= |s|
    ensures n == 0 <==> c !in s
  {
    if |s| == 0 then 0 else (if s[0] == c then 1 else 0) + Count(s[1..], c)
  }

  lemma {:induction false} CountAppend(a: string, b: string, c: char)
    ensures Count(a + b, c) == Count(a, c) + Count(b, c)
  {
    if |a| > 0 {
      assert (a + b)[1..] == a[1..] + b;
      CountAppend(a[1..], b, c);
    } else {
      assert a + b == b;
    }
  }

  /** Counting around one occurrence: the part before, the occurrence, the part after. */
  lemma CountAround(s: string, k: int, c: char)
    requires 0 <= k < |s| && s[k] == c
    ensures Count(s, c) == Count(s[..k], c) + 1 + Count(s[k + 1..], c)
  {
    assert s == s[..k] + [s[k]] + s[k + 1..];
    CountAppend(s[..k] + [s[k]], s[k + 1..], c);
    CountAppend(s[..k], [s[k]], c);
  }

  /** Index of the first `c` in `s`, or -1 (`indexOf`). */
  function IndexOf(s: string, c: char): (k: int)
    ensures -1 <= k < |s|
    ensures k >= 0 ==> s[k] == c && c !in s[..k]
    ensures k == -1 <==> c !in s
  {
    if |s| == 0 then -1
    else if s[0] == c then 0
    else var j := IndexOf(s[1..], c); if j == -1 then -1 else j + 1
  }

  /** Index of the last `c` in `s`, or -1 (`lastIndexOf`). */
  function LastIndexOf(s: string, c: char): (k: int)
    ensures -1 <= k < |s|
    ensures k >= 0 ==> s[k] == c && c !in s[k + 1..]
    ensures k == -1 <==> c !in s
  {
    if |s| == 0 then -1
    else if s[|s| - 1] == c then |s| - 1
    else
      var init := s[..|s| - 1];
      var k := LastIndexOf(init, c);
      assert s == init + [s[|s| - 1]];
      assert k >= 0 ==> s[k + 1..] == init[k + 1..] + [s[|s| - 1]];
      k
  }

  /** `strings.Join(parts, sep)` for a one-character separator. */
  function Join(parts: seq<string>, sep: char): string
    decreases |parts|
  {
    if |parts| == 0 then ""
    else if |parts| == 1 then parts[0]
    else parts[0] + [sep] + Join(parts[1..], sep)
  }

  /** Go `strings.Split(s, sep)` for a one-character separator. */
  function Split(s: string, sep: char): (parts: seq<string>)
    ensures |parts| == Count(s, sep) + 1
    ensures forall i :: 0 <= i < |parts| ==> sep !in parts[i]
    ensures Join(parts, sep) == s
    decreases |s|
  {
    var k := IndexOf(s, sep);
    if k < 0 then [s]
    else
      assert s == s[..k] + [sep] + s[k + 1..];
      CountAppend(s[..k] + [sep], s[k + 1..], sep);
      CountAppend(s[..k], [sep], sep);
      var rest := Split(s[k + 1..], sep);
      assert ([s[..k]] + rest)[1..] == rest;
      [s[..k]] + rest
  }

  /** A string with exactly one separator splits into the text before it and the text after it. */
  lemma SplitOnce(s: string, sep: char)
    requires Count(s, sep) == 1
    ensures var k := IndexOf(s, sep); Split(s, sep) == [s[..k], s[k + 1..]]
  {
    var k := IndexOf(s, sep);
    var tail := s[k + 1..];
    assert s == s[..k] + [sep] + tail;
    CountAppend(s[..k] + [sep], tail, sep);
    CountAppend(s[..k], [sep], sep);
    assert Count(tail, sep) == 0;
    assert IndexOf(tail, sep) == -1;
    assert Split(tail, sep) == [tail];
  }

  /** The characters JavaScript's `trim` and the regular-expression class `\s` treat as white space. */
  predicate IsSpace(c: char) {
    var n := c as int;
    n == 0x09 || n == 0x0A || n == 0x0B || n == 0x0C || n == 0x0D || n == 0x20 ||
    n == 0xA0 || n == 0x1680 || (0x2000 <= n <= 0x200A) || n == 0x2028 || n == 0x2029 ||
    n == 0x202F || n == 0x205F || n == 0x3000 || n == 0xFEFF
  }

  predicate IsBlank(s: string) {
    forall i :: 0 <= i < |s| ==> IsSpace(s[i])
  }

  function TrimStart(s: string): (r: string)
    ensures |r| <= |s| && r == s[|s| - |r|..]
    ensures |r| > 0 ==> !IsSpace(r[0])
    ensures IsBlank(s[..|s| - |r|])
  {
    if |s| > 0 && IsSpace(s[0]) then
      var r := TrimStart(s[1..]);
      assert s[..|s| - |r|] == [s[0]] + s[1..][..|s[1..]| - |r|];
      r
    else s
  }

  function TrimEnd(s: string): (r: string)
    ensures |r| <= |s| && r == s[..|r|]
    ensures |r| > 0 ==> !IsSpace(r[|r| - 1])
    ensures IsBlank(s[|r|..])
  {
    if |s| > 0 && IsSpace(s[|s| - 1]) then
      var r := TrimEnd(s[..|s| - 1]);
      assert s[|r|..] == s[..|s| - 1][|r|..] + [s[|s| - 1]];
      r
    else s
  }

  /** JavaScript `String.prototype.trim`. */
  function Trim(s: string): string {
    TrimEnd(TrimStart(s))
  }

  /** `s.trim() === ''` holds exactly for strings made only of white space. */
  lemma TrimEmptyIffBlank(s: string)
    ensures Trim(s) == [] <==> IsBlank(s)
  {
    var t := TrimStart(s);
    if Trim(s) == [] {
      assert t[0..] == t;
      assert |t| == 0;
      assert s[..|s|] == s;
    }
    if IsBlank(s) {
      assert |t| == 0;
    }
  }

  function AsciiLowerChar(c: char): char {
    if 'A' <= c <= 'Z' then (c as int + 32) as char else c
  }

  /** Lower-casing restricted to the ASCII letters. */
  function AsciiLower(s: string): (r: string)
    ensures |r| == |s|
  {
    seq(|s|, i requires 0 <= i < |s| => AsciiLowerChar(s[i]))
  }

  predicate IsDigit(c: char) {
    '0' <= c <= '9'
  }

  predicate AllDigits(s: string) {
    forall i :: 0 <= i < |s| ==> IsDigit(s[i])
  }

  function DigitChar(d: nat): (c: char)
    requires d < 10
    ensures IsDigit(c)
  {
    ('0' as int + d) as char
  }

  /** Decimal notation of a natural number, without leading zeros. */
  function NatToString(n: nat): (r: string)
    ensures |r| >= 1 && AllDigits(r)
  {
    if n < 10 then [DigitChar(n)] else NatToString(n / 10) + [DigitChar(n % 10)]
  }

  /** A three-digit number is written with its three digits. */
  lemma ThreeDigits(n: int)
    requires 100 <= n < 1000
    ensures IntToString(n) == [DigitChar(n / 100), DigitChar(n / 10 % 10), DigitChar(n % 10)]
  {
    assert NatToString(n / 10) == NatToString(n / 100) + [DigitChar(n / 10 % 10)];
  }

  /** Decimal notation of an integer: JavaScript `toString()` on integers, Go `%d`. */
  function IntToString(n: int): string {
    if n < 0 then "-" + NatToString(-n) else NatToString(n)
  }

  /** The value of a string of decimal digits. */
  function DigitsValue(s: string): nat
    requires AllDigits(s)
  {
    if |s| == 0 then 0 else 10 * DigitsValue(s[..|s| - 1]) + (s[|s| - 1] as int - '0' as int)
  }

  lemma {:induction false} DigitsValueOfNatToString(n: nat)
    ensures DigitsValue(NatToString(n)) == n
  {
    if n >= 10 {
      var r := NatToString(n);
      assert r[..|r| - 1] == NatToString(n / 10);
      DigitsValueOfNatToString(n / 10);
    }
  }

  /** The notation starts with a minus sign exactly for a negative integer. */
  lemma IntToStringSign(n: int)
    ensures |IntToString(n)| > 0 && (IntToString(n)[0] == '-' <==> n < 0)
  {
    if n >= 0 {
      assert IsDigit(NatToString(n)[0]);
    }
  }

  /** Different integers have different decimal notations. */
  lemma IntToStringInjective(a: int, b: int)
    requires IntToString(a) == IntToString(b)
    ensures a == b
  {
    IntToStringSign(a);
    IntToStringSign(b);
    if a < 0 {
      var s := IntToString(a);
      assert s[1..] == NatToString(-a) && IntToString(b)[1..] == NatToString(-b);
      NatToStringInjective(-a, -b);
    } else {
      NatToStringInjective(a, b);
    }
  }

  lemma NatToStringInjective(a: nat, b: nat)
    requires NatToString(a) == NatToString(b)
    ensures a == b
  {
    DigitsValueOfNatToString(a);
    DigitsValueOfNatToString(b);
  }

  /** UTF-16 code units of one character: two for a character outside the Basic Multilingual Plane. */
  function Utf16Units(c: char): nat {
    if c as int >= 0x1_0000 then 2 else 1
  }

  /** JavaScript's `length` of a string: its number of UTF-16 code units. */
  function Utf16Length(s: string): (n: nat)
    ensures |s| <= n <= 2 * |s|
    ensures n == 0 <==> s == ""
  {
    if |s| == 0 then 0 else Utf16Units(s[0]) + Utf16Length(s[1..])
  }

  /** A string of characters inside the Basic Multilingual Plane has one code unit per character. */
  lemma {:induction false} Utf16LengthOfBmp(s: string)
    requires forall i :: 0 <= i < |s| ==> s[i] as int < 0x1_0000
    ensures Utf16Length(s) == |s|
  {
    if |s| > 0 {
      Utf16LengthOfBmp(s[1..]);
    }
  }

  const INT64_MIN: int := -0x8000_0000_0000_0000
  const INT64_MAX: int := 0x7FFF_FFFF_FFFF_FFFF

  /** Outcome of Go's `strconv.Atoi`: the value, a syntax error (value 0), or a range error
      (value clamped to the 64-bit bound). */
  datatype IntParse = Parsed(n: int) | SyntaxError | RangeError(clamped: int) {
    /** The integer Go returns alongside the error, which callers that drop the error use. */
    function Value(): int {
      match this
      case Parsed(n) => n
      case SyntaxError => 0
      case RangeError(c) => c
    }
  }

  /** An optional `+` or `-` followed by at least one decimal digit. */
  predicate IsDecimalLiteral(s: string) {
    || (|s| > 0 && AllDigits(s))
    || (|s| > 1 && (s[0] == '+' || s[0] == '-') && AllDigits(s[1..]))
  }

  /** The literal has a leading minus sign. */
  predicate Negative(s: string) {
    |s| > 0 && s[0] == '-'
  }

  /** The digits of a decimal literal, after its sign if it has one. */
  function Magnitude(s: string): (d: string)
    requires IsDecimalLiteral(s)
    ensures |d| > 0 && AllDigits(d)
  {
    if AllDigits(s) then s else s[1..]
  }

  /** The mathematical value a decimal literal denotes. */
  function LiteralValue(s: string): int
    requires IsDecimalLiteral(s)
  {
    var m: int := DigitsValue(Magnitude(s));
    if Negative(s) then -m else m
  }

  /** Go `strconv.Atoi` (base 10, 64-bit `int`), also `strconv.ParseInt(s, 10, 64)`. */
  function Atoi(s: string): (r: IntParse)
    ensures r.SyntaxError? <==> !IsDecimalLiteral(s)
    ensures r.Parsed? ==> INT64_MIN <= r.n <= INT64_MAX
    ensures IsDecimalLiteral(s) && INT64_MIN <= LiteralValue(s) <= INT64_MAX ==> r == Parsed(LiteralValue(s))
    ensures IsDecimalLiteral(s) && LiteralValue(s) < INT64_MIN ==> r == RangeError(INT64_MIN)
    ensures IsDecimalLiteral(s) && LiteralValue(s) > INT64_MAX ==> r == RangeError(INT64_MAX)
    ensures r.RangeError? ==> (r.clamped == INT64_MIN <==> Negative(s)) && (r.clamped == INT64_MAX <==> !Negative(s))
  {
    var signed := |s| > 0 && (s[0] == '+' || s[0] == '-');
    var digits := if signed then s[1..] else s;
    if |digits| == 0 || !AllDigits(digits) then SyntaxError
    else
      assert signed ==> !AllDigits(s);
      var d: int := DigitsValue(digits);
      var v := if signed && s[0] == '-' then -d else d;
      if v < INT64_MIN then RangeError(INT64_MIN)
      else if v > INT64_MAX then RangeError(INT64_MAX)
      else Parsed(v)
  }

  /** A leading zero does not change the value of a string of digits. */
  lemma {:induction false} DigitsValueLeadingZero(d: string)
    requires AllDigits(d)
    ensures AllDigits("0" + d) && DigitsValue("0" + d) == DigitsValue(d)
    decreases |d|
  {
    if |d| > 0 {
      var z := "0" + d;
      assert z[..|z| - 1] == "0" + d[..|d| - 1];
      DigitsValueLeadingZero(d[..|d| - 1]);
    }
  }

  /** Atoi ignores leading zeros and a plus sign: "007" and "+7" both read as 7. */
  lemma AtoiLeadingZeroAndPlus(d: string)
    requires |d| > 0 && AllDigits(d)
    ensures Atoi("0" + d) == Atoi(d)
    ensures Atoi("+" + d) == Atoi(d)
  {
    DigitsValueLeadingZero(d);
    assert !AllDigits("+" + d) by { assert ("+" + d)[0] == '+'; }
    assert ("+" + d)[1..] == d;
  }

  /** Parsing the decimal notation of a 64-bit integer gives that integer back. */
  lemma AtoiIntToString(n: int)
    requires INT64_MIN <= n <= INT64_MAX
    ensures Atoi(IntToString(n)) == Parsed(n)
  {
    var s := IntToString(n);
    if n < 0 {
      var m: nat := -n;
      assert s == "-" + NatToString(m);
      assert s[1..] == NatToString(m);
      DigitsValueOfNatToString(m);
      assert DigitsValue(s[1..]) == m;
    } else {
      DigitsValueOfNatToString(n);
      assert IsDigit(s[0]);
    }
  }
}

=== FILE: upload_service.dfy ===
/**
  The upload service (package `upload`): the size and extension checks on
  an uploaded file and the name and URL under which it is stored. The clock
  and the UUID generator become parameters, and the outcome of writing the
  file is given as the error text it produced, if any.
 */
module UploadService {
  import opened Wrappers
  import Strings
  import ImagesHandler

  /** `filepath.Ext`: from the last "." of the last path element to the end, or "" when that element has none. */
  function Ext(path: string): (e: string)
    ensures e == "" || (ExtShaped(e) && Strings.HasSuffix(path, e))
    ensures '.' !in path ==> e == ""
    decreases |path|
  {
    if |path| == 0 then ""
    else
      var c := path[|path| - 1];
      if c == '/' then ""
      else if c == '.' then "."
      else
        var e := Ext(path[..|path| - 1]);
        if e == "" then ""
        else
          assert path[|path| - |e| - 1..] == path[..|path| - 1][|path| - 1 - |e|..] + [c];
          e + [c]
  }

  /** What `Ext` can return besides "": a dot, then no dot and no slash. */
  predicate ExtShaped(e: string) {
    |e| >= 1 && e[0] == '.' && forall k :: 1 <= k < |e| ==> e[k] != '.' && e[k] != '/'
  }

  /** No dot, no slash, no backslash. */
  predicate Plain(s: string) {
    forall i :: 0 <= i < |s| ==> s[i] != '.' && s[i] != '/' && s[i] != '\\'
  }

  /** A plain prefix does not change the extension. */
  lemma {:induction false} ExtOfPlainPrefix(prefix: string, ext: string)
    requires Plain(prefix)
    requires ext == "" || ExtShaped(ext)
    ensures Ext(prefix + ext) == ext
    decreases |ext|
  {
    if ext == "" {
      assert prefix + ext == prefix;
      assert '.' !in prefix;
    } else if |ext| == 1 {
      assert (prefix + ext)[|prefix + ext| - 1] == '.';
    } else {
      var path, init := prefix + ext, ext[..|ext| - 1];
      assert ExtShaped(init);
      ExtOfPlainPrefix(prefix, init);
      assert path[..|path| - 1] == prefix + init;
      ExtStep(path);
      assert ext == init + [ext[|ext| - 1]];
    }
  }

  /** Past a last character that is neither a dot nor a slash, a found extension grows by that character. */
  lemma ExtStep(path: string)
    requires |path| > 0 && path[|path| - 1] != '.' && path[|path| - 1] != '/'
    requires Ext(path[..|path| - 1]) != ""
    ensures Ext(path) == Ext(path[..|path| - 1]) + [path[|path| - 1]]
  {
  }

  /** The extensions accepted, compared after lower-casing. */
  const ALLOWED_EXTENSIONS: seq<string> := [".jpg", ".jpeg", ".png", ".gif", ".webp"]

  /** `isValidImageType`: the lower-cased extension is one of the allowed ones, so it is a dot and three or four more characters. */
  function IsValidImageType(filename: string): (b: bool)
    ensures b ==> 4 <= |Ext(filename)| <= 5 && Ext(filename)[0] == '.'
  {
    var e := Ext(filename);
    if Strings.AsciiLower(e) in ALLOWED_EXTENSIONS then
      ValidExtensionPlain(e);
      true
    else false
  }

  const MIB: int := 1024 * 1024

  /** The size limit in bytes. */
  function MaxSize(maxSizeMB: int): (n: int)
    ensures n == maxSizeMB * MIB
  {
    maxSizeMB * 1024 * 1024
  }

  datatype UploadConfig = UploadConfig(maxSizeMB: int, baseURL: string)

  datatype FileHeader = FileHeader(filename: string, size: int)

  /** `UploadResult`. */
  datatype UploadResult = UploadResult(url: string, filename: string, size: int)

  const TYPE_ERROR: string := "invalid file type, only jpg, jpeg, png, gif allowed"

  function SizeError(maxSizeMB: int): string {
    "file size exceeds maximum of " + Strings.IntToString(maxSizeMB) + "MB"
  }

  /** The stored name, `<unix seconds>_<uuid><original extension>`: the decimal stamp and "_", then the UUID and the extension. */
  function StoredName(stamp: int, uuid: string, original: string): (name: string)
    ensures Strings.IsPrefix(Strings.IntToString(stamp) + "_", name)
    ensures Strings.HasSuffix(name, uuid + Ext(original))
    ensures |name| == |Strings.IntToString(stamp)| + 1 + |uuid| + |Ext(original)|
  {
    Strings.IntToString(stamp) + "_" + uuid + Ext(original)
  }

  /** Two uploads in the same second get distinct names when their UUIDs, all of one length, differ. */
  lemma StoredNamesDistinct(stamp: int, uuid1: string, uuid2: string, original1: string, original2: string)
    requires |uuid1| == |uuid2| && uuid1 != uuid2
    ensures StoredName(stamp, uuid1, original1) != StoredName(stamp, uuid2, original2)
  {
    var p := Strings.IntToString(stamp) + "_";
    var n1, n2 := StoredName(stamp, uuid1, original1), StoredName(stamp, uuid2, original2);
    assert n1 == p + uuid1 + Ext(original1) && n2 == p + uuid2 + Ext(original2);
    assert n1[|p|..|p| + |uuid1|] == uuid1;
    assert n2[|p|..|p| + |uuid2|] == uuid2;
  }

  /** `SaveFile`: the size check, then the type check, then storage; on success the name and absolute URL. */
  function SaveFile(cfg: UploadConfig, header: FileHeader, stamp: int, uuid: string, storeError: Option<string>): (r: Result<UploadResult, string>)
    ensures header.size > MaxSize(cfg.maxSizeMB) ==> r == Err(SizeError(cfg.maxSizeMB))
    ensures header.size <= MaxSize(cfg.maxSizeMB) && !IsValidImageType(header.filename) ==> r == Err(TYPE_ERROR)
    ensures header.size <= MaxSize(cfg.maxSizeMB) && IsValidImageType(header.filename) && storeError.Some? ==> r == Err(storeError.value)
    ensures r.Ok? <==> header.size <= MaxSize(cfg.maxSizeMB) && IsValidImageType(header.filename) && storeError.None?
    ensures r.Ok? ==>
      && r.value.filename == StoredName(stamp, uuid, header.filename)
      && r.value.url == cfg.baseURL + ImagesHandler.UploadUrl(r.value.filename)
      && r.value.size == header.size
  {
    if header.size > MaxSize(cfg.maxSizeMB) then Err(SizeError(cfg.maxSizeMB))
    else if !IsValidImageType(header.filename) then Err(TYPE_ERROR)
    else if storeError.Some? then Err(storeError.value)
    else
      var filename := StoredName(stamp, uuid, header.filename);
      Ok(UploadResult(cfg.baseURL + "/uploads/" + filename, filename, header.size))
  }

  /** A file of exactly the maximum size passes the size check; one byte more does not, whatever its type. */
  lemma SizeBoundary(cfg: UploadConfig, name: string, stamp: int, uuid: string)
    ensures SaveFile(cfg, FileHeader(name, MaxSize(cfg.maxSizeMB) + 1), stamp, uuid, None) == Err(SizeError(cfg.maxSizeMB))
    ensures IsValidImageType(name) ==> SaveFile(cfg, FileHeader(name, MaxSize(cfg.maxSizeMB)), stamp, uuid, None).Ok?
  {
  }

  /** `.webp` is accepted in either case, although the type error names only jpg, jpeg, png and gif. */
  lemma WebpAccepted(stem: string)
    requires Plain(stem)
    ensures IsValidImageType(stem + ".webp") && IsValidImageType(stem + ".WEBP")
  {
    ExtOfPlainPrefix(stem, ".webp");
    ExtOfPlainPrefix(stem, ".WEBP");
    WebpLower();
    AcceptedByExt(stem + ".webp");
    AcceptedByExt(stem + ".WEBP");
  }

  /** A name whose lower-cased extension is allowed is accepted. */
  lemma AcceptedByExt(filename: string)
    requires Strings.AsciiLower(Ext(filename)) in ALLOWED_EXTENSIONS
    ensures IsValidImageType(filename)
  {
  }

  lemma WebpLower()
    ensures Strings.AsciiLower(".WEBP") in ALLOWED_EXTENSIONS && Strings.AsciiLower(".webp") in ALLOWED_EXTENSIONS
  {
    var upper, lower := ".WEBP", ".webp";
    assert Strings.AsciiLower(upper) == lower by {
      assert forall i :: 0 <= i < 5 ==> Strings.AsciiLowerChar(upper[i]) == lower[i];
    }
    assert Strings.AsciiLower(lower) == lower by {
      assert forall i :: 0 <= i < 5 ==> Strings.AsciiLowerChar(lower[i]) == lower[i];
    }
    assert ALLOWED_EXTENSIONS[4] == lower;
  }

  /** A name without an extension is never a valid image. */
  lemma NoExtensionRejected(filename: string)
    requires Ext(filename) == ""
    ensures !IsValidImageType(filename)
  {
  }

  /** The decimal notation of an integer holds only digits and a minus sign. */
  lemma IntToStringPlain(n: int)
    ensures Plain(Strings.IntToString(n))
  {
    var s := Strings.IntToString(n);
    if n < 0 {
      assert s == "-" + Strings.NatToString(-n);
      assert forall i :: 1 <= i < |s| ==> s[i] == Strings.NatToString(-n)[i - 1];
    }
  }

  /** `uuid.New().String()`: lower-case hexadecimal digits and dashes. */
  predicate UuidShaped(uuid: string) {
    forall i :: 0 <= i < |uuid| ==> Strings.IsDigit(uuid[i]) || 'a' <= uuid[i] <= 'f' || uuid[i] == '-'
  }

  /** The stored name keeps the uploaded file's extension, and its URL's base name is the stored name. */
  lemma StoredNameKeepsExtension(stamp: int, uuid: string, original: string)
    requires UuidShaped(uuid)
    ensures Ext(StoredName(stamp, uuid, original)) == Ext(original)
    ensures ImagesHandler.Base(ImagesHandler.UploadUrl(StoredName(stamp, uuid, original))) == StoredName(stamp, uuid, original)
  {
    var prefix := Strings.IntToString(stamp) + "_" + uuid;
    StampPrefixPlain(stamp, uuid);
    assert StoredName(stamp, uuid, original) == prefix + Ext(original);
    ExtOfPlainPrefix(prefix, Ext(original));
    NoSlashAfterPlain(prefix, Ext(original));
    ImagesHandler.BaseOfUploadUrl(prefix + Ext(original));
  }

  /** The part of a stored name before its extension has no dot and no slash. */
  lemma StampPrefixPlain(stamp: int, uuid: string)
    requires UuidShaped(uuid)
    ensures Plain(Strings.IntToString(stamp) + "_" + uuid)
  {
    var digits := Strings.IntToString(stamp);
    var prefix := digits + "_" + uuid;
    IntToStringPlain(stamp);
    assert forall i :: |digits| < i < |prefix| ==> prefix[i] == uuid[i - |digits| - 1];
  }

  lemma NoSlashAfterPlain(prefix: string, e: string)
    requires prefix != "" && Plain(prefix) && (e == "" || ExtShaped(e))
    ensures prefix + e != "" && '/' !in prefix + e
  {
    var name := prefix + e;
    assert forall i :: |prefix| <= i < |name| ==> name[i] == e[i - |prefix|];
  }

  /** Every allowed extension is a dot followed by lower-case letters. */
  lemma AllowedShape(e: string)
    requires e in ALLOWED_EXTENSIONS
    ensures |e| >= 2 && e[0] == '.' && forall k :: 1 <= k < |e| ==> 'a' <= e[k] <= 'z'
  {
  }

  /** An accepted extension is a dot followed by characters that are neither dots nor slashes of either kind. */
  lemma ValidExtensionPlain(e: string)
    requires Strings.AsciiLower(e) in ALLOWED_EXTENSIONS
    ensures |e| >= 2 && e[0] == '.' && Plain(e[1..])
  {
    var l := Strings.AsciiLower(e);
    AllowedShape(l);
    assert Strings.AsciiLowerChar(e[0]) == '.';
    forall k | 1 <= k < |e|
      ensures e[k] != '.' && e[k] != '/' && e[k] != '\\'
    {
      assert Strings.AsciiLowerChar(e[k]) == l[k];
    }
  }

  /** The name a successful upload is stored under passes the traversal guard of the image deletion handler. */
  lemma StoredNameIsSafe(stamp: int, uuid: string, original: string)
    requires UuidShaped(uuid) && IsValidImageType(original)
    ensures ImagesHandler.SafeFilename(StoredName(stamp, uuid, original))
  {
    var prefix := Strings.IntToString(stamp) + "_" + uuid;
    StampPrefixPlain(stamp, uuid);
    ValidExtensionPlain(Ext(original));
    var name := prefix + Ext(original);
    assert name == StoredName(stamp, uuid, original);
    DottedName(prefix, Ext(original));
    NoAdjacentDots(name, |prefix|);
    Strings.ContainsChar(name, '/');
    Strings.ContainsChar(name, '\\');
  }

  /** A plain stem followed by a dotted plain extension: its one dot is where the extension starts. */
  lemma DottedName(prefix: string, e: string)
    requires Plain(prefix) && |e| >= 2 && e[0] == '.' && Plain(e[1..])
    ensures forall i :: 0 <= i < |prefix + e| ==> (prefix + e)[i] != '/' && (prefix + e)[i] != '\\'
    ensures forall i :: 0 <= i < |prefix + e| ==> ((prefix + e)[i] == '.' <==> i == |prefix|)
  {
    var name := prefix + e;
    assert forall i :: |prefix| < i < |name| ==> name[i] == e[1..][i - |prefix| - 1];
  }

  /** A string with a single dot has no "..". */
  lemma NoAdjacentDots(name: string, j: int)
    requires forall i :: 0 <= i < |name| ==> (name[i] == '.' <==> i == j)
    ensures !Strings.Contains(name, "..")
  {
    Strings.ContainsIff(name, "..");
    forall i
      ensures !Strings.OccursAt(name, "..", i)
    {
      if 0 <= i <= |name| - 2 {
        assert name[i..i + 2][0] == name[i] && name[i..i + 2][1] == name[i + 1];
      }
    }
  }
}

=== FILE: upload_validation.dfy ===
/**
  The client-side image check run before an upload (`validateImageFile`).
  The TypeScript and the JavaScript API modules carry the same rule, so one
  definition stands for both: the file's size is checked first, then its
  MIME type.
 */
module UploadValidation {
  import opened Wrappers

  const MAX_SIZE_MB: int := 5
  const MAX_SIZE_BYTES: int := MAX_SIZE_MB * 1024 * 1024

  const VALID_TYPES: seq<string> := ["image/jpeg", "image/jpg", "image/png", "image/gif", "image/webp"]

  const SIZE_ERROR: string := "File size exceeds 5MB limit"
  const TYPE_ERROR: string := "Invalid file type. Only JPG, PNG, GIF, and WebP are allowed"

  datatype ValidationResult = ValidationResult(valid: bool, error: Option<string>)

  /** `validateImageFile` on a file of `size` bytes and MIME type `mimeType`. */
  function ValidateImageFile(size: int, mimeType: string): (r: ValidationResult)
    ensures r.valid <==> size <= 5242880 && mimeType in VALID_TYPES
    ensures r.valid <==> r.error.None?
    ensures size > 5242880 ==> r.error == Some(SIZE_ERROR)
    ensures size <= 5242880 && mimeType !in VALID_TYPES ==> r.error == Some(TYPE_ERROR)
  {
    if size > MAX_SIZE_BYTES then ValidationResult(false, Some(SIZE_ERROR))
    else if mimeType !in VALID_TYPES then ValidationResult(false, Some(TYPE_ERROR))
    else ValidationResult(true, None)
  }

  /** The limit is inclusive: a file of exactly 5 MiB of an allowed type passes, one byte more does not. */
  lemma LimitIsInclusive(mimeType: string)
    requires mimeType in VALID_TYPES
    ensures ValidateImageFile(5 * 1024 * 1024, mimeType).valid
    ensures ValidateImageFile(5 * 1024 * 1024 + 1, mimeType) == ValidationResult(false, Some(SIZE_ERROR))
  {
  }

  /** An oversized file reports the size error whatever its type. */
  lemma SizeBeforeType(size: int, t1: string, t2: string)
    requires size > MAX_SIZE_BYTES
    ensures ValidateImageFile(size, t1) == ValidateImageFile(size, t2)
  {
  }
}

=== FILE: validation.dfy ===
/**
  The form rules of the admin and login forms (`validation.ts`): the e-mail
  pattern, and the per-field rules the form library applies to the product
  and login forms. A field either passes or yields the one message of the
  first rule it breaks, in the library's order: `required` first, then the
  numeric minimum, then the length bounds, then the custom validators.

  Lengths are counted as JavaScript counts them, in UTF-16 code units, so a
  character outside the Basic Multilingual Plane counts twice. Whether a URL
  parses is decided by the browser's URL parser and is a parameter `validUrl`.
 */
module Validation {
  import opened Wrappers
  import Strings

  /** The character class `[^\s@]`. */
  predicate PlainChar(c: char) {
    !Strings.IsSpace(c) && c != '@'
  }

  /**
    `/^[^\s@]+@[^\s@]+\.[^\s@]+$/` matches `s` with its `@` at `at` and its
    literal dot at `dot`: every other character is in `[^\s@]`, and each of the
    three runs is non-empty.
   */
  predicate PatternSplit(s: string, at: int, dot: int) {
    && 0 < at && at + 1 < dot && dot + 1 < |s|
    && s[at] == '@' && s[dot] == '.'
    && forall j :: 0 <= j < |s| && j != at ==> PlainChar(s[j])
  }

  /** The e-mail regular expression matches `s`: some way of placing its `@` and its dot works. */
  ghost predicate MatchesEmailPattern(s: string) {
    exists at, dot :: PatternSplit(s, at, dot)
  }

  /** No character of `s` is white space. */
  predicate NoSpace(s: string) {
    forall j :: 0 <= j < |s| ==> !Strings.IsSpace(s[j])
  }

  /** The part after the `@` has a dot that is neither its first nor its last character. */
  predicate DomainHasInnerDot(d: string) {
    |d| >= 3 && '.' in d[1..|d| - 1]
  }

  /** `validateEmail`, as a scan: no white space, exactly one `@` after a non-empty local part, and a dot in the domain that is neither its first nor its last character. */
  function ValidateEmail(s: string): (ok: bool)
    ensures ok ==> NoSpace(s) && '@' in s && s[0] != '@'
  {
    var at := Strings.IndexOf(s, '@');
    NoSpace(s) && Strings.Count(s, '@') == 1 && at > 0 && DomainHasInnerDot(s[at + 1..])
  }

  /** The scan accepts exactly the strings the regular expression matches. */
  lemma ValidateEmailMatchesPattern(s: string)
    ensures ValidateEmail(s) <==> MatchesEmailPattern(s)
  {
    if ValidateEmail(s) {
      var at, dot := ScanGivesSplit(s);
    }
    if MatchesEmailPattern(s) {
      var at, dot :| PatternSplit(s, at, dot);
      SplitGivesScan(s, at, dot);
    }
  }

  /** A string the scan accepts matches the pattern with its `@` and an inner dot of the domain. */
  lemma ScanGivesSplit(s: string) returns (at: int, dot: int)
    requires ValidateEmail(s)
    ensures PatternSplit(s, at, dot)
  {
    at := Strings.IndexOf(s, '@');
    var d := s[at + 1..];
    var inner := d[1..|d| - 1];
    var t :| 0 <= t < |inner| && inner[t] == '.';
    dot := at + 2 + t;
    assert s[dot] == inner[t];
    Strings.CountAround(s, at, '@');
    OnlyOneAt(s, at);
    forall j | 0 <= j < |s| && j != at ensures PlainChar(s[j]) {
      assert !Strings.IsSpace(s[j]);
    }
  }

  /** A match of the pattern passes every test of the scan. */
  lemma SplitGivesScan(s: string, at: int, dot: int)
    requires PatternSplit(s, at, dot)
    ensures ValidateEmail(s)
  {
    SplitNoSpace(s, at, dot);
    SingleAt(s, at);
    var post := s[at + 1..];
    var inner := post[1..|post| - 1];
    assert inner[dot - at - 2] == s[dot] == '.';
  }

  lemma SplitNoSpace(s: string, at: int, dot: int)
    requires PatternSplit(s, at, dot)
    ensures NoSpace(s)
  {
    forall j | 0 <= j < |s| ensures !Strings.IsSpace(s[j]) {
      if j != at {
        assert PlainChar(s[j]);
      } else {
        assert s[j] == '@';
      }
    }
  }

  /** A string whose only `@` is at `at` counts one `@`, and it is found at `at`. */
  lemma SingleAt(s: string, at: int)
    requires 0 <= at < |s| && s[at] == '@'
    requires forall j :: 0 <= j < |s| && j != at ==> PlainChar(s[j])
    ensures Strings.Count(s, '@') == 1 && Strings.IndexOf(s, '@') == at
  {
    var pre, post := s[..at], s[at + 1..];
    assert '@' !in pre by {
      forall i | 0 <= i < |pre| ensures pre[i] != '@' {
        assert pre[i] == s[i] && PlainChar(s[i]);
      }
    }
    assert '@' !in post by {
      forall i | 0 <= i < |post| ensures post[i] != '@' {
        assert post[i] == s[at + 1 + i] && PlainChar(s[at + 1 + i]);
      }
    }
    Strings.CountAround(s, at, '@');
    var k := Strings.IndexOf(s, '@');
    assert s[..k] == s[..at + 1][..k];
  }

  /** With no `@` on either side of position `at`, every other character differs from `@`. */
  lemma OnlyOneAt(s: string, at: int)
    requires 0 <= at < |s| && Strings.Count(s[..at], '@') == 0 && Strings.Count(s[at + 1..], '@') == 0
    ensures forall j :: 0 <= j < |s| && j != at ==> s[j] != '@'
  {
    var pre, post := s[..at], s[at + 1..];
    assert '@' !in pre && '@' !in post;
    forall j | 0 <= j < |s| && j != at ensures s[j] != '@' {
      if j > at {
        assert s[j] == post[j - at - 1];
      } else {
        assert s[j] == pre[j];
      }
    }
  }

  /** The seeded admin address, its local part `admin` at the domain `tienda.com`, passes. */
  lemma AdminEmailValid(email: string)
    requires email == "admin" + "@" + "tienda.com"
    ensures ValidateEmail(email)
  {
    assert PatternSplit(email, 5, 12);
    ValidateEmailMatchesPattern(email);
  }

  /** The outcome of one field's rules. */
  datatype FieldResult = Passed | Failed(message: string)

  /** `required`, then `minLength`/`maxLength`, on a text field. */
  function LengthRule(value: string, required: string, min: nat, minMessage: string, max: nat, maxMessage: string): (r: FieldResult)
    ensures r.Passed? <==> value != "" && min <= Strings.Utf16Length(value) <= max
    ensures value == "" ==> r == Failed(required)
    ensures value != "" && Strings.Utf16Length(value) > max ==> r == Failed(maxMessage)
    ensures value != "" && Strings.Utf16Length(value) < min <= max ==> r == Failed(minMessage)
  {
    var n := Strings.Utf16Length(value);
    if value == "" then Failed(required)
    else if n > max then Failed(maxMessage)
    else if n < min then Failed(minMessage)
    else Passed
  }

  const NAME_REQUIRED: string := "El nombre es requerido"
  const NAME_MIN: string := "El nombre debe tener al menos 3 caracteres"
  const NAME_MAX: string := "El nombre no puede exceder 100 caracteres"
  const DESCRIPTION_REQUIRED: string := "La descripción es requerida"
  const DESCRIPTION_MIN: string := "La descripción debe tener al menos 10 caracteres"
  const DESCRIPTION_MAX: string := "La descripción no puede exceder 500 caracteres"
  const PRICE_REQUIRED: string := "El precio es requerido"
  const PRICE_MIN: string := "El precio debe ser mayor a 0"
  const IMAGES_REQUIRED: string := "Debe agregar al menos 1 imagen"
  const IMAGES_MAX: string := "Máximo 4 imágenes permitidas"
  const URLS_INVALID: string := "Todas las URLs deben ser válidas"
  const SIZES_REQUIRED: string := "Debe seleccionar al menos 1 talle"
  const COLORS_REQUIRED: string := "Debe agregar al menos 1 color"
  const GENDER_REQUIRED: string := "El género es requerido"
  const CATEGORY_REQUIRED: string := "La categoría es requerida"
  const EMAIL_REQUIRED: string := "El email es requerido"
  const EMAIL_INVALID: string := "Email inválido"
  const PASSWORD_REQUIRED: string := "La contraseña es requerida"
  const PASSWORD_MIN: string := "La contraseña debe tener al menos 6 caracteres"

  function ValidateName(name: string): (r: FieldResult)
    ensures r.Passed? <==> 3 <= Strings.Utf16Length(name) <= 100
    ensures name == "" ==> r == Failed(NAME_REQUIRED)
  {
    LengthRule(name, NAME_REQUIRED, 3, NAME_MIN, 100, NAME_MAX)
  }

  function ValidateDescription(description: string): (r: FieldResult)
    ensures r.Passed? <==> 10 <= Strings.Utf16Length(description) <= 500
    ensures description == "" ==> r == Failed(DESCRIPTION_REQUIRED)
  {
    LengthRule(description, DESCRIPTION_REQUIRED, 10, DESCRIPTION_MIN, 500, DESCRIPTION_MAX)
  }

  /** U+1F600, a character outside the Basic Multilingual Plane, written as a surrogate pair in UTF-16. */
  const ASTRAL: char := 0x1F600 as char

  /** Two characters, one of them outside the Basic Multilingual Plane, already make a valid name. */
  lemma AstralCharCountsTwice()
    ensures ValidateName(['a', ASTRAL]).Passed?
    ensures ValidateName("ab").Failed?
  {
    assert Strings.Utf16Length(['a', ASTRAL]) == 3;
  }

  /** The price field read as a number; `None` is an empty or non-numeric input. */
  function ValidatePrice(price: Option<real>): (r: FieldResult)
    ensures r.Passed? <==> price.Some? && price.value >= 0.01
    ensures price.None? ==> r == Failed(PRICE_REQUIRED)
  {
    if price.None? then Failed(PRICE_REQUIRED)
    else if price.value < 0.01 then Failed(PRICE_MIN)
    else Passed
  }

  /** For a whole-number price the minimum of 0.01 means "greater than zero". */
  lemma IntegerPriceRule(n: int)
    ensures ValidatePrice(Some(n as real)).Passed? <==> n > 0
  {
  }

  /** The image list: at least one entry, at most four, and every entry a URL the browser parses; checked in that order. */
  function ValidateImages(images: seq<string>, validUrl: string -> bool): (r: FieldResult)
    ensures r.Passed? <==> 1 <= |images| <= 4 && forall i :: 0 <= i < |images| ==> validUrl(images[i])
    ensures |images| == 0 ==> r == Failed(IMAGES_REQUIRED)
    ensures |images| > 4 ==> r == Failed(IMAGES_MAX)
    ensures 1 <= |images| <= 4 && r.Failed? ==> r == Failed(URLS_INVALID)
  {
    if |images| < 1 then Failed(IMAGES_REQUIRED)
    else if |images| > 4 then Failed(IMAGES_MAX)
    else if exists i :: 0 <= i < |images| && !validUrl(images[i]) then Failed(URLS_INVALID)
    else Passed
  }

  function ValidateSizes(sizes: seq<string>): (r: FieldResult)
    ensures r.Passed? <==> |sizes| >= 1
  {
    if |sizes| >= 1 then Passed else Failed(SIZES_REQUIRED)
  }

  /** The colour list only needs an entry; a blank entry counts. */
  function ValidateColors(colors: seq<string>): (r: FieldResult)
    ensures r.Passed? <==> |colors| >= 1
  {
    if |colors| >= 1 then Passed else Failed(COLORS_REQUIRED)
  }

  /** `required` on a select field. */
  function Required(value: string, message: string): (r: FieldResult)
    ensures r.Passed? <==> value != ""
    ensures r.Failed? ==> r.message == message
  {
    if value == "" then Failed(message) else Passed
  }

  /** The messages of every rule of the product table that fails, in table order. */
  function ProductErrors(name: string, description: string, price: Option<real>, images: seq<string>,
                         sizes: seq<string>, colors: seq<string>, gender: string, category: string,
                         validUrl: string -> bool): (errs: seq<string>)
    ensures errs == [] <==>
      && 3 <= Strings.Utf16Length(name) <= 100 && 10 <= Strings.Utf16Length(description) <= 500
      && price.Some? && price.value >= 0.01
      && 1 <= |images| <= 4 && (forall i :: 0 <= i < |images| ==> validUrl(images[i]))
      && |sizes| >= 1 && |colors| >= 1 && gender != "" && category != ""
    ensures |errs| <= 8
  {
    var results := [ValidateName(name), ValidateDescription(description), ValidatePrice(price),
                    ValidateImages(images, validUrl), ValidateSizes(sizes), ValidateColors(colors),
                    Required(gender, GENDER_REQUIRED), Required(category, CATEGORY_REQUIRED)];
    assert results[0] == ValidateName(name) && results[1] == ValidateDescription(description);
    assert results[2] == ValidatePrice(price) && results[3] == ValidateImages(images, validUrl);
    assert results[4] == ValidateSizes(sizes) && results[5] == ValidateColors(colors);
    assert results[6] == Required(gender, GENDER_REQUIRED) && results[7] == Required(category, CATEGORY_REQUIRED);
    Messages(results)
  }

  /**
    The messages the admin form shows: only the fields it registers with a
    rule (name, description, price, category, gender and the size list), in
    the order they appear on the form. The image list and the colour inputs
    are registered without rules.
   */
  function FormErrors(name: string, description: string, price: Option<real>, category: string,
                      gender: string, sizes: seq<string>): (errs: seq<string>)
    ensures errs == [] <==>
      && 3 <= Strings.Utf16Length(name) <= 100 && 10 <= Strings.Utf16Length(description) <= 500
      && price.Some? && price.value >= 0.01 && category != "" && gender != "" && |sizes| >= 1
    ensures |errs| <= 6
  {
    var results := [ValidateName(name), ValidateDescription(description), ValidatePrice(price),
                    Required(category, CATEGORY_REQUIRED), Required(gender, GENDER_REQUIRED), ValidateSizes(sizes)];
    assert results[0] == ValidateName(name) && results[1] == ValidateDescription(description);
    assert results[2] == ValidatePrice(price) && results[3] == Required(category, CATEGORY_REQUIRED);
    assert results[4] == Required(gender, GENDER_REQUIRED) && results[5] == ValidateSizes(sizes);
    Messages(results)
  }

  /**
    Data the whole rules table accepts passes the form; the converse fails,
    since the form never checks the images or the colours.
   */
  lemma FormChecksLessThanTable(name: string, description: string, price: Option<real>, images: seq<string>,
                                sizes: seq<string>, colors: seq<string>, gender: string, category: string,
                                validUrl: string -> bool)
    ensures ProductErrors(name, description, price, images, sizes, colors, gender, category, validUrl) == [] ==>
      FormErrors(name, description, price, category, gender, sizes) == []
    ensures FormErrors(name, description, price, category, gender, sizes) == [] ==>
      ProductErrors(name, description, price, [], sizes, colors, gender, category, validUrl) != []
  {
  }

  /** The messages of the failed results, in order. */
  function Messages(results: seq<FieldResult>): (msgs: seq<string>)
    ensures |msgs| <= |results|
    ensures msgs == [] <==> forall i :: 0 <= i < |results| ==> results[i].Passed?
  {
    if |results| == 0 then []
    else (if results[0].Failed? then [results[0].message] else []) + Messages(results[1..])
  }

  /** The login e-mail: `required`, then the pattern. */
  function ValidateLoginEmail(email: string): (r: FieldResult)
    ensures r.Passed? <==> ValidateEmail(email)
    ensures email == "" ==> r == Failed(EMAIL_REQUIRED)
  {
    if email == "" then Failed(EMAIL_REQUIRED)
    else if !ValidateEmail(email) then Failed(EMAIL_INVALID)
    else Passed
  }

  /** The login password: `required`, then at least six characters. */
  function ValidateLoginPassword(password: string): (r: FieldResult)
    ensures r.Passed? <==> Strings.Utf16Length(password) >= 6
    ensures password == "" ==> r == Failed(PASSWORD_REQUIRED)
    ensures password != "" && Strings.Utf16Length(password) < 6 ==> r == Failed(PASSWORD_MIN)
  {
    if password == "" then Failed(PASSWORD_REQUIRED)
    else if Strings.Utf16Length(password) < 6 then Failed(PASSWORD_MIN)
    else Passed
  }

  /** The seeded admin password passes the login rule; a five-letter password does not. */
  lemma AdminPasswordValid()
    ensures ValidateLoginPassword("admin123").Passed?
    ensures ValidateLoginPassword("admin") == Failed(PASSWORD_MIN)
  {
    Strings.Utf16LengthOfBmp("admin123");
    Strings.Utf16LengthOfBmp("admin");
  }
}

=== FILE: web_response.dfy ===
/**
  The JSON envelope of every backend reply (package `web`): a status code
  and, except for 204, a body with the `success` flag and either the data or
  an error code with its message. Headers and encoding are not modelled.
 */
module WebResponse {
  import opened Wrappers

  datatype ErrorInfo = ErrorInfo(code: string, message: string)

  /** `Response`: `data` and `error` are omitted when absent. */
  datatype Envelope<T> = Envelope(success: bool, data: Option<T>, error: Option<ErrorInfo>)

  /** What the handler writes: the status and the body, if any. */
  datatype Reply<T> = Reply(status: int, body: Option<Envelope<T>>)

  const STATUS_OK: int := 200
  const STATUS_CREATED: int := 201
  const STATUS_NO_CONTENT: int := 204
  const STATUS_BAD_REQUEST: int := 400
  const STATUS_UNAUTHORIZED: int := 401
  const STATUS_NOT_FOUND: int := 404
  const STATUS_INTERNAL_ERROR: int := 500

  /**
    How a Go slice grown by `append` from a nil slice is encoded: `null` when
    nothing was appended, the array otherwise.
   */
  function NilWhenEmpty<T>(s: seq<T>): (j: Option<seq<T>>)
    ensures j.None? <==> s == []
    ensures j.Some? ==> j.value == s
  {
    if s == [] then None else Some(s)
  }

  /** The status is in the 2xx range. */
  predicate IsSuccessStatus(status: int) {
    200 <= status < 300
  }

  /** `Respond`: the data under a flag that is set exactly for a 2xx status. */
  function Respond<T>(status: int, data: T): (r: Reply<T>)
    ensures r.status == status && r.body.Some?
    ensures r.body.value.success <==> IsSuccessStatus(status)
    ensures r.body.value.data == Some(data) && r.body.value.error.None?
  {
    Reply(status, Some(Envelope(IsSuccessStatus(status), Some(data), None)))
  }

  /** `RespondError`: never a success, always the code and the message. */
  function RespondError<T>(status: int, code: string, message: string): (r: Reply<T>)
    ensures r.status == status && r.body.Some?
    ensures !r.body.value.success && r.body.value.data.None?
    ensures r.body.value.error == Some(ErrorInfo(code, message))
  {
    Reply(status, Some(Envelope(false, None, Some(ErrorInfo(code, message)))))
  }

  function RespondOK<T>(data: T): (r: Reply<T>)
    ensures r == Respond(STATUS_OK, data) && r.body.value.success
  {
    Respond(STATUS_OK, data)
  }

  function RespondCreated<T>(data: T): (r: Reply<T>)
    ensures r == Respond(STATUS_CREATED, data) && r.body.value.success
  {
    Respond(STATUS_CREATED, data)
  }

  /** `RespondNoContent`: the status alone, no body at all. */
  function RespondNoContent<T>(): (r: Reply<T>)
    ensures r.status == STATUS_NO_CONTENT && r.body.None?
  {
    Reply(STATUS_NO_CONTENT, None)
  }

  function RespondBadRequest<T>(message: string): (r: Reply<T>)
    ensures r == RespondError(STATUS_BAD_REQUEST, "bad_request", message)
  {
    RespondError(STATUS_BAD_REQUEST, "bad_request", message)
  }

  function RespondUnauthorized<T>(message: string): (r: Reply<T>)
    ensures r == RespondError(STATUS_UNAUTHORIZED, "unauthorized", message)
  {
    RespondError(STATUS_UNAUTHORIZED, "unauthorized", message)
  }

  function RespondNotFound<T>(message: string): (r: Reply<T>)
    ensures r == RespondError(STATUS_NOT_FOUND, "not_found", message)
  {
    RespondError(STATUS_NOT_FOUND, "not_found", message)
  }

  function RespondInternalError<T>(message: string): (r: Reply<T>)
    ensures r == RespondError(STATUS_INTERNAL_ERROR, "internal_error", message)
  {
    RespondError(STATUS_INTERNAL_ERROR, "internal_error", message)
  }

  /** A reply whose body, when it has one, agrees with its status: success exactly for 2xx, and an error exactly when not successful. */
  predicate Consistent<T>(r: Reply<T>) {
    r.body.Some? ==>
      && (r.body.value.success <==> IsSuccessStatus(r.status))
      && (r.body.value.error.Some? <==> !r.body.value.success)
  }

  /** Every reply the helpers build is consistent, and an error helper's code names its status. */
  lemma HelpersAreConsistent<T>(data: T, message: string)
    ensures Consistent(RespondOK(data)) && Consistent(RespondCreated(data)) && Consistent(RespondNoContent<T>())
    ensures Consistent(RespondBadRequest<T>(message)) && Consistent(RespondUnauthorized<T>(message))
    ensures Consistent(RespondNotFound<T>(message)) && Consistent(RespondInternalError<T>(message))
  {
  }

  /** The error code written for each error status. */
  function CodeOf(status: int): (code: Option<string>)
    ensures code.Some? <==> status in {STATUS_BAD_REQUEST, STATUS_UNAUTHORIZED, STATUS_NOT_FOUND, STATUS_INTERNAL_ERROR}
  {
    if status == STATUS_BAD_REQUEST then Some("bad_request")
    else if status == STATUS_UNAUTHORIZED then Some("unauthorized")
    else if status == STATUS_NOT_FOUND then Some("not_found")
    else if status == STATUS_INTERNAL_ERROR then Some("internal_error")
    else None
  }

  /** Each error helper pairs its status with that status's code, so the code alone tells the status back. */
  lemma ErrorCodesMatchStatus<T>(message: string)
    ensures var r := RespondBadRequest<T>(message); CodeOf(r.status) == Some(r.body.value.error.value.code)
    ensures var r := RespondUnauthorized<T>(message); CodeOf(r.status) == Some(r.body.value.error.value.code)
    ensures var r := RespondNotFound<T>(message); CodeOf(r.status) == Some(r.body.value.error.value.code)
    ensures var r := RespondInternalError<T>(message); CodeOf(r.status) == Some(r.body.value.error.value.code)
  {
  }
}

=== FILE: wrappers.dfy ===
/**
  Option and Result types shared by the whole model.

  `Option` stands for the source's optional values (`undefined`/`null` in
  TypeScript, `nil` pointers and SQL NULLs in Go); `Result` stands for the
  error returns of the Go code and for the exceptions of the TypeScript code.
 */
module Wrappers {

  datatype Option<+T> = None | Some(value: T) {

    /** The wrapped value, or `default` when there is none (the `??` / `||` idiom). */
    function GetOr(default: T): T {
      match this
      case Some(v) => v
      case None => default
    }
  }

  datatype Result<+T, +E> = Ok(value: T) | Err(error: E) {

    function ToOption(): Option<T> {
      match this
      case Ok(v) => Some(v)
      case Err(_) => None
    }
  }
}
